=== FILE: README.md ===
# CommandLineUtils command pipeline, in Dafny

This project models the core of LapisDev/CommandLineUtils. That library turns annotated C# classes and methods into the commands, arguments and options of a `CommandLineApplication`. It also turns the strings the parser collects into typed parameter values.

The model follows the library's pipeline from metadata to command:

- **Naming** (`string_case.dfy`, module `StringCase`): the regex word splitter `SplitPhrase`, written as a recursive tokenizer that keeps the pattern's leftmost-alternative and give-back semantics. Also the pascal, camel, snake, kebab and train recompositions.
- **Annotations** (`attributes.dfy`): the attribute records, with the defaults each constructor leaves behind and their `AttributeUsage`.
- **Descriptor tree** (`descriptors.dfy`, `ownership.dfy`):
  - `CommandModel` and its nested models, as an immutable tree;
  - separately, the mutable owner/child bookkeeping of the `Parent`, `Command`, `HelpOption` and `VersionOption` setters, as an arena of numbered objects.
- **Builder** (`metadata.dfy`, `builder.dfy`): `CommandModelBuilder` as pure decisions over abstract reflection records. These cover the is-command filters, argument-or-option classification, option kinds, names and templates, help/version precedence and the whole-method rejection.
- **Binder** (`selection.dfy`, `binder.dfy`, `slots.dfy`, `command_binder.dfy`, `execution.dfy`): `CommandBinder`.
  - converter and handler enumeration up the ancestor chain;
  - first-match converter selection after removing repeats;
  - the tri-state strategy cascades of `BindArgument` and `BindOption`;
  - matching items to parameter slots;
  - the execute callback, with its integer handler chains.
- **Converters** (`constructor_converter.dfy`, `method_converter.dfy`, `collection_converter.dfy`): the selection rules of `ConstrctorConverter`, `MethodConverter` and `CollectionConverter`.
- **Application** (`application.dfy`):
  - the two `Command` entry points, reduced to their `NotSupportedException`;
  - the default converter order;
  - scenarios taken from the sample application.

Three things are inputs to the model rather than parts of it:

- **Types** are an abstract `Ty`.
- **`Type.IsAssignableFrom`** is a relation parameter.
- **`IConverter.CanConvert`** of a converter type is a relation parameter.

Reflection is a set of records: a type's constructors and methods, in the order reflection reports them, plus the flags and attributes the code asks about. Registering an argument or option on the external application appends a record to a log. Parsed input is a map from slot to strings. An exception is the `Failure` of a `Result`.

Where the code departs from what it evidently intends, the model keeps both behaviours. The type `Types.Variant` picks one: `AsWritten` or `Corrected`. The builder, the command binder and the collection converter take it as a parameter. The `Application` entry points and the default converters use `AsWritten`. The corrected behaviour is stated and proved next to it, and each such pair is listed under "## Findings". One example is the derived option template. `CommandModelBuilder.cs:230-234` picks a placeholder by option kind, but line 221 has already set the template, so that branch never runs.

## Model

| member | source | states |
|---|---|---|
| StringCase.MatchAtIsWordAt | Lapis.CommandLineUtils/Util/StringCaseExtensions.cs:95 | The backtracking five-alternative pattern matches at a position exactly the word the character class there decides: whole lowercase or digit runs, a capital run whole unless lowercase follows, then without its last capital. |
| StringCase.GiveBackOnCapitals | Lapis.CommandLineUtils/Util/StringCaseExtensions.cs:95 | `\p{Lu}+(?!\p{Ll})` gives back exactly one capital before a lowercase letter, and fails for a lone capital, leaving it to `\p{Lu}\p{Ll}+`. |
| StringCase.ScanWords | Lapis.CommandLineUtils/Util/StringCaseExtensions.cs:93-98 | Every token is non-empty and is a lowercase run, an uppercase run, a capital followed by a lowercase run, or a digit run. |
| StringCase.ScanLetters | Lapis.CommandLineUtils/Util/StringCaseExtensions.cs:93-98 | The tokens concatenated are the input with every character that is not a letter or digit dropped, in order. |
| StringCase.SplitPhraseWords | Lapis.CommandLineUtils/Util/StringCaseExtensions.cs:93-98 | Every word `SplitPhrase` returns has one of the four word shapes, and the words concatenated are the input's letters and digits in order. |
| StringCase.SplitPhraseExample | Lapis.CommandLineUtils/Util/StringCaseExtensions.cs:95 | "HTMLParser" splits into "HTML" and "Parser": the last capital of a run starts the next word. |
| StringCase.SplitPhraseJoin | Lapis.CommandLineUtils/Util/StringCaseExtensions.cs:93-98 | Lowercase words joined by a separator split back into exactly those words. |
| StringCase.Capitalize | Lapis.CommandLineUtils/Util/StringCaseExtensions.cs:34-48 | The per-word pascal rule keeps the length and the letters up to case. It gives a non-lowercase first letter. It keeps the second character of a two-letter word and lowercases the rest of a longer word. |
| StringCase.CapitalizeIdempotent | Lapis.CommandLineUtils/Util/StringCaseExtensions.cs:34-48 | Applying the per-word rule twice is applying it once. |
| StringCase.PascalCase | Lapis.CommandLineUtils/Util/StringCaseExtensions.cs:34-48 | Pascal case consists of the input's letters and digits, up to case, and nothing else. It starts with a non-lowercase letter when there is a word. |
| StringCase.CamelCase | Lapis.CommandLineUtils/Util/StringCaseExtensions.cs:50-65 | Camel case equals pascal case up to case and in length. It differs only in the first word, which it lowercases whole. |
| StringCase.SnakeCase | Lapis.CommandLineUtils/Util/StringCaseExtensions.cs:67-70 | Snake case splits back into the lowercased words, and splitting it at "_" gives them too. It has the input's letters lowercased, no capital, and no leading or trailing "_". It is empty exactly when the input has no letters. It is idempotent. |
| StringCase.KebabCase | Lapis.CommandLineUtils/Util/StringCaseExtensions.cs:72-75 | As snake case, with "-". |
| StringCase.TrainCase | Lapis.CommandLineUtils/Util/StringCaseExtensions.cs:77-91 | Splitting train case at "-" gives the capitalized words, and its letters are pascal case. |
| StringCase.LowerJoinClean | Lapis.CommandLineUtils/Util/StringCaseExtensions.cs:67-75 | Lowercased words joined by a separator hold only lowercase letters, digits and the separator, and neither start nor end with the separator. |
| Attributes.NewCommandAttr | Lapis.CommandLineUtils/Attributes.cs:9-24 | `[Command]` leaves name, description and help text null, does not allow the argument separator, and shows in help. |
| Attributes.NewNamedCommandAttr | Lapis.CommandLineUtils/Attributes.cs:11-18 | `[Command(name)]` differs from `[Command]` in the name only. |
| Attributes.NewArgumentAttr | Lapis.CommandLineUtils/Attributes.cs:35-50 | `[Argument]` leaves the multiplicity unspecified and shows in help. |
| Attributes.NewDescribedArgumentAttr | Lapis.CommandLineUtils/Attributes.cs:37-50 | `[Argument(name, description)]` fixes the multiplicity, to single by default. |
| Attributes.NewOptionAttr | Lapis.CommandLineUtils/Attributes.cs:56-71 | `[Option]` leaves template and kind unspecified. |
| Attributes.NewDescribedOptionAttr | Lapis.CommandLineUtils/Attributes.cs:58-71 | `[Option(template, description, kind)]` fixes the kind. |
| Attributes.NewHelpOptionAttr | Lapis.CommandLineUtils/Attributes.cs:77-84 | The help annotation carries the given template or none. |
| Attributes.NewVersionOptionAttr | Lapis.CommandLineUtils/Attributes.cs:95-101 | The version annotation leaves all three strings unset. |
| Attributes.UsageOf | Lapis.CommandLineUtils/Attributes.cs:6-135 | Only the converter and handler annotations repeat. Only argument and option annotations are parameter-only. Only result handlers go on return values. |
| Attributes.MayRepeatOn | Lapis.CommandLineUtils/Attributes.cs:104-135 | Converters repeat on classes, methods and parameters; result handlers on classes and return values; exception handlers on classes and methods. |
| Ownership.SetOwner | Lapis.CommandLineUtils/Models/CommandModel.cs:33-38 | The child setter changes the child's owner reference and nothing else's. |
| Ownership.SetOwnerList | Lapis.CommandLineUtils/Models/CommandModel.cs:35-37 | After the setter, the old owner's list has lost the first occurrence of the child and the new owner's list ends with it. Every other list is unchanged. |
| Ownership.SetOwnerCounts | Lapis.CommandLineUtils/Models/CommandModel.cs:35-37 | Per owner, the child moves out of the old owner's list and into the new one's, as multisets. |
| Ownership.SetOwnerConsistent | Lapis.CommandLineUtils/Models/CommandModel.cs:33-38 | The setter keeps the invariant "the owner is p exactly when the child occurs once in p's list, and in no other". |
| Ownership.SetOwnerPlacement | Lapis.CommandLineUtils/Models/CommandModel.cs:35-37 | After `Parent = p`, the child is last in p's list, occurs there once and in no other list, and p's other children keep their order. Setting the same owner again moves the child to the end. |
| Ownership.SetOwnerNone | Lapis.CommandLineUtils/Models/CommandModel.cs:33-38 | Setting the owner to null only detaches. |
| Ownership.AttachAllInOrder | Lapis.CommandLineUtils/Models/CommandModel.cs:57-71 | Attaching detached items one after another appends them in call order and keeps the invariant. |
| Ownership.NewCommand | Lapis.CommandLineUtils/Models/CommandModel.cs:13-16 | A new command has no children and the given parent. |
| Ownership.NewCommandConsistent | Lapis.CommandLineUtils/Models/CommandModel.cs:13-16 | A new command keeps the invariant and becomes its parent's last sub-command. |
| Ownership.Attach | Lapis.CommandLineUtils/Models/CommandModel.cs:47-71 | `Command`, `Argument` and `Option` make the child the receiver's last one and return the receiver. |
| Ownership.SetCommand | Lapis.CommandLineUtils/Models/CommandModel.cs:156-167 | The help/version item setter: the old command's field is cleared, the new one's points to the item, and no other command changes. |
| Ownership.SetItem | Lapis.CommandLineUtils/Models/CommandModel.cs:79-83 | The command's `HelpOption` setter pairs command and item, and throws on null. |
| Ownership.SetCommandPaired | Lapis.CommandLineUtils/Models/CommandModel.cs:156-167 | The setter keeps the one-to-one pairing when the target command holds no other item. |
| Ownership.StaleHelpReference | Lapis.CommandLineUtils/Models/CommandModel.cs:79-83 | Finding 3, as written: a second help option breaks the pairing, and moving the first one away clears the command's current help option. |
| Ownership.SetCommandDetaching | Lapis.CommandLineUtils/Models/CommandModel.cs:156-167 | Finding 3, corrected setter: it pairs item and command. |
| Ownership.SetCommandDetachingPaired | Lapis.CommandLineUtils/Models/CommandModel.cs:156-167 | The corrected setter keeps the pairing whatever the command held. |
| Ownership.SetItemDetachingPaired | Lapis.CommandLineUtils/Models/CommandModel.cs:79-93 | The corrected command-side `HelpOption` and `VersionOption` setters keep the pairing whenever they succeed. |
| Builder.IsTypeCommand | Lapis.CommandLineUtils/Models/CommandModelBuilder.cs:247-265 | A type is a command exactly when it is a public class, not abstract unless sealed (static), not open generic and not `[NonCommand]`. |
| Builder.IsMethodCommand | Lapis.CommandLineUtils/Models/CommandModelBuilder.cs:267-293 | A method is a command exactly when it passes all eight exclusions. |
| Builder.CommandAttrIrrelevant | Lapis.CommandLineUtils/Models/CommandModelBuilder.cs:260-263 | `[Command]` never changes whether a class or method is a command. |
| Builder.IsArgument | Lapis.CommandLineUtils/Models/CommandModelBuilder.cs:295-311 | A parameter is an argument exactly when it is neither out nor retval and either carries `[Argument]` or is a required, non-bool parameter without default and without `[Option]`. |
| Builder.IsOption | Lapis.CommandLineUtils/Models/CommandModelBuilder.cs:313-329 | A parameter is an option exactly when it is neither out nor retval and it carries `[Option]` or does not carry `[Argument]`. |
| Builder.ArgumentOrOption | Lapis.CommandLineUtils/Models/CommandModelBuilder.cs:295-329 | Some parameter kind applies exactly when the parameter is neither out nor retval. The parameters left to `IsOption` are exactly the `[Option]`, bool, defaulted and optional ones. |
| Builder.StripCommandSuffix | Lapis.CommandLineUtils/Models/CommandModelBuilder.cs:334-339 | A cut happens exactly when the name ends, ignoring case, in "command" and is longer than 7 characters, or ends in "commands" and is longer than 8. A cut removes exactly that suffix (7 or 8 characters) and leaves a non-empty prefix; otherwise the name is unchanged. |
| Builder.CommandNameShape | Lapis.CommandLineUtils/Models/CommandModelBuilder.cs:331-341 | Derived command names hold only lowercase letters, digits and inner hyphens. |
| Builder.CommandNameSuffixed | Lapis.CommandLineUtils/Models/CommandModelBuilder.cs:331-341 | "FileCommands" becomes "file". |
| Builder.CommandNameBare | Lapis.CommandLineUtils/Models/CommandModelBuilder.cs:331-341 | "Command" stays "command": only a proper suffix is cut. |
| Builder.ArgumentName | Lapis.CommandLineUtils/Models/CommandModelBuilder.cs:343-346 | Argument names have no capital and the parameter's letters, lowercased. |
| Builder.OptionTemplateShape | Lapis.CommandLineUtils/Models/CommandModelBuilder.cs:348-365 | A template has a `<` placeholder exactly when asked to. It starts with "-" alone when the kebab-case name is one character long and with "--" otherwise. It names the option by the parameter's lowercased letters, twice with a placeholder. |
| Builder.HelpChoice | Lapis.CommandLineUtils/Models/CommandModelBuilder.cs:98-110 | Help precedence: the parameterless lookup's `[HelpOption]`, then its `[NoHelpOption]`, then the `inherit: true` lookup's `[HelpOption]` and `[NoHelpOption]`, then "-?\|-h\|--help". |
| Builder.HelpChoiceOneLookup | Lapis.CommandLineUtils/Models/CommandModelBuilder.cs:98-110 | When the parameterless and the `inherit: true` lookups report the same annotations, a `[HelpOption]` wins, then `[NoHelpOption]` gives none, then the default template. |
| Builder.VersionChoice | Lapis.CommandLineUtils/Models/CommandModelBuilder.cs:112-121 | A version option exists only when annotated, with the annotation's three strings. |
| Builder.CreateArgumentModel | Lapis.CommandLineUtils/Models/CommandModelBuilder.cs:185-209 | An argument model exists exactly for argument parameters. Without a declared name it takes the derived name. Without the annotation it takes the parameter's display text and shows in help. Its multiplicity comes only from the annotation, and its converters are the parameter's. |
| Builder.OptionKindOf | Lapis.CommandLineUtils/Models/CommandModelBuilder.cs:223-228 | The declared kind wins. Otherwise the kind is no-value exactly when the parameter accepts a bool, and otherwise it is left open. |
| Builder.DerivedTemplateAsWritten | Lapis.CommandLineUtils/Models/CommandModelBuilder.cs:221 | Finding 5, as written: a declared template is kept. |
| Builder.DerivedTemplateAsWrittenLacksPlaceholder | Lapis.CommandLineUtils/Models/CommandModelBuilder.cs:221-234 | As written, a derived template never carries a value placeholder. |
| Builder.DerivedTemplate | Lapis.CommandLineUtils/Models/CommandModelBuilder.cs:230-234 | Finding 5, corrected: a declared template is kept. |
| Builder.DerivedTemplatePlaceholder | Lapis.CommandLineUtils/Models/CommandModelBuilder.cs:230-234 | A derived template has a placeholder exactly when the option takes a value. It agrees with the as-written one for no-value options. |
| Builder.CreateOptionModel | Lapis.CommandLineUtils/Models/CommandModelBuilder.cs:211-245 | An option model exists exactly for option parameters, with the inferred kind, the parameter's text and the parameter's converters. A declared template is kept. An undeclared one has no value placeholder as written; corrected, it has one exactly when the option takes a value. |
| Builder.ClassifyParameters | Lapis.CommandLineUtils/Models/CommandModelBuilder.cs:41-56 | When the parameter loop succeeds, every parameter becomes exactly one argument or option. |
| Builder.ClassifyParametersSome | Lapis.CommandLineUtils/Models/CommandModelBuilder.cs:41-56 | The parameter loop succeeds exactly when no parameter is out or retval. |
| Builder.ClassifyArguments | Lapis.CommandLineUtils/Models/CommandModelBuilder.cs:41-48 | The arguments are the argument parameters, in parameter order. |
| Builder.ClassifyOptions | Lapis.CommandLineUtils/Models/CommandModelBuilder.cs:49-54 | The options are the remaining parameters, in parameter order. |
| Builder.CommandHeader | Lapis.CommandLineUtils/Models/CommandModelBuilder.cs:68-75 | Without `[Command]` the header has the derived name, the reflection display text, no separator and no extended help, and shows in help. With it, separator, extended help and visibility come from the annotation, and the name is the annotation's or else the derived one. The header has no children. |
| Builder.CreateMethodCommand | Lapis.CommandLineUtils/Models/CommandModelBuilder.cs:126-183 | A method command takes its converters from the method and its result handlers from the return value. It never has exception handlers, and it uses the help/version precedence. |
| Builder.BuildMethodCommand | Lapis.CommandLineUtils/Models/CommandModelBuilder.cs:35-58 | A built method command is a command, invokes that method and has no sub-commands. |
| Builder.BuildMethodCommandSpec | Lapis.CommandLineUtils/Models/CommandModelBuilder.cs:35-58 | A method builds exactly when it is a command without out/retval parameters. Its arguments and options then partition the parameters in order, and nothing partial is returned. |
| Builder.SubCommandsInOrder | Lapis.CommandLineUtils/Models/CommandModelBuilder.cs:26-31 | The sub-commands are the methods that build, in the order `GetMethods()` reports them. |
| Builder.SubCommandsBuilt | Lapis.CommandLineUtils/Models/CommandModelBuilder.cs:26-31 | Each sub-command is what its method builds. |
| Builder.BuildTypeCommand | Lapis.CommandLineUtils/Models/CommandModelBuilder.cs:60-124 | A class builds exactly when it is a command. It invokes nothing, has no arguments or options, and takes converters, result handlers and exception handlers from the class. It uses the help/version precedence, and its sub-commands are those the class's methods build. |
| Selection.EnumerateCommandInOrder | Lapis.CommandLineUtils/Models/CommandBinder.cs:436-449 | A command's enumeration is its list, then each ancestor's, nearest first, then the global list once. |
| Selection.EnumerateItemInOrder | Lapis.CommandLineUtils/Models/CommandBinder.cs:451-477 | An argument or option adds its own list in front. Without a command it gets the global list directly. |
| Selection.SelectConverterChoice | Lapis.CommandLineUtils/Models/CommandBinder.cs:397-434 | The chosen converter is the first candidate that can be instantiated and converts, repeats notwithstanding. There is none exactly when no candidate qualifies. |
| Selection.SelectHandlers | Lapis.CommandLineUtils/Models/CommandBinder.cs:481-482 | The selected handlers are exactly the instantiable candidates, each once, in first-occurrence order. |
| Selection.RunChainResult | Lapis.CommandLineUtils/Models/CommandBinder.cs:484-496 | The chain yields the first non-negative value, else the last value, else the initial one. |
| Selection.RunChainStops | Lapis.CommandLineUtils/Models/CommandBinder.cs:487-494 | Values after the first non-negative one do not matter. |
| Selection.RunChainExamples | Lapis.CommandLineUtils/Models/CommandBinder.cs:484-496 | [-1,-1,2,5] gives 2, [-1,-1] gives -1 and [] gives 0. |
| Binder.BindArgument | Lapis.CommandLineUtils/Models/CommandBinder.cs:150-243 | A forced-single argument is never registered as multiple, and a forced-multiple one never as single. The failure message mentions string[] exactly when multiplicity is forced to multiple, and names the parameter type by its full name. |
| Binder.ArgumentCascadeConvert | Lapis.CommandLineUtils/Models/CommandBinder.cs:157-204 | The converting branches, in order: string, then `List<string>`, then `string[]`. |
| Binder.ArgumentCascadeAssign | Lapis.CommandLineUtils/Models/CommandBinder.cs:205-242 | The assigning branches, in order, and the `NotSupportedException` when none fits. |
| Binder.BindArgumentByTable | Lapis.CommandLineUtils/Models/CommandBinder.cs:150-243 | The argument cascade is the first admitted, working strategy of the table. A single value falls back to the default; multiple values ignore it. |
| Binder.BindOptionAsWritten | Lapis.CommandLineUtils/Models/CommandBinder.cs:245-395 | Finding 4, as written: a single or multiple kind is registered as declared. A presence-reading supplier occurs only for an open or no-value kind. The error depends on the kind. |
| Binder.BindOption | Lapis.CommandLineUtils/Models/CommandBinder.cs:245-395 | Finding 4, corrected: a declared kind is the registered kind, and a no-value registration is exactly one that reads presence. |
| Binder.OptionCascadeText | Lapis.CommandLineUtils/Models/CommandBinder.cs:252-283 | The flag branch wins, then the string converter with a default-or-null fallback. |
| Binder.OptionCascadeList | Lapis.CommandLineUtils/Models/CommandBinder.cs:284-325 | The `List<string>` converter, then the `string[]` converter. |
| Binder.OptionCascadeAssign | Lapis.CommandLineUtils/Models/CommandBinder.cs:326-358 | Direct assignment of a string, then of a `List<string>`. |
| Binder.OptionCascadeArray | Lapis.CommandLineUtils/Models/CommandBinder.cs:359-371 | Direct assignment of a `string[]`. |
| Binder.OptionCascadePresence | Lapis.CommandLineUtils/Models/CommandBinder.cs:373-386 | The bool converter fed with presence, registered as no-value. |
| Binder.PresenceAsWritten | Lapis.CommandLineUtils/Models/CommandBinder.cs:373-386 | As written, the same branch registers a single-value option. |
| Binder.OptionCascadeNone | Lapis.CommandLineUtils/Models/CommandBinder.cs:389-394 | With no branch fitting, the exception message depends on the kind. |
| Binder.BindOptionByTable | Lapis.CommandLineUtils/Models/CommandBinder.cs:245-395 | The corrected option cascade is the first admitted, working strategy of the table, registered with the kind that strategy serves. |
| Binder.BindOptionFlag | Lapis.CommandLineUtils/Models/CommandBinder.cs:252-261 | An open or no-value option of a bool-accepting parameter becomes a no-value registration reading `HasValue()`. |
| Binder.BindOptionAsWrittenMisregisters | Lapis.CommandLineUtils/Models/CommandBinder.cs:373-386 | Finding 4: as written, a no-value option fed only by a bool converter is registered as single-value; corrected, as no-value. |
| Slots.SlotOf | Lapis.CommandLineUtils/Models/CommandBinder.cs:68-69 | The slot is the parameter's position in the method, or -1 exactly when the method lacks it. |
| Slots.PlaceFrom | Lapis.CommandLineUtils/Models/CommandBinder.cs:65-86 | The two loops succeed exactly when no item is faulty. They then place every item at its parameter's slot in order; otherwise they raise the first faulty item's exception. |
| Slots.PlaceStops | Lapis.CommandLineUtils/Models/CommandBinder.cs:68-83 | A missing or repeated parameter, or a failing binding, stops the loop with that item's exception. |
| Slots.FirstEmptySlot | Lapis.CommandLineUtils/Models/CommandBinder.cs:87-91 | The first empty slot is the first parameter that no item feeds. |
| Slots.BindParametersSpec | Lapis.CommandLineUtils/Models/CommandBinder.cs:63-91 | Binding succeeds exactly when no item is faulty and every parameter is fed once. Suppliers are then in parameter order and registrations in item order. Failures name the first faulty item, else the first unfed parameter. |
| Slots.BoundItem | Lapis.CommandLineUtils/Models/CommandBinder.cs:63-91 | In a successful binding each item's supplier stands at its parameter and its registration at its own position. |
| Execution.SupplyAllSpec | Lapis.CommandLineUtils/Models/CommandBinder.cs:94 | The argument array holds each supplier's value in parameter order. Otherwise the first raising supplier's exception is raised. |
| Execution.InstanceChoice | Lapis.CommandLineUtils/Models/CommandBinder.cs:120-128 | The receiver is the service's instance. Failing that, it is the first public non-abstract parameterless constructor's, or null. |
| Execution.RunHandlersChain | Lapis.CommandLineUtils/Models/CommandBinder.cs:484-496 | When no handler raises, the handler loop computes the integer chain. |
| Execution.RunHandlersStops | Lapis.CommandLineUtils/Models/CommandBinder.cs:487-494 | Handlers after a non-negative value or an exception are never asked. |
| Execution.RunHandlersRaises | Lapis.CommandLineUtils/Models/CommandBinder.cs:540-552 | The loop raises only the exception of a handler all of whose predecessors returned negative values. |
| Execution.Execute | Lapis.CommandLineUtils/Models/CommandBinder.cs:97-137 | A successful try is the callback's result, and only a failed try can make the callback raise. |
| Execution.ExecuteWithoutHandlers | Lapis.CommandLineUtils/Models/CommandBinder.cs:100-109 | Without handlers the exit code is 0, or the exception's `HResult`. |
| Execution.SupplierFaultHandled | Lapis.CommandLineUtils/Models/CommandBinder.cs:101-109 | A supplier's exception goes to the exception chain, and the method is not invoked. |
| Execution.ExecuteChains | Lapis.CommandLineUtils/Models/CommandBinder.cs:97-137 | The exit code is the result chain from 0 on success, or the exception chain from `HResult` otherwise. |
| Execution.ExecuteEscapes | Lapis.CommandLineUtils/Models/CommandBinder.cs:106-109 | Only an exception handler's exception escapes the callback. |
| CommandBinding.Items | Lapis.CommandLineUtils/Models/CommandBinder.cs:65-86 | The arguments come first and then the options, each bound against its own converter enumeration. Options go through the variant's cascade. |
| CommandBinding.ResultHandlersSpec | Lapis.CommandLineUtils/Models/CommandBinder.cs:479-533 | The callback's result handlers are, each once, those the chain or the global list names and that can be instantiated. |
| CommandBinding.ExceptionHandlersSpec | Lapis.CommandLineUtils/Models/CommandBinder.cs:535-589 | The same holds for exception handlers. |
| CommandBinding.BindMethod | Lapis.CommandLineUtils/Models/CommandBinder.cs:63-91 | A bound method has one supplier per parameter and one registration per argument and option. |
| CommandBinding.BindMethodSucceeds | Lapis.CommandLineUtils/Models/CommandBinder.cs:63-91 | Method binding succeeds exactly when every item is clean and every parameter fed. |
| CommandBinding.BindMethodFeedsArguments | Lapis.CommandLineUtils/Models/CommandBinder.cs:65-75 | Each argument's supplier is at its parameter, and its registration at its own position. |
| CommandBinding.BindMethodFeedsOptions | Lapis.CommandLineUtils/Models/CommandBinder.cs:76-86 | Each option's supplier, from the variant's cascade, is at its parameter, and its registration comes after all the arguments'. |
| CommandBinding.BindCommand | Lapis.CommandLineUtils/Models/CommandBinder.cs:40-148 | One bound subcommand per model subcommand. There is a callback exactly for a method command, targeting that method. A class command registers nothing itself. |
| CommandBinding.ChildResultsAt | Lapis.CommandLineUtils/Models/CommandBinder.cs:141-145 | Subcommands are bound in order, with the command prepended to the ancestors. |
| CommandBinding.BindCommandSpec | Lapis.CommandLineUtils/Models/CommandBinder.cs:40-148 | Binding succeeds exactly when the method and every subcommand bind, and the method's exception comes first. The properties, help and version are copied. |
| ConstructorConverter.CanConvert | src/Lapis.CommandLineUtils/Converters/ConstructorConverter.cs:9-16 | False on a null type. Otherwise true exactly when some public non-abstract instance constructor has one parameter accepting the source. |
| ConstructorConverter.Convert | src/Lapis.CommandLineUtils/Converters/ConstructorConverter.cs:18-30 | Null checks in order. It succeeds exactly when `CanConvert` holds for the runtime type, invoking the first accepting constructor on the value; otherwise `InvalidCastException`. |
| ConstructorConverter.ConvertAgrees | src/Lapis.CommandLineUtils/Converters/ConstructorConverter.cs:18-30 | What decides is the value's runtime type only. |
| ConstructorConverter.ReportedOrderWins | src/Lapis.CommandLineUtils/Converters/ConstructorConverter.cs:32-48 | When reflection reports an `object` constructor before a `string` one, a string goes to the first. |
| MethodConverter.ByPrecedence | src/Lapis.CommandLineUtils/Converters/MethodConverter.cs:53-72 | The name chain returns a candidate carrying one of the names. |
| MethodConverter.ByPrecedenceSpec | src/Lapis.CommandLineUtils/Converters/MethodConverter.cs:53-72 | The winner is the first candidate carrying the earliest name that any candidate carries, and there is none exactly when no candidate carries any name. |
| MethodConverter.StaticTo | src/Lapis.CommandLineUtils/Converters/MethodConverter.cs:39-73 | A found method is a static "To" candidate of the source with a precedence name. |
| MethodConverter.StaticFrom | src/Lapis.CommandLineUtils/Converters/MethodConverter.cs:75-113 | A found method is a static "From" candidate of the target with a precedence name. |
| MethodConverter.InstanceTo | src/Lapis.CommandLineUtils/Converters/MethodConverter.cs:115-128 | A found method is a parameterless public instance method named "To" plus the target's name. |
| MethodConverter.CanConvert | src/Lapis.CommandLineUtils/Converters/MethodConverter.cs:9-18 | False on null types. When true, some method of one of the three shapes exists. |
| MethodConverter.ConvertAsWritten | src/Lapis.CommandLineUtils/Converters/MethodConverter.cs:20-37 | Finding 1, as written: it succeeds only through a static method, exactly when one is found. |
| MethodConverter.Convert | src/Lapis.CommandLineUtils/Converters/MethodConverter.cs:20-37 | Finding 1, corrected: after the null checks, it succeeds exactly when `CanConvert` holds; otherwise `InvalidCastException`. |
| MethodConverter.ConvertChoice | src/Lapis.CommandLineUtils/Converters/MethodConverter.cs:27-34 | The method invoked: the static "To" one, else the static "From" one, else the instance "To" one, on the value. |
| MethodConverter.AsWrittenMissesInstanceMethods | src/Lapis.CommandLineUtils/Converters/MethodConverter.cs:32-36 | Both versions agree when a static method exists. With only an instance method, `CanConvert` holds but the as-written `Convert` throws. |
| MethodConverter.MetersToFeet | src/Lapis.CommandLineUtils/Converters/MethodConverter.cs:32-36 | A concrete input for Finding 1. |
| MethodConverter.ImplicitBeforeExplicit | src/Lapis.CommandLineUtils/Converters/MethodConverter.cs:53-59 | `op_Implicit` wins over an `op_Explicit` that reflection reports earlier. |
| MethodConverter.OpTrueOnlyForBool | src/Lapis.CommandLineUtils/Converters/MethodConverter.cs:61-66 | `op_True` is never chosen for a target other than `bool`. |
| CollectionConverter.SourceItemType | Lapis.CommandLineUtils/Converters/CollectionConverter.cs:26-37 | A rank-one array gives its element type, and a type without an item type is not enumerable. |
| CollectionConverter.ArrayItemType | Lapis.CommandLineUtils/Converters/CollectionConverter.cs:41 | Finding 2: as written the item type exists only for an array source; corrected, it is the target's element type. |
| CollectionConverter.CollectionConstructor | Lapis.CommandLineUtils/Converters/CollectionConverter.cs:110-128 | The first exact `IEnumerable<item>` constructor, else the last one accepting `IList<item>`, else none exactly when neither exists. |
| CollectionConverter.CanConvert | Lapis.CommandLineUtils/Converters/CollectionConverter.cs:19-58 | True exactly when both types are non-null, the source has an item type, and either the target is a vector whose item type the item converter accepts, or a closed single-argument generic with a collection constructor whose argument the item converter accepts. |
| CollectionConverter.Convert | Lapis.CommandLineUtils/Converters/CollectionConverter.cs:60-108 | Null checks in order. A non-enumerable source gives `InvalidCastException`. A successful array result has one item per element. |
| CollectionConverter.ConvertToArray | Lapis.CommandLineUtils/Converters/CollectionConverter.cs:81-91 | Corrected: the result is an array of the target type holding each converted element at its index. Otherwise the first failing item's exception is raised. |
| CollectionConverter.ConvertToGeneric | Lapis.CommandLineUtils/Converters/CollectionConverter.cs:92-105 | The chosen constructor receives one list of the converted elements in order. Otherwise the first failing item's exception is raised. |
| CollectionConverter.ConvertIffCanConvert | Lapis.CommandLineUtils/Converters/CollectionConverter.cs:19-108 | With an item converter that accepts everything and never throws, the corrected `Convert` succeeds exactly when `CanConvert` accepts the value's runtime type. |
| CollectionConverter.ConvertMatchesCanConvert | Lapis.CommandLineUtils/Converters/CollectionConverter.cs:19-108 | `Convert` succeeds only on shapes `CanConvert` accepts, and fails on an accepted pair only through an item. |
| CollectionConverter.AsWrittenArrayType | Lapis.CommandLineUtils/Converters/CollectionConverter.cs:83-87 | As written, an array result takes the source's element type. It is of the target type exactly when the two element types agree. |
| CollectionConverter.StringArrayToIntArray | Lapis.CommandLineUtils/Converters/CollectionConverter.cs:83 | A concrete input for Finding 2 in `Convert`. |
| CollectionConverter.ListToArrayAsked | Lapis.CommandLineUtils/Converters/CollectionConverter.cs:26-41 | A concrete input for Finding 2 in `CanConvert`. `List<string>` gets item type `object` from the non-generic `IEnumerable` branch. As written the item converter is asked about a null target item type; corrected, about `int`. |
| Application.CommandForType | src/Lapis.CommandLineUtils/CommandLineApplicationExtensions.cs:61-76 | A class that is not a command gives `NotSupportedException("Type … is not supported.")`. On success there is no callback and one subcommand per building method. |
| Application.CommandForMethod | src/Lapis.CommandLineUtils/CommandLineApplicationExtensions.cs:78-93 | A non-command method, or one with an out/retval parameter, gives `NotSupportedException("Method … is not supported.")`. |
| Application.DefaultArraysAsWritten | src/Lapis.CommandLineUtils/CommandLineApplicationExtensions.cs:95-104 | The default `CollectionConverter` is the as-written one: `string[]` to `int[]` depends on the item converter accepting `string` to `string`. |
| Application.DefaultsAfterWrappers | src/Lapis.CommandLineUtils/CommandLineApplicationExtensions.cs:95-104 | With the default order, `MethodConverter` is chosen over `ConstrctorConverter` when both apply and the wrappers do not. |
| MethodConverter.StaticFromOrder | src/Lapis.CommandLineUtils/Converters/MethodConverter.cs:75-113 | The static-from lookup tries `op_Implicit` and `op_Explicit` first, then `op_True` exactly for a bool target, then "From" plus the source type's name, then `Parse`. |
| Application.ParseFound | src/Lapis.CommandLineUtils/Converters/MethodConverter.cs:75-113 | `Version.Parse(string)` is found exactly when its parameter is flagged `in`. |
| Application.ParseOrConstructor | src/Lapis.CommandLineUtils/CommandLineApplicationExtensions.cs:97-103 | With the defaults, a string goes to `Parse` when it is found, else to the string constructor. |
| Application.IgnoreCaseFlag | samples/CommandLineSampleApp/Text.cs:13 | `[Option] bool ignoreCase = false`, built and bound as written, is a no-value option without placeholder, reading `HasValue()`. |
| Application.ForcedSingleArgument | CommandLineSampleApp/Math.cs:12-13 | `[Argument("a", "An integer.")] int a` registers a single argument reading its first value through the string converter. |
| Binder.ForcedSingleFails | Lapis.CommandLineUtils/Models/CommandBinder.cs:157-243 | A forced-single argument with no string converter and no string-accepting parameter fails with the string message, whatever list converters exist. |
| Application.ForcedSingleSkipsLists | CommandLineSampleApp/Math.cs:12-13 | The same argument ignores list converters and fails with "No converter from string to System.Int32.". |
| Application.SingleValueOptionWithDefault | CommandLineSampleApp/Math.cs:31-32 | The declared single-value option, bound as written, keeps its declared template and falls back to its default when absent. |

## Left out

- Dependency injection: the service-collection wrappers, service registration and `GetService` as a container. `GetService` is a parameter (`Host.service`, `Factory.fromServices`).
- `SystemConvertConverter`, `TypeConverterConverter`, `EnumNameConverter`: thin wrappers over framework conversions. They are opaque members of the convertibility relation.
- Result and exception handlers: they do console and file I/O. Their `Handle` is a parameter returning an int or raising.
- Reflection:
  - the parameterless `GetCustomAttribute<T>()` and `GetCustomAttribute<T>(inherit: true)` lookups, `IsSpecialName`, the `IDisposable` interface map and `GetBaseDefinition` are precomputed flags and attribute fields of the metadata records;
  - `Type.IsAssignableFrom` is a relation parameter;
  - `MethodInfo.Invoke` and `ConstructorInfo.Invoke` produce symbolic values or come from parameters.
- Builder.HelpChoice: the two help lookups are independent fields of the metadata. In .NET the parameterless `GetCustomAttribute<T>()` extension also searches base definitions, and the help annotations are inheritable, so both lookups agree and the two inherited steps of CommandModelBuilder.cs:103-109 cannot change the outcome (`Builder.HelpChoiceOneLookup` states the resulting rule). The model keeps both steps because the source spells them out.
- The order of constructors and methods: the model takes the order `GetConstructors()` and `GetMethods()` return as a given sequence. The runtime does not promise declaration order, so every "first" or "last" pick (constructor, conversion method, collection constructor, sub-command order) is stated relative to that reported order.
- Exceptions thrown inside an invoked constructor, conversion method or collection constructor. A converter's own `Convert` is a parameter that may fail.
- The external `CommandLineApplication`: tokenising, parsing and help output. Registrations are a log, and parsed values are a map from slot to strings.
- `ArgumentNullException` for a null model, parameter or type passed to the builder or binder: the model's inputs are never null.
- The partly registered application left behind when binding throws midway: the model returns the exception only.
- The runtime type check of `Array.SetValue` in `CollectionConverter`: a converted item that does not fit the created array is not an error in the model.
- CollectionConverter.Convert: does not state in its own contract that a supported target shape and a present item type lead to success. `ConvertToArray`, `ConvertToGeneric` and `ConvertMatchesCanConvert` state this for the corrected variant, while the as-written variant is covered only by `AsWrittenArrayType` and the concrete lemmas.
- CollectionConverter.ConvertToGeneric: the generic-target branch is stated for any `Type.IsAssignableFrom` relation. In .NET that relation never holds for the open definition `IEnumerable<>`, so `SourceItemType` never takes its generic branch. Constructors of an open generic definition also cannot be invoked. The model lets the relation admit such cases and reports a `Constructed` value for them.
- MethodConverter.CanConvert: states only that a found method has the right shape, not the converse. The exact iff with the three lookups is in `MethodConverter.Convert` for non-null values.
- `StringCase` classifies characters by ASCII letters and digits only. Unicode categories beyond ASCII count as "other", since Dafny has no Unicode tables.
- `Slots` and `CommandBinding` take an item's command to be the command being bound, as the builder's setters make it. Item command references that point elsewhere are not modelled.
- `Ownership` models the bookkeeping of the setters on numbered objects. The builder and binder use the immutable tree of `Descriptors`, which holds what those setters produce.
- The sample applications' arithmetic and file I/O: the samples serve only as scenario inputs.

## Findings

| source | as written | input that shows it | evidently intended | confidence | as-written member | corrected member |
|---|---|---|---|---|---|---|
| src/Lapis.CommandLineUtils/Converters/MethodConverter.cs:32-34 | The fallback after the static lookups calls `GetStaticFromMethod` again and invokes the result on the value. | Type `Meters` with only an instance `Feet ToFeet()`: `CanConvert(Meters, Feet)` is true, `Convert` throws `InvalidCastException`. | Call `GetInstanceToMethod`, as `CanConvert` does. | high, not executed | MethodConverter.ConvertAsWritten, MethodConverter.MetersToFeet | MethodConverter.Convert |
| Lapis.CommandLineUtils/Converters/CollectionConverter.cs:41 | The target item type of an array target is the source type's element type (also at line 83). | `string[] {"1"}` to `int[]` gives a `string[]`; `List<string>` to `int[]` asks the item converter about a null target type. | Use the target's element type. | high, not executed | CollectionConverter.ArrayItemType, CollectionConverter.StringArrayToIntArray | CollectionConverter.ConvertToArray |
| Lapis.CommandLineUtils/Models/CommandModel.cs:79-83 | The help and version setters do not detach the item the command held before. | Command c has help h0; `c.HelpOption = h1`; then `h0.Command = d` clears c's field although h1 still refers to c. | Detach the previous item. | medium, not executed | Ownership.StaleHelpReference | Ownership.SetCommandDetachingPaired |
| Lapis.CommandLineUtils/Models/CommandBinder.cs:373-386 | The bool-converter branch, admitted only for an open or no-value kind and reading `HasValue()`, registers a single-value option. | A `NoValue` option of a non-bool type with a bool converter is registered as taking a value. | Register `CommandOptionType.NoValue`. | medium, not executed | Binder.BindOptionAsWrittenMisregisters | Binder.BindOption |
| Lapis.CommandLineUtils/Models/CommandModelBuilder.cs:221 | An undeclared template is derived with `hasValue` false before the kind-dependent branch at 230-234, which therefore never runs. | `int count` with `[Option]` gets the template "--count", without "<count>". | Leave the template null at 221 so that 230-234 add the placeholder for value options. | medium, not executed | Builder.DerivedTemplateAsWrittenLacksPlaceholder | Builder.DerivedTemplatePlaceholder |

=== FILE: application.dfy ===
/** The entry points that register a command class or method on an
    application (`CommandLineApplicationExtensions.Command`), reduced to what
    they decide: the converters every application gets, and the exception
    for a class or method that is not a command. The dependency-injection
    wiring around them is not modelled. */
module Application {
  import opened Wrappers
  import opened Seqs
  import opened Types
  import opened Errors
  import opened Attributes
  import opened Metadata
  import opened Descriptors
  import opened Reflection
  import opened Selection
  import opened Builder
  import opened Binder
  import opened CommandBinding
  import MethodConverter
  import ConstructorConverter
  import CollectionConverter

  const SystemConvertConverterTy := Named("SystemConvertConverter")
  const TypeConverterConverterTy := Named("TypeConverterConverter")
  const MethodConverterTy := Named("MethodConverter")
  const ConstrctorConverterTy := Named("ConstrctorConverter")
  const EnumNameConverterTy := Named("EnumNameConverter")
  const CollectionConverterTy := Named("CollectionConverter")

  /** `AddDefaultConverters`: the global converter list, in the order the
      converters are registered and therefore tried. */
  const DefaultConverters: seq<Ty> := [
    SystemConvertConverterTy, TypeConverterConverterTy, MethodConverterTy,
    ConstrctorConverterTy, EnumNameConverterTy, CollectionConverterTy]

  /** What the default converters convert: the three modelled ones by their
      own `CanConvert`, the thin wrappers over the framework and any other
      converter type by `others`. */
  function DefaultConvertibility(rt: Runtime, items: CollectionConverter.ItemConverter, others: Convertibility): Convertibility {
    (c: Ty, s: Ty, t: Ty) =>
      if c == MethodConverterTy then MethodConverter.CanConvert(rt, Some(s), Some(t))
      else if c == ConstrctorConverterTy then ConstructorConverter.CanConvert(rt, Some(s), Some(t))
      else if c == CollectionConverterTy then CollectionConverter.CanConvert(AsWritten, rt, items, Some(s), Some(t))
      else others(c, s, t)
  }

  /** The defaults run the collection converter as written: whether a
      `string[]` parameter can be fed to an `int[]` one depends on the item
      converter accepting `string` to `string`, the source's element type. */
  lemma DefaultArraysAsWritten(rt: Runtime, items: CollectionConverter.ItemConverter, others: Convertibility)
    ensures DefaultConvertibility(rt, items, others)(CollectionConverterTy, StringArrayTy, ArrayTy(Named("Int32"), 1))
      == items.canConvert(Some(StringTy), Some(StringTy))
  {
    assert CollectionConverterTy != MethodConverterTy && CollectionConverterTy != ConstrctorConverterTy;
    assert CollectionConverter.SourceItemType(rt, StringArrayTy) == Some(StringTy);
    var target := ArrayTy(Named("Int32"), 1);
    assert CollectionConverter.ArrayItemType(AsWritten, StringArrayTy, target) == Some(StringTy);
    assert CollectionConverter.CanConvert(AsWritten, rt, items, Some(StringArrayTy), Some(target))
      == items.canConvert(Some(StringTy), Some(StringTy));
    assert DefaultConvertibility(rt, items, others)(CollectionConverterTy, StringArrayTy, target)
      == CollectionConverter.CanConvert(AsWritten, rt, items, Some(StringArrayTy), Some(target));
  }

  /** `Command(TypeInfo)`: build the class command and bind it at the top
      level; a class that does not build is not supported. */
  function CommandForType(t: TypeInfo, env: Environment): (r: Result<BoundCommand, Error>)
    ensures !IsTypeCommand(t) ==> r == Failure(NotSupported("Type " + t.name + " is not supported."))
    ensures r.Success? ==> IsTypeCommand(t) && r.value.execute.None? && r.value.registrations == []
    ensures r.Success? ==> |r.value.subcommands| == |SubCommands(t.methods, env.assignable, AsWritten)|
  {
    match BuildTypeCommand(t, env.assignable, AsWritten)
    case None => Failure(NotSupported("Type " + t.name + " is not supported."))
    case Some(cm) => BindCommand(cm, [], env, AsWritten)
  }

  /** `Command(MethodInfo)`: build the method command and bind it at the top
      level; a method that does not build is not supported. */
  function CommandForMethod(m: MethodInfo, env: Environment): (r: Result<BoundCommand, Error>)
    ensures (!IsMethodCommand(m) || exists k :: 0 <= k < |m.parameters| && (m.parameters[k].isOut || m.parameters[k].isRetval)) ==>
      r == Failure(NotSupported("Method " + m.name + " is not supported."))
    ensures r.Success? ==> r.value.execute.Some? && r.value.execute.value.target == m && r.value.subcommands == []
  {
    BuildMethodCommandSpec(m, env.assignable, AsWritten);
    match BuildMethodCommand(m, env.assignable, AsWritten)
    case None => Failure(NotSupported("Method " + m.name + " is not supported."))
    case Some(cm) => BindCommand(cm, [], env, AsWritten)
  }

  /** `MethodConverter` converts a `string` to `Version` through
      `Version.Parse(string)` exactly when its parameter is flagged `in`. */
  lemma ParseFound(rt: Runtime, flagged: bool)
    requires rt.methodsOf(Named("Version")) == [Method(Named("Version"), "Parse", true, true, false, Named("Version"), [Param(StringTy, flagged)])]
    requires rt.methodsOf(StringTy) == []
    requires rt.assignable(StringTy, StringTy)
    ensures MethodConverter.CanConvert(rt, Some(StringTy), Some(Named("Version"))) == flagged
  {
    var version := Named("Version");
    var parse := rt.methodsOf(version)[0];
    var fromNames := MethodConverter.StaticFromNames(StringTy, version);
    MethodConverter.StaticFromOrder(StringTy, version);
    var fromShape := (m: Method) => MethodConverter.StaticFromShape(rt.assignable, StringTy, version, m);
    FilterStep(parse, [], fromShape);
    assert [parse] + [] == rt.methodsOf(version);
    if flagged {
      var candidates := Filter(rt.methodsOf(version), fromShape);
      assert candidates == [parse];
      MethodConverter.ByPrecedenceSpec(candidates, fromNames);
      assert MethodConverter.MentionedIn(candidates)(fromNames[3]);
    }
  }

  /** Selection among the defaults when the two framework wrappers decline:
      `MethodConverter` if it can, else `ConstrctorConverter` if it can. */
  lemma DefaultsAfterWrappers(canConvert: Convertibility, f: Factory, source: Ty, target: Ty)
    requires !canConvert(SystemConvertConverterTy, source, target)
    requires !canConvert(TypeConverterConverterTy, source, target)
    requires canConvert(MethodConverterTy, source, target) || canConvert(ConstrctorConverterTy, source, target)
    requires forall c :: c in DefaultConverters[2..4] ==> CanCreate(f, c)
    ensures SelectConverter(DefaultConverters, f, canConvert, source, target)
      == Some(if canConvert(MethodConverterTy, source, target) then MethodConverterTy else ConstrctorConverterTy)
  {
    assert DefaultConverters[2..4] == [MethodConverterTy, ConstrctorConverterTy];
    assert CanCreate(f, MethodConverterTy) && CanCreate(f, ConstrctorConverterTy);
    var usable := Usable(f, canConvert, source, target);
    SelectConverterChoice(DefaultConverters, f, canConvert, source, target);
    var d := DefaultConverters;
    FirstWhereSuffix(d, 0, usable);
    FirstWhereSuffix(d, 1, usable);
    FirstWhereSuffix(d, 2, usable);
    FirstWhereSuffix(d, 3, usable);
    assert d[0..] == d;
  }

  /** With nothing but the defaults to choose from, a `string` parameter of a
      type that declares both a public static `Parse(string)` and a public
      constructor taking a `string` goes to `MethodConverter`, which comes
      first, when the parameter of `Parse` is flagged `in`; otherwise
      `MethodConverter` declines and `ConstrctorConverter` is chosen. */
  lemma ParseOrConstructor(rt: Runtime, items: CollectionConverter.ItemConverter, others: Convertibility, f: Factory, flagged: bool)
    requires rt.methodsOf(Named("Version")) == [Method(Named("Version"), "Parse", true, true, false, Named("Version"), [Param(StringTy, flagged)])]
    requires rt.methodsOf(StringTy) == []
    requires rt.ctorsOf(Named("Version")) == [Ctor(true, false, false, [StringTy])]
    requires rt.assignable(StringTy, StringTy)
    requires !others(SystemConvertConverterTy, StringTy, Named("Version"))
    requires !others(TypeConverterConverterTy, StringTy, Named("Version"))
    requires forall c :: c in DefaultConverters[2..4] ==> CanCreate(f, c)
    ensures SelectConverter(DefaultConverters, f, DefaultConvertibility(rt, items, others), StringTy, Named("Version"))
      == Some(if flagged then MethodConverterTy else ConstrctorConverterTy)
  {
    var version := Named("Version");
    var canConvert := DefaultConvertibility(rt, items, others);
    ParseFound(rt, flagged);
    assert ConstructorConverter.Accepts(rt.assignable, StringTy, rt.ctorsOf(version)[0]);
    assert canConvert(MethodConverterTy, StringTy, version) == flagged;
    assert ConstructorConverter.CanConvert(rt, Some(StringTy), Some(version));
    assert MethodConverterTy != ConstrctorConverterTy;
    assert canConvert(ConstrctorConverterTy, StringTy, version);
    assert !canConvert(SystemConvertConverterTy, StringTy, version);
    assert !canConvert(TypeConverterConverterTy, StringTy, version);
    DefaultsAfterWrappers(canConvert, f, StringTy, version);
  }

  /** `[Option] bool ignoreCase = false` of `TextCommands.Equal`: the
      parameter becomes an option, not an argument, of no-value kind with a
      derived template carrying no value placeholder, and binding registers
      a no-value option whose supplier reads whether it was given. */
  lemma IgnoreCaseFlag(p: ParamInfo, index: nat, cands: seq<Ty>, env: Environment)
    requires p == ParamInfo("ignoreCase", 2, BoolTy, false, false, true, Some(Truth(false)), "Boolean ignoreCase",
      None, Some(NewOptionAttr()), [])
    requires env.assignable(BoolTy, BoolTy)
    ensures !IsArgument(p) && CreateOptionModel(p, env.assignable, AsWritten).Some?
    ensures var o := CreateOptionModel(p, env.assignable, AsWritten).value;
      && o.optionType == Some(NoValue) && '<' !in o.template
      && BindOptionAsWritten(o, index, cands, env)
        == Success(Bound(OptionRegistration(o.template, "Boolean ignoreCase", NoValue, true), Supplier(OptionSlot(index), Presence, None, None)))
  {
    var o := CreateOptionModel(p, env.assignable, AsWritten).value;
    BindOptionFlag(o, index, cands, env);
  }

  /** `[Argument("a", "An integer.")] int a` of `MathCommands.Add`: the
      described attribute forces a single value, so with a converter from
      `string` the argument reads its first value through it, with no
      fallback since the parameter has no default. */
  lemma ForcedSingleArgument(p: ParamInfo, index: nat, cands: seq<Ty>, env: Environment)
    requires p == ParamInfo("a", 0, Named("Int32"), false, false, false, None, "Int32 a",
      Some(NewDescribedArgumentAttr("a", "An integer.")), None, [])
    requires ConverterFor(cands, env, ConvertText, Named("Int32")).Some?
    ensures CreateArgumentModel(p).Some?
    ensures var a := CreateArgumentModel(p).value;
      && a.multipleValues == Some(false)
      && BindArgument(a, index, cands, env)
        == Success(Bound(ArgumentRegistration("a", "An integer.", false, true),
             Supplier(ArgumentSlot(index), FirstValue, ConverterFor(cands, env, ConvertText, Named("Int32")), None)))
  {
  }

  /** The same argument without a converter from `string`: converters from
      `List<string>` or `string[]` are never considered for it, so binding
      fails with the single-value message even when one exists. */
  lemma ForcedSingleSkipsLists(p: ParamInfo, index: nat, cands: seq<Ty>, env: Environment)
    requires p == ParamInfo("a", 0, Named("Int32"), false, false, false, None, "Int32 a",
      Some(NewDescribedArgumentAttr("a", "An integer.")), None, [])
    requires ConverterFor(cands, env, ConvertText, Named("Int32")).None?
    requires ConverterFor(cands, env, ConvertList, Named("Int32")).Some?
    requires !env.assignable(Named("Int32"), StringTy)
    requires env.fullName(Named("Int32")) == "System.Int32"
    ensures CreateArgumentModel(p).Some?
    ensures BindArgument(CreateArgumentModel(p).value, index, cands, env)
      == Failure(NoConverter("string", "System.Int32"))
  {
    var a := CreateArgumentModel(p).value;
    assert a.parameter == p && a.multipleValues == Some(false);
    ForcedSingleFails(a, index, cands, env);
  }

  /** `[Option("-b|--base <base>", "Base, default E.", SingleValue)] double b
      = Math.E` of `MathCommands.Log`: the declared template and kind are
      kept, and with a converter from `string` the option reads its first
      value, falling back to the default `e` when it is absent. */
  lemma SingleValueOptionWithDefault(p: ParamInfo, e: Value, index: nat, cands: seq<Ty>, env: Environment)
    requires p == ParamInfo("b", 1, Named("Double"), false, false, true, Some(e), "Double b",
      None, Some(NewDescribedOptionAttr("-b|--base <base>", "Base, default E.", SingleValue)), [])
    requires ConverterFor(cands, env, ConvertText, Named("Double")).Some?
    ensures !IsArgument(p) && CreateOptionModel(p, env.assignable, AsWritten).Some?
    ensures var o := CreateOptionModel(p, env.assignable, AsWritten).value;
      BindOptionAsWritten(o, index, cands, env)
        == Success(Bound(OptionRegistration("-b|--base <base>", "Base, default E.", SingleValue, true),
             Supplier(OptionSlot(index), FirstValue, ConverterFor(cands, env, ConvertText, Named("Double")), Some(e))))
  {
    var o := CreateOptionModel(p, env.assignable, AsWritten).value;
    assert o.optionType == Some(SingleValue);
    OptionCascadeText(o, index, cands, env);
  }
}

=== FILE: attributes.dfy ===
/** The annotations a command class or method carries (`Attributes.cs`), as
    plain records. Each `New...` function is one of the attribute's
    constructors and fixes the property values that constructor leaves
    behind; a property the source leaves unset is `None` (C# `null`). */
module Attributes {
  import opened Wrappers
  import opened Types

  /** `CommandOptionType` of the command-line parser. */
  datatype OptionKind = MultipleValue | SingleValue | NoValue

  datatype CommandAttr = CommandAttr(
    name: Option<string>,
    description: Option<string>,
    allowArgumentSeparator: bool,
    extendedHelpText: Option<string>,
    showInHelpText: bool)

  /** `[Command]`. */
  function NewCommandAttr(): (a: CommandAttr)
    ensures a.name.None? && a.description.None? && a.extendedHelpText.None?
    ensures !a.allowArgumentSeparator && a.showInHelpText
  {
    CommandAttr(None, None, false, None, true)
  }

  /** `[Command(name)]`: only the name differs from `[Command]`. */
  function NewNamedCommandAttr(name: string): (a: CommandAttr)
    ensures a.name == Some(name)
    ensures a.(name := None) == NewCommandAttr()
  {
    NewCommandAttr().(name := Some(name))
  }

  datatype ArgumentAttr = ArgumentAttr(
    name: Option<string>,
    description: Option<string>,
    multipleValues: Option<bool>,
    showInHelpText: bool)

  /** `[Argument]`: the multiplicity is left open. */
  function NewArgumentAttr(): (a: ArgumentAttr)
    ensures a.name.None? && a.description.None?
    ensures a.multipleValues.None?
    ensures a.showInHelpText
  {
    ArgumentAttr(None, None, None, true)
  }

  /** `[Argument(name, description, multipleValues = false)]`: the
      multiplicity is always fixed, to single unless asked otherwise. */
  function NewDescribedArgumentAttr(name: string, description: string, multipleValues: bool := false): (a: ArgumentAttr)
    ensures a.name == Some(name) && a.description == Some(description)
    ensures a.multipleValues == Some(multipleValues)
    ensures a.showInHelpText
  {
    ArgumentAttr(Some(name), Some(description), Some(multipleValues), true)
  }

  datatype OptionAttr = OptionAttr(
    template: Option<string>,
    description: Option<string>,
    optionType: Option<OptionKind>,
    showInHelpText: bool)

  /** `[Option]`: template and kind are left open. */
  function NewOptionAttr(): (a: OptionAttr)
    ensures a.template.None? && a.description.None?
    ensures a.optionType.None?
    ensures a.showInHelpText
  {
    OptionAttr(None, None, None, true)
  }

  /** `[Option(template, description, optionType)]`: the kind is fixed. */
  function NewDescribedOptionAttr(template: string, description: string, optionType: OptionKind): (a: OptionAttr)
    ensures a.template == Some(template) && a.description == Some(description)
    ensures a.optionType == Some(optionType)
    ensures a.showInHelpText
  {
    OptionAttr(Some(template), Some(description), Some(optionType), true)
  }

  datatype HelpOptionAttr = HelpOptionAttr(template: Option<string>)

  /** `[HelpOption]` (no template) and `[HelpOption(template)]`. */
  function NewHelpOptionAttr(template: Option<string> := None): (a: HelpOptionAttr)
    ensures a.template == template
  {
    HelpOptionAttr(template)
  }

  datatype VersionOptionAttr = VersionOptionAttr(
    template: Option<string>,
    shortFormVersion: Option<string>,
    longFormVersion: Option<string>)

  /** `[VersionOption]`: every property is left unset. */
  function NewVersionOptionAttr(): (a: VersionOptionAttr)
    ensures a.template.None? && a.shortFormVersion.None? && a.longFormVersion.None?
  {
    VersionOptionAttr(None, None, None)
  }

  /** Where an attribute may be placed (`AttributeTargets`). */
  datatype Target = OnClass | OnMethod | OnParameter | OnReturnValue

  datatype Annotation =
    | CommandAnnotation | NonCommandAnnotation | ArgumentAnnotation | OptionAnnotation
    | HelpOptionAnnotation | NoHelpOptionAnnotation | VersionOptionAnnotation
    | ConverterAnnotation | ResultHandlerAnnotation | ExceptionHandlerAnnotation

  /** `AttributeUsage` of each attribute. */
  datatype Usage = Usage(targets: set<Target>, allowMultiple: bool)

  function UsageOf(k: Annotation): (u: Usage)
    ensures u.allowMultiple <==> k in {ConverterAnnotation, ResultHandlerAnnotation, ExceptionHandlerAnnotation}
    ensures k in {ArgumentAnnotation, OptionAnnotation} <==> u.targets == {OnParameter}
    ensures OnReturnValue in u.targets <==> k == ResultHandlerAnnotation
  {
    match k
    case ArgumentAnnotation => Usage({OnParameter}, false)
    case OptionAnnotation => Usage({OnParameter}, false)
    case ConverterAnnotation => Usage({OnClass, OnMethod, OnParameter}, true)
    case ResultHandlerAnnotation => Usage({OnClass, OnReturnValue}, true)
    case ExceptionHandlerAnnotation => Usage({OnClass, OnMethod}, true)
    case _ => Usage({OnClass, OnMethod}, false)
  }

  /** Converters repeat on classes, methods and parameters; result handlers on
      classes and return values; exception handlers on classes and methods;
      no other annotation repeats anywhere. */
  function MayRepeatOn(k: Annotation, t: Target): (r: bool)
    ensures r <==>
      || (k == ConverterAnnotation && t != OnReturnValue)
      || (k == ResultHandlerAnnotation && t in {OnClass, OnReturnValue})
      || (k == ExceptionHandlerAnnotation && t in {OnClass, OnMethod})
  {
    assert t in {OnClass, OnMethod, OnParameter} <==> t != OnReturnValue;
    UsageOf(k).allowMultiple && t in UsageOf(k).targets
  }
}

=== FILE: binder.dfy ===
/** How one argument or option of a method command is bound
    (`CommandBinder.BindArgument`, `CommandBinder.BindOption`): a cascade of
    strategies, each admitted or skipped by the declared multiplicity or
    option kind, registers the item on the command-line application and
    yields a supplier that later computes the parameter's value from what
    the parser collected. */
module Binder {
  import opened Wrappers
  import opened Seqs
  import opened Types
  import opened Attributes
  import opened Metadata
  import opened Descriptors
  import opened Errors
  import opened Selection

  // ---------------------------------------------------------------------------
  // What binding produces

  /** A call to `CommandLineApplication.Argument` or `.Option` on the command. */
  datatype Registration =
    | ArgumentRegistration(name: string, description: string, multipleValues: bool, showInHelpText: bool)
    | OptionRegistration(template: string, description: string, optionType: OptionKind, showInHelpText: bool)

  /** Which registered argument or option a supplier reads, by position among
      the command's arguments or options. */
  datatype Slot = ArgumentSlot(index: nat) | OptionSlot(index: nat)

  /** What a supplier reads of the values the parser collected: the first one
      (`Value`, `Value()`), all of them as a `List<string>` (`Values`), all of
      them copied into a `string[]`, or whether any was given (`HasValue()`). */
  datatype Reading = FirstValue | ValueList | ValueArray | Presence

  /** The `Func<object>` a binding returns: it reads its slot, passes what it
      read through the converter if there is one, and yields `fallback`
      instead when the parser collected no value, if a fallback is set. */
  datatype Supplier = Supplier(slot: Slot, reading: Reading, converter: Option<Ty>, fallback: Option<Value>)

  datatype Bound = Bound(registration: Registration, supplier: Supplier)

  /** What converter selection consults: how converters, result handlers and
      exception handlers are instantiated, what each converter type converts,
      `Type.IsAssignableFrom`, `Type.FullName` for messages, and the three
      global lists. */
  datatype Environment = Environment(
    converters: Factory,
    fullName: Ty -> string,
    canConvert: Convertibility,
    assignable: Assignability,
    resultHandlers: Factory,
    exceptionHandlers: Factory,
    globalConverters: seq<Ty>,
    globalResultHandlers: seq<Ty>,
    globalExceptionHandlers: seq<Ty>)

  // ---------------------------------------------------------------------------
  // The strategies, as a table

  /** The ways of feeding a parameter, in the order the cascades try them: as
      a flag, through a converter from string, `List<string>` or `string[]`,
      by direct assignment of one of those, or through a converter from
      `bool` fed with whether the option was given. */
  datatype Strategy =
    | Flag
    | ConvertText | ConvertList | ConvertArray
    | AssignText | AssignList | AssignArray
    | ConvertPresence

  const ArgumentStrategies: seq<Strategy> := [ConvertText, ConvertList, ConvertArray, AssignText, AssignList, AssignArray]
  const OptionStrategies: seq<Strategy> := [Flag, ConvertText, ConvertList, ConvertArray, AssignText, AssignList, AssignArray, ConvertPresence]

  /** The option kind a strategy serves, which also decides whether an
      argument strategy takes one value or many. */
  function Family(s: Strategy): OptionKind {
    match s
    case Flag => NoValue
    case ConvertText => SingleValue
    case AssignText => SingleValue
    case ConvertList => MultipleValue
    case ConvertArray => MultipleValue
    case AssignList => MultipleValue
    case AssignArray => MultipleValue
    case ConvertPresence => NoValue
  }

  /** The type the strategy feeds the parameter from. */
  function SourceType(s: Strategy): Ty {
    match s
    case Flag => BoolTy
    case ConvertPresence => BoolTy
    case ConvertText => StringTy
    case AssignText => StringTy
    case ConvertList => ListOfStringTy
    case AssignList => ListOfStringTy
    case ConvertArray => StringArrayTy
    case AssignArray => StringArrayTy
  }

  function ReadingOf(s: Strategy): Reading {
    match s
    case Flag => Presence
    case ConvertPresence => Presence
    case ConvertText => FirstValue
    case AssignText => FirstValue
    case ConvertList => ValueList
    case AssignList => ValueList
    case ConvertArray => ValueArray
    case AssignArray => ValueArray
  }

  predicate UsesConverter(s: Strategy) {
    s.ConvertText? || s.ConvertList? || s.ConvertArray? || s.ConvertPresence?
  }

  /** The tri-state filter on arguments: an unspecified multiplicity admits
      every strategy, a specified one only the strategies of that shape. */
  predicate ArgumentAdmits(multipleValues: Option<bool>, s: Strategy) {
    multipleValues.None? || multipleValues.value == (Family(s) == MultipleValue)
  }

  /** The tri-state filter on options: an unspecified kind admits every
      strategy, a specified one only the strategies serving it. */
  predicate OptionAdmits(kind: Option<OptionKind>, s: Strategy) {
    kind.None? || kind.value == Family(s)
  }

  /** The converters an argument or option may use, given its command and the
      command's ancestors, nearest first. */
  function Candidates(own: Option<seq<Ty>>, commands: seq<CommandModel>, env: Environment): seq<Ty> {
    EnumerateItem(own, ConverterChain(commands), env.globalConverters)
  }

  function ConverterFor(candidates: seq<Ty>, env: Environment, s: Strategy, target: Ty): Option<Ty> {
    SelectConverter(candidates, env.converters, env.canConvert, SourceType(s), target)
  }

  /** Whether a strategy can feed a parameter of type `target`: a converting
      strategy needs a converter, an assigning one an assignable type. */
  predicate Works(candidates: seq<Ty>, env: Environment, s: Strategy, target: Ty) {
    if UsesConverter(s) then ConverterFor(candidates, env, s, target).Some?
    else env.assignable(target, SourceType(s))
  }

  predicate ArgumentFits(a: ArgumentModel, candidates: seq<Ty>, env: Environment, s: Strategy) {
    ArgumentAdmits(a.multipleValues, s) && Works(candidates, env, s, a.parameter.paramType)
  }

  predicate OptionFits(o: OptionModel, candidates: seq<Ty>, env: Environment, s: Strategy) {
    OptionAdmits(o.optionType, s) && Works(candidates, env, s, o.parameter.paramType)
  }

  function ArgumentApplies(a: ArgumentModel, candidates: seq<Ty>, env: Environment): Strategy -> bool {
    s => ArgumentFits(a, candidates, env, s)
  }

  function OptionApplies(o: OptionModel, candidates: seq<Ty>, env: Environment): Strategy -> bool {
    s => OptionFits(o, candidates, env, s)
  }

  /** `"No converter from <source> to <type>."`, the type by its full name. */
  function NoConverter(source: string, target: string): Error {
    NotSupported("No converter from " + source + " to " + target + ".")
  }

  // ---------------------------------------------------------------------------
  // BindArgument

  function ArgumentRegistrationOf(a: ArgumentModel, many: bool): Registration {
    ArgumentRegistration(a.name, a.description, many, a.showInHelpText)
  }

  /** `BindArgument`: the first strategy the declared multiplicity admits and
      that works wins. Single-value strategies fall back to the parameter's
      default when no value was given; the multi-value ones ignore it. */
  function BindArgument(a: ArgumentModel, index: nat, cands: seq<Ty>, env: Environment): (r: Result<Bound, Error>)
    ensures r.Success? ==> r.value.registration.ArgumentRegistration?
    ensures r.Success? && a.multipleValues == Some(false) ==> !r.value.registration.multipleValues
    ensures r.Success? && a.multipleValues == Some(true) ==> r.value.registration.multipleValues
    ensures r.Failure? ==>
      r.error == NoConverter(if a.multipleValues == Some(true) then "string[]" else "string", env.fullName(a.parameter.paramType))
  {
    var t := a.parameter.paramType;
    var d := a.parameter.defaultValue;
    var many := a.multipleValues;
    var text := ConverterFor(cands, env, ConvertText, t);
    var list := ConverterFor(cands, env, ConvertList, t);
    var arr := ConverterFor(cands, env, ConvertArray, t);
    var slot := ArgumentSlot(index);
    if many != Some(true) && text.Some? then
      Success(Bound(ArgumentRegistrationOf(a, false), Supplier(slot, FirstValue, text, d)))
    else if many != Some(false) && list.Some? then
      Success(Bound(ArgumentRegistrationOf(a, true), Supplier(slot, ValueList, list, None)))
    else if many != Some(false) && arr.Some? then
      Success(Bound(ArgumentRegistrationOf(a, true), Supplier(slot, ValueArray, arr, None)))
    else if many != Some(true) && env.assignable(t, StringTy) then
      Success(Bound(ArgumentRegistrationOf(a, false), Supplier(slot, FirstValue, None, d)))
    else if many != Some(false) && env.assignable(t, ListOfStringTy) then
      Success(Bound(ArgumentRegistrationOf(a, true), Supplier(slot, ValueList, None, None)))
    else if many != Some(false) && env.assignable(t, StringArrayTy) then
      Success(Bound(ArgumentRegistrationOf(a, true), Supplier(slot, ValueArray, None, None)))
    else if many == Some(true) then
      Failure(NoConverter("string[]", env.fullName(t)))
    else
      Failure(NoConverter("string", env.fullName(t)))
  }

  /** What an argument strategy registers and supplies, read off the table. */
  function ArgumentBinding(a: ArgumentModel, index: nat, candidates: seq<Ty>, env: Environment, s: Strategy): Bound {
    var many := Family(s) == MultipleValue;
    Bound(
      ArgumentRegistrationOf(a, many),
      Supplier(ArgumentSlot(index), ReadingOf(s),
        if UsesConverter(s) then ConverterFor(candidates, env, s, a.parameter.paramType) else None,
        if many then None else a.parameter.defaultValue))
  }

  /** The first strategy of the argument order satisfying `p`. */
  lemma ArgumentOrder(p: Strategy -> bool)
    ensures FirstWhere(ArgumentStrategies, p) ==
      if p(ConvertText) then Some(ConvertText)
      else if p(ConvertList) then Some(ConvertList)
      else if p(ConvertArray) then Some(ConvertArray)
      else if p(AssignText) then Some(AssignText)
      else if p(AssignList) then Some(AssignList)
      else if p(AssignArray) then Some(AssignArray)
      else None
  {
    var xs := ArgumentStrategies;
    FirstWhereSuffix(xs, 0, p);
    FirstWhereSuffix(xs, 1, p);
    FirstWhereSuffix(xs, 2, p);
    FirstWhereSuffix(xs, 3, p);
    FirstWhereSuffix(xs, 4, p);
    FirstWhereSuffix(xs, 5, p);
    assert xs[0..] == xs;
    assert xs[6..] == [];
  }


  /** The cascade, strategy by strategy: the converting strategies. */
  lemma ArgumentCascadeConvert(a: ArgumentModel, index: nat, cands: seq<Ty>, env: Environment)
    requires ArgumentFits(a, cands, env, ConvertText) || ArgumentFits(a, cands, env, ConvertList)
      || ArgumentFits(a, cands, env, ConvertArray)
    ensures BindArgument(a, index, cands, env) ==
      if ArgumentFits(a, cands, env, ConvertText) then Success(ArgumentBinding(a, index, cands, env, ConvertText))
      else if ArgumentFits(a, cands, env, ConvertList) then Success(ArgumentBinding(a, index, cands, env, ConvertList))
      else Success(ArgumentBinding(a, index, cands, env, ConvertArray))
  {
  }

  /** The cascade, strategy by strategy: the assigning strategies, and failure
      when none fits. */
  lemma ArgumentCascadeAssign(a: ArgumentModel, index: nat, cands: seq<Ty>, env: Environment)
    requires !ArgumentFits(a, cands, env, ConvertText) && !ArgumentFits(a, cands, env, ConvertList)
    requires !ArgumentFits(a, cands, env, ConvertArray)
    ensures BindArgument(a, index, cands, env) ==
      if ArgumentFits(a, cands, env, AssignText) then Success(ArgumentBinding(a, index, cands, env, AssignText))
      else if ArgumentFits(a, cands, env, AssignList) then Success(ArgumentBinding(a, index, cands, env, AssignList))
      else if ArgumentFits(a, cands, env, AssignArray) then Success(ArgumentBinding(a, index, cands, env, AssignArray))
      else Failure(NoConverter(if a.multipleValues == Some(true) then "string[]" else "string", env.fullName(a.parameter.paramType)))
  {
  }

  /** A single-value argument with neither a converter from `string` nor a
      parameter that takes a `string` fails, whatever converters from
      `List<string>` or `string[]` exist. */
  lemma ForcedSingleFails(a: ArgumentModel, index: nat, cands: seq<Ty>, env: Environment)
    requires a.multipleValues == Some(false)
    requires ConverterFor(cands, env, ConvertText, a.parameter.paramType).None?
    requires !env.assignable(a.parameter.paramType, StringTy)
    ensures BindArgument(a, index, cands, env) == Failure(NoConverter("string", env.fullName(a.parameter.paramType)))
  {
  }

  /** The cascade is the table: binding an argument takes the first strategy
      of the argument order that the multiplicity admits and that works, and
      fails exactly when there is none. */
  lemma BindArgumentByTable(a: ArgumentModel, index: nat, cands: seq<Ty>, env: Environment)
    ensures var first := FirstWhere(ArgumentStrategies, ArgumentApplies(a, cands, env));
      BindArgument(a, index, cands, env) ==
        if first.Some? then Success(ArgumentBinding(a, index, cands, env, first.value))
        else Failure(NoConverter(if a.multipleValues == Some(true) then "string[]" else "string", env.fullName(a.parameter.paramType)))
  {
    ArgumentOrder(ArgumentApplies(a, cands, env));
    if ArgumentFits(a, cands, env, ConvertText) || ArgumentFits(a, cands, env, ConvertList)
      || ArgumentFits(a, cands, env, ConvertArray)
    {
      ArgumentCascadeConvert(a, index, cands, env);
    } else {
      ArgumentCascadeAssign(a, index, cands, env);
    }
  }

  // ---------------------------------------------------------------------------
  // BindOption

  function OptionRegistrationOf(o: OptionModel, kind: OptionKind): Registration {
    OptionRegistration(o.template, o.description, kind, o.showInHelpText)
  }

  function OptionFailure(o: OptionModel, env: Environment): Error {
    var t := env.fullName(o.parameter.paramType);
    match o.optionType
    case Some(MultipleValue) => NoConverter("string[]", t)
    case Some(NoValue) => NoConverter("bool", t)
    case _ => NoConverter("string", t)
  }

  /** `BindOption` as the source writes it. The last strategy, a converter
      from `bool` fed with whether the option was given, is admitted only for
      an unspecified or no-value kind, yet registers a single-value option. */
  function BindOptionAsWritten(o: OptionModel, index: nat, cands: seq<Ty>, env: Environment): (r: Result<Bound, Error>)
    ensures r.Success? ==> r.value.registration.OptionRegistration?
    ensures r.Success? && o.optionType == Some(SingleValue) ==> r.value.registration.optionType == SingleValue
    ensures r.Success? && o.optionType == Some(MultipleValue) ==> r.value.registration.optionType == MultipleValue
    ensures r.Success? && o.optionType == Some(NoValue) ==> r.value.supplier.reading == Presence
    ensures r.Success? && r.value.supplier.reading == Presence ==> o.optionType.None? || o.optionType == Some(NoValue)
    ensures r.Success? && r.value.registration.optionType == NoValue ==> r.value.supplier.reading == Presence
    ensures r.Failure? ==> r.error == OptionFailure(o, env)
  {
    var t := o.parameter.paramType;
    var d := o.parameter.defaultValue;
    var kind := o.optionType;
    assert kind != Some(MultipleValue) && kind != Some(SingleValue) ==> kind.None? || kind.value == NoValue;
    var text := ConverterFor(cands, env, ConvertText, t);
    var list := ConverterFor(cands, env, ConvertList, t);
    var arr := ConverterFor(cands, env, ConvertArray, t);
    var presence := ConverterFor(cands, env, ConvertPresence, t);
    var slot := OptionSlot(index);
    if kind != Some(MultipleValue) && kind != Some(SingleValue) && env.assignable(t, BoolTy) then
      Success(Bound(OptionRegistrationOf(o, NoValue), Supplier(slot, Presence, None, None)))
    else if kind != Some(MultipleValue) && kind != Some(NoValue) && text.Some? then
      Success(Bound(OptionRegistrationOf(o, SingleValue), Supplier(slot, FirstValue, text, Some(d.GetOr(Null)))))
    else if kind != Some(SingleValue) && kind != Some(NoValue) && list.Some? then
      Success(Bound(OptionRegistrationOf(o, MultipleValue), Supplier(slot, ValueList, list, d)))
    else if kind != Some(SingleValue) && kind != Some(NoValue) && arr.Some? then
      Success(Bound(OptionRegistrationOf(o, MultipleValue), Supplier(slot, ValueArray, arr, d)))
    else if kind != Some(MultipleValue) && kind != Some(NoValue) && env.assignable(t, StringTy) then
      Success(Bound(OptionRegistrationOf(o, SingleValue), Supplier(slot, FirstValue, None, d)))
    else if kind != Some(SingleValue) && kind != Some(NoValue) && env.assignable(t, ListOfStringTy) then
      Success(Bound(OptionRegistrationOf(o, MultipleValue), Supplier(slot, ValueList, None, d)))
    else if kind != Some(SingleValue) && kind != Some(NoValue) && env.assignable(t, StringArrayTy) then
      Success(Bound(OptionRegistrationOf(o, MultipleValue), Supplier(slot, ValueArray, None, d)))
    else if kind != Some(MultipleValue) && kind != Some(SingleValue) && presence.Some? then
      Success(Bound(OptionRegistrationOf(o, SingleValue), Supplier(slot, Presence, presence, None)))
    else
      Failure(OptionFailure(o, env))
  }

  /** `BindOption` with the last strategy registering a no-value option, the
      kind its filter admits and its supplier reads. */
  function BindOption(o: OptionModel, index: nat, cands: seq<Ty>, env: Environment): (r: Result<Bound, Error>)
    ensures r.Success? ==> r.value.registration.OptionRegistration?
    ensures r.Success? && o.optionType.Some? ==> r.value.registration.optionType == o.optionType.value
    ensures r.Success? ==> (r.value.registration.optionType == NoValue <==> r.value.supplier.reading == Presence)
    ensures r.Failure? ==> r.error == OptionFailure(o, env)
  {
    var r0 := BindOptionAsWritten(o, index, cands, env);
    if r0.Success? && r0.value.supplier.reading == Presence then
      Success(r0.value.(registration := OptionRegistrationOf(o, NoValue)))
    else r0
  }

  /** The option cascade a binding follows. */
  function BindOptionFor(v: Variant, o: OptionModel, index: nat, cands: seq<Ty>, env: Environment): Result<Bound, Error> {
    match v
    case AsWritten => BindOptionAsWritten(o, index, cands, env)
    case Corrected => BindOption(o, index, cands, env)
  }

  /** What an option strategy registers and supplies, read off the table: a
      single value falls back to null when the option is absent and there is
      no default, every other value-reading strategy to the default if any. */
  function OptionBinding(o: OptionModel, index: nat, candidates: seq<Ty>, env: Environment, s: Strategy): Bound {
    var d := o.parameter.defaultValue;
    Bound(
      OptionRegistrationOf(o, Family(s)),
      Supplier(OptionSlot(index), ReadingOf(s),
        if UsesConverter(s) then ConverterFor(candidates, env, s, o.parameter.paramType) else None,
        if s.ConvertText? then Some(d.GetOr(Null))
        else if Family(s) == NoValue then None
        else d))
  }

  /** The first strategy of the option order satisfying `p`. */
  lemma OptionOrder(p: Strategy -> bool)
    ensures FirstWhere(OptionStrategies, p) ==
      if p(Flag) then Some(Flag)
      else if p(ConvertText) then Some(ConvertText)
      else if p(ConvertList) then Some(ConvertList)
      else if p(ConvertArray) then Some(ConvertArray)
      else if p(AssignText) then Some(AssignText)
      else if p(AssignList) then Some(AssignList)
      else if p(AssignArray) then Some(AssignArray)
      else if p(ConvertPresence) then Some(ConvertPresence)
      else None
  {
    var xs := OptionStrategies;
    FirstWhereSuffix(xs, 0, p);
    FirstWhereSuffix(xs, 1, p);
    FirstWhereSuffix(xs, 2, p);
    FirstWhereSuffix(xs, 3, p);
    FirstWhereSuffix(xs, 4, p);
    FirstWhereSuffix(xs, 5, p);
    FirstWhereSuffix(xs, 6, p);
    FirstWhereSuffix(xs, 7, p);
    assert xs[0..] == xs;
    assert xs[8..] == [];
  }

  /** The corrected cascade, strategy by strategy: a flag, or a converter from text. */
  lemma OptionCascadeText(o: OptionModel, index: nat, cands: seq<Ty>, env: Environment)
    requires OptionFits(o, cands, env, Flag) || OptionFits(o, cands, env, ConvertText)
    ensures BindOption(o, index, cands, env) ==
      if OptionFits(o, cands, env, Flag) then Success(OptionBinding(o, index, cands, env, Flag))
      else Success(OptionBinding(o, index, cands, env, ConvertText))
  {
  }

  /** The corrected cascade, strategy by strategy: a converter from a list or an array. */
  lemma OptionCascadeList(o: OptionModel, index: nat, cands: seq<Ty>, env: Environment)
    requires !OptionFits(o, cands, env, Flag) && !OptionFits(o, cands, env, ConvertText)
    requires OptionFits(o, cands, env, ConvertList) || OptionFits(o, cands, env, ConvertArray)
    ensures BindOption(o, index, cands, env) ==
      if OptionFits(o, cands, env, ConvertList) then Success(OptionBinding(o, index, cands, env, ConvertList))
      else Success(OptionBinding(o, index, cands, env, ConvertArray))
  {
  }

  /** The corrected cascade, strategy by strategy: direct assignment of text or a list. */
  lemma OptionCascadeAssign(o: OptionModel, index: nat, cands: seq<Ty>, env: Environment)
    requires !OptionFits(o, cands, env, Flag) && !OptionFits(o, cands, env, ConvertText)
    requires !OptionFits(o, cands, env, ConvertList) && !OptionFits(o, cands, env, ConvertArray)
    requires OptionFits(o, cands, env, AssignText) || OptionFits(o, cands, env, AssignList)
    ensures BindOption(o, index, cands, env) ==
      if OptionFits(o, cands, env, AssignText) then Success(OptionBinding(o, index, cands, env, AssignText))
      else Success(OptionBinding(o, index, cands, env, AssignList))
  {
  }

  /** The corrected cascade, strategy by strategy: direct assignment of an array. */
  lemma OptionCascadeArray(o: OptionModel, index: nat, cands: seq<Ty>, env: Environment)
    requires !OptionFits(o, cands, env, Flag) && !OptionFits(o, cands, env, ConvertText)
    requires !OptionFits(o, cands, env, ConvertList) && !OptionFits(o, cands, env, ConvertArray)
    requires !OptionFits(o, cands, env, AssignText) && !OptionFits(o, cands, env, AssignList)
    requires OptionFits(o, cands, env, AssignArray)
    ensures BindOption(o, index, cands, env) == Success(OptionBinding(o, index, cands, env, AssignArray))
  {
  }

  /** The corrected cascade, strategy by strategy: the converter from `bool`. */
  lemma OptionCascadePresence(o: OptionModel, index: nat, cands: seq<Ty>, env: Environment)
    requires !OptionFits(o, cands, env, Flag) && !OptionFits(o, cands, env, ConvertText)
    requires !OptionFits(o, cands, env, ConvertList) && !OptionFits(o, cands, env, ConvertArray)
    requires !OptionFits(o, cands, env, AssignText) && !OptionFits(o, cands, env, AssignList)
    requires !OptionFits(o, cands, env, AssignArray) && OptionFits(o, cands, env, ConvertPresence)
    ensures BindOption(o, index, cands, env) == Success(OptionBinding(o, index, cands, env, ConvertPresence))
  {
    PresenceAsWritten(o, index, cands, env);
  }

  /** The as-written cascade reaches the converter from `bool` when nothing
      earlier fits. */
  lemma PresenceAsWritten(o: OptionModel, index: nat, cands: seq<Ty>, env: Environment)
    requires !OptionFits(o, cands, env, Flag) && !OptionFits(o, cands, env, ConvertText)
    requires !OptionFits(o, cands, env, ConvertList) && !OptionFits(o, cands, env, ConvertArray)
    requires !OptionFits(o, cands, env, AssignText) && !OptionFits(o, cands, env, AssignList)
    requires !OptionFits(o, cands, env, AssignArray) && OptionFits(o, cands, env, ConvertPresence)
    ensures BindOptionAsWritten(o, index, cands, env)
      == Success(Bound(OptionRegistrationOf(o, SingleValue),
           Supplier(OptionSlot(index), Presence, ConverterFor(cands, env, ConvertPresence, o.parameter.paramType), None)))
  {
  }

  /** The corrected cascade fails when no strategy fits. */
  lemma OptionCascadeNone(o: OptionModel, index: nat, cands: seq<Ty>, env: Environment)
    requires !OptionFits(o, cands, env, Flag) && !OptionFits(o, cands, env, ConvertText)
    requires !OptionFits(o, cands, env, ConvertList) && !OptionFits(o, cands, env, ConvertArray)
    requires !OptionFits(o, cands, env, AssignText) && !OptionFits(o, cands, env, AssignList)
    requires !OptionFits(o, cands, env, AssignArray) && !OptionFits(o, cands, env, ConvertPresence)
    ensures BindOption(o, index, cands, env) == Failure(OptionFailure(o, env))
  {
  }

  /** The corrected cascade is the table: the first strategy of the option
      order that the kind admits and that works, registered with the kind it
      serves; binding fails exactly when there is none. */
  lemma BindOptionByTable(o: OptionModel, index: nat, cands: seq<Ty>, env: Environment)
    ensures var first := FirstWhere(OptionStrategies, OptionApplies(o, cands, env));
      BindOption(o, index, cands, env) ==
        if first.Some? then Success(OptionBinding(o, index, cands, env, first.value))
        else Failure(OptionFailure(o, env))
  {
    OptionOrder(OptionApplies(o, cands, env));
    if OptionFits(o, cands, env, Flag) || OptionFits(o, cands, env, ConvertText) {
      OptionCascadeText(o, index, cands, env);
    } else if OptionFits(o, cands, env, ConvertList) || OptionFits(o, cands, env, ConvertArray) {
      OptionCascadeList(o, index, cands, env);
    } else if OptionFits(o, cands, env, AssignText) || OptionFits(o, cands, env, AssignList) {
      OptionCascadeAssign(o, index, cands, env);
    } else if OptionFits(o, cands, env, AssignArray) {
      OptionCascadeArray(o, index, cands, env);
    } else if OptionFits(o, cands, env, ConvertPresence) {
      OptionCascadePresence(o, index, cands, env);
    } else {
      OptionCascadeNone(o, index, cands, env);
    }
  }

  /** A boolean flag: an option of unspecified or no-value kind whose
      parameter accepts a `bool` is registered without a value and reads
      whether it was given. */
  lemma BindOptionFlag(o: OptionModel, index: nat, cands: seq<Ty>, env: Environment)
    requires o.optionType.None? || o.optionType == Some(NoValue)
    requires env.assignable(o.parameter.paramType, BoolTy)
    ensures BindOption(o, index, cands, env)
      == Success(Bound(OptionRegistrationOf(o, NoValue), Supplier(OptionSlot(index), Presence, None, None)))
  {
  }

  /** The as-written cascade registers a no-value option as a single-value one
      when only a converter from `bool` can feed its parameter. */
  lemma BindOptionAsWrittenMisregisters(o: OptionModel, index: nat, cands: seq<Ty>, env: Environment)
    requires o.optionType == Some(NoValue)
    requires !env.assignable(o.parameter.paramType, BoolTy)
    requires ConverterFor(cands, env, ConvertPresence, o.parameter.paramType).Some?
    ensures BindOptionAsWritten(o, index, cands, env).Success?
    ensures BindOptionAsWritten(o, index, cands, env).value.registration.optionType == SingleValue
    ensures BindOption(o, index, cands, env).value.registration.optionType == NoValue
  {
  }
}

=== FILE: builder.dfy ===
/** `CommandModelBuilder`: turning a class and its public methods into a
    command tree. Every decision is a function of the reflection records in
    module `Metadata`; `Type.IsAssignableFrom` is the relation `assignable`. */
module Builder {
  import opened Wrappers
  import opened Seqs
  import opened StringCase
  import opened Types
  import opened Attributes
  import opened Metadata
  import opened Descriptors

  // ---------------------------------------------------------------------------
  // Which classes, methods and parameters take part

  /** `IsCommand(TypeInfo)`: a public, instantiable (not merely abstract),
      closed class that is not marked `[NonCommand]`; `[Command]` is not needed. */
  function IsTypeCommand(t: TypeInfo): (r: bool)
    ensures r <==> t.isClass && !(t.isAbstract && !t.isSealed) && t.isPublic
                   && !ContainsGenericParameters(t.ty) && !t.isNonCommand
  {
    if !t.isClass then false
    else if t.isAbstract && !t.isSealed then false
    else if !t.isPublic then false
    else if ContainsGenericParameters(t.ty) then false
    else if t.isNonCommand then false
    else if t.commandAttr.Some? then true
    else true
  }

  /** `IsCommand(MethodInfo)`: a public, concrete, non-generic ordinary
      method that does not come from `object` or `IDisposable` and is not
      marked `[NonCommand]`. */
  function IsMethodCommand(m: MethodInfo): (r: bool)
    ensures r <==> !m.isSpecialName && !m.isNonCommand && !m.declaredOnObject && !m.implementsDispose
                   && !m.isAbstract && !m.isConstructor && !m.isGenericMethod && m.isPublic
  {
    if m.isSpecialName then false
    else if m.isNonCommand then false
    else if m.declaredOnObject then false
    else if m.implementsDispose then false
    else if m.isAbstract then false
    else if m.isConstructor then false
    else if m.isGenericMethod then false
    else if !m.isPublic then false
    else if m.isNonCommand then false
    else if m.commandAttr.Some? then true
    else true
  }

  /** A `[Command]` annotation changes the command's description, never
      whether a class or method is a command. */
  lemma CommandAttrIrrelevant(t: TypeInfo, m: MethodInfo, a: Option<CommandAttr>)
    ensures IsTypeCommand(t.(commandAttr := a)) == IsTypeCommand(t)
    ensures IsMethodCommand(m.(commandAttr := a)) == IsMethodCommand(m)
  {
  }

  /** `IsArgument`: out and return-value parameters never; `[Argument]`
      always; otherwise a parameter without `[Option]` that is not exactly
      `bool` and has no default value and is not optional. */
  function IsArgument(p: ParamInfo): (r: bool)
    ensures r <==> !p.isOut && !p.isRetval
                   && (p.argumentAttr.Some?
                       || (p.optionAttr.None? && p.paramType != BoolTy && p.defaultValue.None? && !p.isOptional))
  {
    if p.isOut || p.isRetval then false
    else if p.argumentAttr.Some? then true
    else if p.optionAttr.Some? then false
    else if p.paramType == BoolTy then false
    else if p.defaultValue.Some? || p.isOptional then false
    else true
  }

  /** `IsOption`: out and return-value parameters never; `[Option]`
      always; `[Argument]` without `[Option]` never; every other parameter. */
  function IsOption(p: ParamInfo): (r: bool)
    ensures r <==> !p.isOut && !p.isRetval && (p.optionAttr.Some? || p.argumentAttr.None?)
  {
    if p.isOut || p.isRetval then false
    else if p.optionAttr.Some? then true
    else if p.argumentAttr.Some? then false
    else if p.paramType == BoolTy then true
    else if p.isOptional then true
    else true
  }

  /** Tried in that order, the two tests place every parameter except out and
      return-value ones; the ones left to `IsOption` are those annotated
      `[Option]` (without `[Argument]`), `bool` ones, and those with a default
      or marked optional. */
  lemma ArgumentOrOption(p: ParamInfo)
    ensures IsArgument(p) || IsOption(p) <==> !p.isOut && !p.isRetval
    ensures !IsArgument(p) && IsOption(p) <==>
      !p.isOut && !p.isRetval && p.argumentAttr.None?
      && (p.optionAttr.Some? || p.paramType == BoolTy || p.defaultValue.Some? || p.isOptional)
  {
  }

  // ---------------------------------------------------------------------------
  // Names and templates

  /** `string.EndsWith(suffix, StringComparison.OrdinalIgnoreCase)`. */
  predicate EndsWithIgnoreCase(s: string, suffix: string) {
    EndsWith(ToUpper(s), ToUpper(suffix))
  }

  /** The suffix test of `GetCommandName`: a trailing "command", or else
      "commands", is cut off when something precedes it. */
  function StripCommandSuffix(s: string): (r: string)
    ensures |r| <= |s| && r == s[..|r|]
    ensures |r| < |s| ==> |r| > 0
    ensures |r| < |s| <==> ((EndsWithIgnoreCase(s, "command") && |s| > 7)
                            || (EndsWithIgnoreCase(s, "commands") && |s| > 8))
    ensures |r| < |s| ==> ((EndsWithIgnoreCase(s, "command") && |s| - |r| == 7)
                           || (EndsWithIgnoreCase(s, "commands") && |s| - |r| == 8))
  {
    if EndsWithIgnoreCase(s, "command") && |s| > |"command"| then s[..|s| - |"command"|]
    else if EndsWithIgnoreCase(s, "commands") && |s| > |"commands"| then s[..|s| - |"commands"|]
    else s
  }

  /** `GetCommandName`: the kebab-case name, suffix cut, hyphens trimmed. */
  function CommandName(name: string): (r: string)
  {
    Trim(StripCommandSuffix(ToKebabCase(name)), '-')
  }

  /** A derived command name holds only lowercase letters, digits and inner
      hyphens. */
  lemma CommandNameShape(name: string)
    ensures var r := CommandName(name);
      && (forall j :: 0 <= j < |r| ==> ClassOf(r[j]) in {Lower, Digit} || r[j] == '-')
      && (|r| > 0 ==> r[0] != '-' && r[|r| - 1] != '-')
  {
    var s := ToKebabCase(name);
    LowerJoinClean('-', name);
    var stripped := StripCommandSuffix(s);
    var start := TrimWithin(stripped, '-');
    var r := CommandName(name);
    forall j | 0 <= j < |r| ensures ClassOf(r[j]) in {Lower, Digit} || r[j] == '-' {
      assert r[j] == stripped[start + j] == s[start + j];
    }
  }

  /** `GetArgumentName`: the snake-case name. */
  function ArgumentName(name: string): (r: string)
    ensures forall j :: 0 <= j < |r| ==> ClassOf(r[j]) != Upper
    ensures Letters(r) == ToLower(Letters(name))
  {
    SnakeCase(name);
    ToSnakeCase(name)
  }

  /** `GetOptionTemplate`: "-x" for a one-character kebab name, "--name"
      otherwise, followed by " <snake_name>" when the option takes a value. */
  function OptionTemplate(name: string, hasValue: bool): (r: string)
    ensures |r| > 0 && r[0] == '-'
  {
    var s := ToKebabCase(name);
    FlagPart(s) + (if hasValue then ValuePart(ToSnakeCase(name)) else "")
  }

  /** The flag half of a template: one dash before a one-character name,
      two otherwise. */
  function FlagPart(s: string): (r: string)
    ensures |r| > 0 && r[0] == '-'
  {
    (if |s| == 1 then "-" else "--") + s
  }

  /** The value half of a template: a space and the name in angle brackets. */
  function ValuePart(n: string): (r: string)
    ensures '<' in r
  {
    assert (" <" + n + ">")[1] == '<';
    " <" + n + ">"
  }

  /** Characters outside the three classes contribute no letters. */
  lemma {:induction false} LettersOfPunctuation(t: string)
    requires forall j :: 0 <= j < |t| ==> ClassOf(t[j]) == Other
    ensures Letters(t) == []
  {
    if |t| > 0 {
      LettersOfPunctuation(t[1..]);
    }
  }

  /** The letters of the flag are the name's letters, and the flag has no `<`. */
  lemma FlagPartShape(name: string)
    ensures Letters(FlagPart(ToKebabCase(name))) == ToLower(Letters(name))
    ensures '<' !in FlagPart(ToKebabCase(name))
  {
    var s := ToKebabCase(name);
    var dashes := if |s| == 1 then "-" else "--";
    assert FlagPart(s) == dashes + s;
    KebabCase(name);
    LettersOfPunctuation(dashes);
    LettersConcat(dashes, s);
    KebabHasNoPlaceholder(name);
  }

  /** The second character of a flag is a dash exactly when the kebab-case
      name is not one character long (a kebab name never starts with one). */
  lemma FlagPartDashes(name: string)
    ensures var f := FlagPart(ToKebabCase(name));
      |f| >= 2 && (f[1] == '-' <==> |ToKebabCase(name)| != 1)
  {
    LowerJoinClean('-', name);
    assert ClassOf('-') == Other;
  }

  lemma KebabHasNoPlaceholder(name: string)
    ensures '<' !in ToKebabCase(name)
  {
    LowerJoinClean('-', name);
    assert ClassOf('<') == Other;
  }

  /** The letters of the placeholder are the name's letters, lowercased. */
  lemma ValuePartLetters(name: string)
    ensures Letters(ValuePart(ToSnakeCase(name))) == ToLower(Letters(name))
  {
    var n := ToSnakeCase(name);
    SnakeCase(name);
    LettersOfPunctuation(" <");
    LettersOfPunctuation(">");
    LettersConcat(" <", n);
    LettersConcat(" <" + n, ">");
  }

  /** The template names the option by the parameter's letters (twice when
      a value placeholder follows), and carries a `<` exactly when the
      option takes a value. It starts with a single dash exactly when the
      kebab-case name is one character long, and with two otherwise. */
  lemma OptionTemplateShape(name: string, hasValue: bool)
    ensures var r := OptionTemplate(name, hasValue);
      && ('<' in r <==> hasValue)
      && ((|r| >= 2 && r[1] == '-') <==> |ToKebabCase(name)| != 1)
      && Letters(r) == if hasValue then ToLower(Letters(name)) + ToLower(Letters(name)) else ToLower(Letters(name))
  {
    var flag := FlagPart(ToKebabCase(name));
    FlagPartShape(name);
    FlagPartDashes(name);
    assert OptionTemplate(name, hasValue)[1] == flag[1];
    if hasValue {
      var value := ValuePart(ToSnakeCase(name));
      ValuePartLetters(name);
      LettersConcat(flag, value);
      assert '<' in flag + value by { assert '<' in value; }
    } else {
      assert flag + "" == flag;
    }
  }

  /** The help option a command gets when nothing is annotated. */
  const DefaultHelpTemplate := "-?|-h|--help"

  /** The help option: the default lookup's `[HelpOption]` wins, then its
      `[NoHelpOption]`, then the same two found by the `inherit: true`
      lookup, and otherwise the default template. */
  function HelpChoice(h: HelpAnnotations): (r: Option<HelpOptionModel>)
    ensures r.None? <==> h.direct.None? && (h.directNoHelp || (h.inherited.None? && h.inheritedNoHelp))
    ensures h.direct.Some? ==> r == Some(HelpOptionModel(h.direct.value.template))
    ensures h.direct.None? && !h.directNoHelp && h.inherited.Some? ==> r == Some(HelpOptionModel(h.inherited.value.template))
    ensures h.direct.None? && !h.directNoHelp && h.inherited.None? && !h.inheritedNoHelp
            ==> r == Some(HelpOptionModel(Some(DefaultHelpTemplate)))
  {
    if h.direct.Some? then Some(HelpOptionModel(h.direct.value.template))
    else if !h.directNoHelp then
      if h.inherited.Some? then Some(HelpOptionModel(h.inherited.value.template))
      else if !h.inheritedNoHelp then Some(HelpOptionModel(Some(DefaultHelpTemplate)))
      else None
    else None
  }

  /** When both lookups report the same annotations, as they do in .NET for
      the inheritable help annotations, the inherited steps add nothing: a
      `[HelpOption]` found anywhere wins, then `[NoHelpOption]`, then the
      default. */
  lemma HelpChoiceOneLookup(h: HelpAnnotations)
    requires h.inherited == h.direct && h.inheritedNoHelp == h.directNoHelp
    ensures h.direct.Some? ==> HelpChoice(h) == Some(HelpOptionModel(h.direct.value.template))
    ensures h.direct.None? ==> (HelpChoice(h).None? <==> h.directNoHelp)
    ensures h.direct.None? && !h.directNoHelp ==> HelpChoice(h) == Some(HelpOptionModel(Some(DefaultHelpTemplate)))
  {
  }

  /** The version option: present only when annotated, with the annotation's
      three strings. */
  function VersionChoice(v: Option<VersionOptionAttr>): (r: Option<VersionOptionModel>)
    ensures r.Some? <==> v.Some?
    ensures r.Some? ==> (r.value.template == v.value.template
                         && r.value.shortFormVersion == v.value.shortFormVersion
                         && r.value.longFormVersion == v.value.longFormVersion)
  {
    match v
    case None => None
    case Some(a) => Some(VersionOptionModel(a.template, a.shortFormVersion, a.longFormVersion))
  }

  // ---------------------------------------------------------------------------
  // Arguments and options

  /** `CreateArgumentModel`: declared properties win; the name otherwise is
      the snake-case parameter name, the description the parameter's text. */
  function CreateArgumentModel(p: ParamInfo): (r: Option<ArgumentModel>)
    ensures r.Some? <==> IsArgument(p)
    ensures r.Some? ==> r.value.parameter == p
    ensures r.Some? ==> r.value.multipleValues == (if p.argumentAttr.Some? then p.argumentAttr.value.multipleValues else None)
    ensures r.Some? && (p.argumentAttr.None? || p.argumentAttr.value.name.None?) ==> r.value.name == ArgumentName(p.name)
    ensures r.Some? && p.argumentAttr.None? ==> r.value.showInHelpText && r.value.description == p.display
    ensures r.Some? ==> OrEmpty(r.value.converters) == p.converters
  {
    if !IsArgument(p) then None
    else
      var a := p.argumentAttr;
      Some(ArgumentModel(
        name := (if a.Some? then a.value.name else None).GetOr(ArgumentName(p.name)),
        description := (if a.Some? then a.value.description else None).GetOr(p.display),
        multipleValues := if a.Some? then a.value.multipleValues else None,
        showInHelpText := if a.Some? then a.value.showInHelpText else true,
        parameter := p,
        converters := ListOrNull(p.converters)))
  }

  /** The option kind: the declared one, else "no value" for a parameter
      that can hold a `bool`, else left open. */
  function OptionKindOf(p: ParamInfo, assignable: Assignability): (r: Option<OptionKind>)
    ensures p.optionAttr.Some? && p.optionAttr.value.optionType.Some? ==> r == p.optionAttr.value.optionType
    ensures (p.optionAttr.None? || p.optionAttr.value.optionType.None?) ==>
      (r == Some(NoValue) <==> assignable(p.paramType, BoolTy)) && (r.Some? ==> r == Some(NoValue))
  {
    var declared := if p.optionAttr.Some? then p.optionAttr.value.optionType else None;
    if declared.None? && assignable(p.paramType, BoolTy) then Some(NoValue) else declared
  }

  /** The template as the source derives it: the declared one, else the
      template without a value placeholder, whatever the kind. */
  function DerivedTemplateAsWritten(p: ParamInfo, kind: Option<OptionKind>): (r: string)
    ensures p.optionAttr.Some? && p.optionAttr.value.template.Some? ==> r == p.optionAttr.value.template.value
  {
    (if p.optionAttr.Some? then p.optionAttr.value.template else None).GetOr(OptionTemplate(p.name, false))
  }

  /** An undeclared template never gets a value placeholder, so an `int`
      parameter `count` is offered as "--count". */
  lemma DerivedTemplateAsWrittenLacksPlaceholder(p: ParamInfo, kind: Option<OptionKind>)
    ensures p.optionAttr.None? || p.optionAttr.value.template.None? ==> '<' !in DerivedTemplateAsWritten(p, kind)
  {
    OptionTemplateShape(p.name, false);
  }

  /** The template with the evident intent of the branch that picks one by
      kind: an undeclared template carries a value placeholder unless the
      option takes no value. */
  function DerivedTemplate(p: ParamInfo, kind: Option<OptionKind>): (r: string)
    ensures p.optionAttr.Some? && p.optionAttr.value.template.Some? ==> r == p.optionAttr.value.template.value
  {
    var declared := if p.optionAttr.Some? then p.optionAttr.value.template else None;
    if declared.Some? then declared.value
    else OptionTemplate(p.name, kind != Some(NoValue))
  }

  /** An undeclared template shows a value exactly when the option takes one. */
  lemma DerivedTemplatePlaceholder(p: ParamInfo, kind: Option<OptionKind>)
    ensures p.optionAttr.None? || p.optionAttr.value.template.None? ==>
      ('<' in DerivedTemplate(p, kind) <==> kind != Some(NoValue))
    ensures kind == Some(NoValue) ==> DerivedTemplate(p, kind) == DerivedTemplateAsWritten(p, kind)
  {
    OptionTemplateShape(p.name, kind != Some(NoValue));
  }

  /** `CreateOptionModel`: as written, an undeclared template never shows a
      value; corrected, it shows one exactly when the option takes one. */
  function CreateOptionModel(p: ParamInfo, assignable: Assignability, v: Variant): (r: Option<OptionModel>)
    ensures r.Some? <==> IsOption(p)
    ensures r.Some? ==> r.value.parameter == p && r.value.optionType == OptionKindOf(p, assignable)
    ensures r.Some? && p.optionAttr.Some? && p.optionAttr.value.template.Some? ==>
      r.value.template == p.optionAttr.value.template.value
    ensures r.Some? && v == AsWritten && (p.optionAttr.None? || p.optionAttr.value.template.None?) ==>
      '<' !in r.value.template
    ensures r.Some? && v == Corrected && (p.optionAttr.None? || p.optionAttr.value.template.None?) ==>
      ('<' in r.value.template <==> r.value.optionType != Some(NoValue))
    ensures r.Some? && p.optionAttr.None? ==> r.value.showInHelpText && r.value.description == p.display
    ensures r.Some? ==> OrEmpty(r.value.converters) == p.converters
  {
    if !IsOption(p) then None
    else
      var a := p.optionAttr;
      var kind := OptionKindOf(p, assignable);
      DerivedTemplatePlaceholder(p, kind);
      DerivedTemplateAsWrittenLacksPlaceholder(p, kind);
      Some(OptionModel(
        template := if v == AsWritten then DerivedTemplateAsWritten(p, kind) else DerivedTemplate(p, kind),
        description := (if a.Some? then a.value.description else None).GetOr(p.display),
        optionType := kind,
        showInHelpText := if a.Some? then a.value.showInHelpText else true,
        parameter := p,
        converters := ListOrNull(p.converters)))
  }

  // ---------------------------------------------------------------------------
  // Commands

  /** A parameter left to `IsOption` once `IsArgument` declined it. */
  predicate IsOptionOnly(p: ParamInfo) {
    !IsArgument(p)
  }

  function ParamsOfArguments(args: seq<ArgumentModel>): (r: seq<ParamInfo>)
    ensures |r| == |args| && forall k :: 0 <= k < |args| ==> r[k] == args[k].parameter
  {
    seq(|args|, k requires 0 <= k < |args| => args[k].parameter)
  }

  // The same projection for options; the two model types share no supertype.
  function ParamsOfOptions(opts: seq<OptionModel>): (r: seq<ParamInfo>)
    ensures |r| == |opts| && forall k :: 0 <= k < |opts| ==> r[k] == opts[k].parameter
  {
    seq(|opts|, k requires 0 <= k < |opts| => opts[k].parameter)
  }

  /** The parameter loop of `BuildCommand(MethodInfo)`: each parameter
      becomes an argument if it can, else an option if it can; one that is
      neither rejects the whole method. */
  function ClassifyParameters(ps: seq<ParamInfo>, assignable: Assignability, v: Variant): (r: Option<(seq<ArgumentModel>, seq<OptionModel>)>)
    ensures r.Some? ==> |r.value.0| + |r.value.1| == |ps|
  {
    if |ps| == 0 then Some(([], []))
    else
      match ClassifyParameters(ps[1..], assignable, v)
      case None => None
      case Some((args, opts)) =>
        match CreateArgumentModel(ps[0])
        case Some(a) => Some(([a] + args, opts))
        case None =>
          match CreateOptionModel(ps[0], assignable, v)
          case Some(o) => Some((args, [o] + opts))
          case None => None
  }

  /** One step of the loop: the first parameter goes in front of the
      arguments or of the options the rest produce. */
  lemma ClassifyStep(ps: seq<ParamInfo>, assignable: Assignability, v: Variant)
    requires |ps| > 0
    ensures var rest := ClassifyParameters(ps[1..], assignable, v);
      ClassifyParameters(ps, assignable, v) ==
        if rest.None? || (ps[0].isOut || ps[0].isRetval) then None
        else if IsArgument(ps[0]) then Some(([CreateArgumentModel(ps[0]).value] + rest.value.0, rest.value.1))
        else Some((rest.value.0, [CreateOptionModel(ps[0], assignable, v).value] + rest.value.1))
  {
    ArgumentOrOption(ps[0]);
  }

  /** A method's parameters are all placed exactly when none is an out or
      return-value parameter. */
  lemma {:induction false} ClassifyParametersSome(ps: seq<ParamInfo>, assignable: Assignability, v: Variant)
    ensures ClassifyParameters(ps, assignable, v).Some? <==> forall k :: 0 <= k < |ps| ==> !ps[k].isOut && !ps[k].isRetval
  {
    if |ps| > 0 {
      ClassifyParametersSome(ps[1..], assignable, v);
      ClassifyStep(ps, assignable, v);
      assert forall k :: 1 <= k < |ps| ==> ps[k] == ps[1..][k - 1];
    }
  }

  /** The arguments are the parameters that qualify as arguments, in
      parameter order. */
  lemma {:induction false} ClassifyArguments(ps: seq<ParamInfo>, assignable: Assignability, v: Variant)
    requires ClassifyParameters(ps, assignable, v).Some?
    ensures ParamsOfArguments(ClassifyParameters(ps, assignable, v).value.0) == Filter(ps, IsArgument)
  {
    if |ps| > 0 {
      var p, tail := ps[0], ps[1..];
      ClassifyStep(ps, assignable, v);
      ClassifyArguments(tail, assignable, v);
      assert ps == [p] + tail;
      FilterStep(p, tail, IsArgument);
      var args := ClassifyParameters(tail, assignable, v).value.0;
      if IsArgument(p) {
        ParamsOfArgumentsCons(CreateArgumentModel(p).value, args);
      }
    }
  }

  lemma ParamsOfArgumentsCons(a: ArgumentModel, args: seq<ArgumentModel>)
    ensures ParamsOfArguments([a] + args) == [a.parameter] + ParamsOfArguments(args)
  {
  }

  lemma ParamsOfOptionsCons(o: OptionModel, opts: seq<OptionModel>)
    ensures ParamsOfOptions([o] + opts) == [o.parameter] + ParamsOfOptions(opts)
  {
  }

  /** The parameter an option model was made for. */
  lemma OptionModelParameter(p: ParamInfo, assignable: Assignability, v: Variant)
    requires IsOption(p)
    ensures CreateOptionModel(p, assignable, v).Some? && CreateOptionModel(p, assignable, v).value.parameter == p
  {
  }

  /** The options are the remaining parameters, in parameter order. */
  lemma {:induction false} ClassifyOptions(ps: seq<ParamInfo>, assignable: Assignability, v: Variant)
    requires ClassifyParameters(ps, assignable, v).Some?
    ensures ParamsOfOptions(ClassifyParameters(ps, assignable, v).value.1) == Filter(ps, IsOptionOnly)
  {
    if |ps| > 0 {
      var p, tail := ps[0], ps[1..];
      ClassifyStep(ps, assignable, v);
      ClassifyOptions(tail, assignable, v);
      assert ps == [p] + tail;
      FilterStep(p, tail, IsOptionOnly);
      var opts := ClassifyParameters(tail, assignable, v).value.1;
      if !IsArgument(p) {
        var o := CreateOptionModel(p, assignable, v).value;
        OptionModelParameter(p, assignable, v);
        ParamsOfOptionsCons(o, opts);
      }
    }
  }

  /** The header every command gets from its `[Command]` annotation, with
      the derived name and the reflection text as fallbacks. */
  function CommandHeader(attr: Option<CommandAttr>, rawName: string, display: string): (r: CommandModel)
    ensures attr.None? ==> (r.name == CommandName(rawName) && r.description == display
                            && !r.allowArgumentSeparator && r.extendedHelpText.None? && r.showInHelpText)
    ensures attr.Some? ==> (r.allowArgumentSeparator == attr.value.allowArgumentSeparator
                            && r.extendedHelpText == attr.value.extendedHelpText
                            && r.showInHelpText == attr.value.showInHelpText
                            && r.name == attr.value.name.GetOr(CommandName(rawName)))
    ensures r.commands == [] && r.arguments == [] && r.options == []
  {
    CommandModel(
      name := (if attr.Some? then attr.value.name else None).GetOr(CommandName(rawName)),
      description := (if attr.Some? then attr.value.description else None).GetOr(display),
      allowArgumentSeparator := if attr.Some? then attr.value.allowArgumentSeparator else false,
      extendedHelpText := if attr.Some? then attr.value.extendedHelpText else None,
      showInHelpText := if attr.Some? then attr.value.showInHelpText else true,
      invoked := None,
      commands := [], arguments := [], options := [],
      converters := None, resultHandlers := None, exceptionHandlers := None,
      helpOption := None, versionOption := None)
  }

  /** `CreateCommandModel(MethodInfo)`: converters from the method, result
      handlers from its return value, never any exception handlers. */
  function CreateMethodCommand(m: MethodInfo): (r: Option<CommandModel>)
    ensures r.Some? <==> IsMethodCommand(m)
    ensures r.Some? ==> r.value.invoked == Some(m)
    ensures r.Some? ==> (OrEmpty(r.value.converters) == m.converters
                         && OrEmpty(r.value.resultHandlers) == m.returnResultHandlers
                         && r.value.exceptionHandlers.None?)
    ensures r.Some? ==> r.value.helpOption == HelpChoice(m.help) && r.value.versionOption == VersionChoice(m.versionAttr)
    ensures r.Some? ==> r.value.commands == [] && r.value.arguments == [] && r.value.options == []
  {
    if !IsMethodCommand(m) then None
    else Some(CommandHeader(m.commandAttr, m.name, m.display).(
      invoked := Some(m),
      converters := ListOrNull(m.converters),
      resultHandlers := ListOrNull(m.returnResultHandlers),
      helpOption := HelpChoice(m.help),
      versionOption := VersionChoice(m.versionAttr)))
  }

  /** `BuildCommand(MethodInfo)`: the command with its arguments and options
      attached in parameter order, or nothing. */
  function BuildMethodCommand(m: MethodInfo, assignable: Assignability, v: Variant): (r: Option<CommandModel>)
    ensures r.Some? ==> IsMethodCommand(m) && r.value.invoked == Some(m) && r.value.commands == []
  {
    match CreateMethodCommand(m)
    case None => None
    case Some(c) =>
      match ClassifyParameters(m.parameters, assignable, v)
      case None => None
      case Some((args, opts)) => Some(c.(arguments := args, options := opts))
  }

  /** A method builds exactly when it is a command and has no out or
      return-value parameter; its arguments and options partition its
      parameters as `IsArgument` decides. */
  lemma BuildMethodCommandSpec(m: MethodInfo, assignable: Assignability, v: Variant)
    ensures BuildMethodCommand(m, assignable, v).Some? <==>
      IsMethodCommand(m) && forall k :: 0 <= k < |m.parameters| ==> !m.parameters[k].isOut && !m.parameters[k].isRetval
    ensures BuildMethodCommand(m, assignable, v).Some? ==>
      var c := BuildMethodCommand(m, assignable, v).value;
      && ParamsOfArguments(c.arguments) == Filter(m.parameters, IsArgument)
      && ParamsOfOptions(c.options) == Filter(m.parameters, IsOptionOnly)
      && c.exceptionHandlers.None?
  {
    ClassifyParametersSome(m.parameters, assignable, v);
    if BuildMethodCommand(m, assignable, v).Some? {
      ClassifyArguments(m.parameters, assignable, v);
      ClassifyOptions(m.parameters, assignable, v);
    }
  }

  /** The methods that build, in the order reflection reports them. */
  function SubCommands(ms: seq<MethodInfo>, assignable: Assignability, v: Variant): (r: seq<CommandModel>)
    ensures forall k :: 0 <= k < |r| ==> r[k].invoked.Some?
  {
    if |ms| == 0 then []
    else
      var rest := SubCommands(ms[1..], assignable, v);
      match BuildMethodCommand(ms[0], assignable, v)
      case Some(c) => [c] + rest
      case None => rest
  }

  function InvokedMethods(cs: seq<CommandModel>): (r: seq<MethodInfo>)
    requires forall k :: 0 <= k < |cs| ==> cs[k].invoked.Some?
    ensures |r| == |cs| && forall k :: 0 <= k < |cs| ==> r[k] == cs[k].invoked.value
  {
    seq(|cs|, k requires 0 <= k < |cs| => cs[k].invoked.value)
  }

  /** The test `BuildCommand(TypeInfo)` applies to each method's result. */
  function Builds(assignable: Assignability, v: Variant): MethodInfo -> bool {
    m => BuildMethodCommand(m, assignable, v).Some?
  }

  /** The sub-commands are made from the methods that build, one each, in
      the order reflection reports the methods. */
  lemma {:induction false} SubCommandsInOrder(ms: seq<MethodInfo>, assignable: Assignability, v: Variant)
    ensures InvokedMethods(SubCommands(ms, assignable, v)) == Filter(ms, Builds(assignable, v))
  {
    if |ms| > 0 {
      var m, tail := ms[0], ms[1..];
      SubCommandsInOrder(tail, assignable, v);
      assert ms == [m] + tail;
      FilterStep(m, tail, Builds(assignable, v));
      SubCommandsStep(ms, assignable, v);
    }
  }

  lemma SubCommandsStep(ms: seq<MethodInfo>, assignable: Assignability, v: Variant)
    requires |ms| > 0
    ensures InvokedMethods(SubCommands(ms, assignable, v))
         == (if Builds(assignable, v)(ms[0]) then [ms[0]] else []) + InvokedMethods(SubCommands(ms[1..], assignable, v))
  {
    var rest := SubCommands(ms[1..], assignable, v);
    var built := BuildMethodCommand(ms[0], assignable, v);
    if built.Some? {
      assert SubCommands(ms, assignable, v) == [built.value] + rest;
      InvokedMethodsCons(built.value, rest);
    }
  }

  lemma InvokedMethodsCons(c: CommandModel, cs: seq<CommandModel>)
    requires c.invoked.Some? && forall k :: 0 <= k < |cs| ==> cs[k].invoked.Some?
    ensures InvokedMethods([c] + cs) == [c.invoked.value] + InvokedMethods(cs)
  {
  }

  /** Each sub-command is what its method builds. */
  lemma {:induction false} SubCommandsBuilt(ms: seq<MethodInfo>, assignable: Assignability, v: Variant)
    ensures forall k :: 0 <= k < |SubCommands(ms, assignable, v)| ==>
      Some(SubCommands(ms, assignable, v)[k]) == BuildMethodCommand(SubCommands(ms, assignable, v)[k].invoked.value, assignable, v)
  {
    if |ms| > 0 {
      SubCommandsBuilt(ms[1..], assignable, v);
    }
  }

  /** `BuildCommand(TypeInfo)`: a class command collects converters, result
      and exception handlers from the class, and has one sub-command per
      public method that builds. */
  function BuildTypeCommand(t: TypeInfo, assignable: Assignability, v: Variant): (r: Option<CommandModel>)
    ensures r.Some? <==> IsTypeCommand(t)
    ensures r.Some? ==> r.value.invoked.None? && r.value.arguments == [] && r.value.options == []
    ensures r.Some? ==> (OrEmpty(r.value.converters) == t.converters
                         && OrEmpty(r.value.resultHandlers) == t.resultHandlers
                         && OrEmpty(r.value.exceptionHandlers) == t.exceptionHandlers)
    ensures r.Some? ==> r.value.helpOption == HelpChoice(t.help) && r.value.versionOption == VersionChoice(t.versionAttr)
    ensures r.Some? ==> r.value.commands == SubCommands(t.methods, assignable, v)
  {
    if !IsTypeCommand(t) then None
    else Some(CommandHeader(t.commandAttr, t.name, t.display).(
      commands := SubCommands(t.methods, assignable, v),
      converters := ListOrNull(t.converters),
      resultHandlers := ListOrNull(t.resultHandlers),
      exceptionHandlers := ListOrNull(t.exceptionHandlers),
      helpOption := HelpChoice(t.help),
      versionOption := VersionChoice(t.versionAttr)))
  }

  // ---------------------------------------------------------------------------
  // Examples

  lemma SplitFileCommands(s: string)
    requires s == "FileCommands"
    ensures SplitPhrase(s) == [s[..4], s[4..]]
  {
    RunLengthIs(s, 0, Upper, 1);
    RunLengthIs(s, 1, Lower, 3);
    RunLengthIs(s, 4, Upper, 1);
    RunLengthIs(s, 5, Lower, 7);
    assert WordAt(s, 0) == Some(4);
    assert WordAt(s, 4) == Some(8);
    ScanStep(s, 4);
    assert Scan(s, 12) == [];
    assert s[4..4 + 8] == s[4..];
    assert Scan(s, 4) == [s[4..]];
    ScanStep(s, 0);
    assert s[0..0 + 4] == s[..4];
  }

  lemma KebabFileCommands(s: string)
    requires s == "FileCommands"
    ensures ToKebabCase(s) == "file-commands"
  {
    SplitFileCommands(s);
    var ws := SplitPhrase(s);
    assert ToLower(ws[0]) == "file";
    assert ToLower(ws[1]) == "commands";
    var lw := LowerAll(ws);
    assert lw == ["file", "commands"];
    assert lw[1..] == ["commands"];
    assert Join('-', lw) == "file" + "-" + "commands";
  }

  lemma StripFileCommands(s: string)
    requires s == "file-commands"
    ensures StripCommandSuffix(s) == s[..5]
  {
    var u := ToUpper(s);
    assert u[|s| - 1] == 'S';
    assert ToUpper("command")[6] == 'D';
    assert !EndsWithIgnoreCase(s, "command");
    assert u[|s| - 8..] == ToUpper("commands");
  }

  lemma KebabCommand(c: string)
    requires c == "Command"
    ensures ToKebabCase(c) == "command"
  {
    RunLengthIs(c, 0, Upper, 1);
    RunLengthIs(c, 1, Lower, 6);
    ScanStep(c, 0);
    assert c[0..7] == c;
    assert SplitPhrase(c) == [c];
    assert ToLower(c) == "command";
  }

  lemma StripCommand(c: string)
    requires c == "command"
    ensures StripCommandSuffix(c) == c
  {
  }

  /** "FileCommands" loses its suffix. */
  lemma CommandNameSuffixed(a: string)
    requires a == "FileCommands"
    ensures CommandName(a) == "file"
  {
    KebabFileCommands(a);
    var k := ToKebabCase(a);
    StripFileCommands(k);
    var t := k[..5];
    assert t == "file-" && t[..4] == "file";
    assert TrimStart(t, '-') == t;
    assert TrimEnd(t[..4], '-') == t[..4];
    assert TrimEnd(t, '-') == t[..4];
  }

  /** "Command" alone keeps its name: only a proper suffix is removed. */
  lemma CommandNameBare(b: string)
    requires b == "Command"
    ensures CommandName(b) == "command"
  {
    KebabCommand(b);
    var c := ToKebabCase(b);
    StripCommand(c);
    assert TrimStart(c, '-') == c;
    assert TrimEnd(c, '-') == c;
  }
}

=== FILE: collection_converter.dfy ===
/** `CollectionConverter`: converts an enumerable value to a one-dimensional
    array or to a generic collection with one type argument, converting every
    item with an item converter. */
module CollectionConverter {
  import opened Wrappers
  import opened Seqs
  import opened Types
  import opened Errors
  import opened Reflection

  /** The `IConverter` the collection converter is given for the items. A
      null type is `None`; what this converter does with one is its own
      business. */
  datatype ItemConverter = ItemConverter(
    canConvert: (Option<Ty>, Option<Ty>) -> bool,
    convert: (Value, Option<Ty>) -> Result<Value, Error>)

  /** The item type of a source collection: the element type of a
      one-dimensional array; else the type argument of a closed generic type
      with one argument assignable to `IEnumerable<>`; else `object` for
      anything assignable to `IEnumerable`; else none. */
  function SourceItemType(rt: Runtime, source: Ty): (r: Option<Ty>)
    ensures source.ArrayTy? && source.rank == 1 ==> r == Some(source.elem)
    ensures r.None? ==> !rt.assignable(EnumerableTy, source)
  {
    if source.ArrayTy? && source.rank == 1 then Some(source.elem)
    else if
      && rt.assignable(OpenEnumerableTy, source)
      && source.GenericTy? && !ContainsGenericParameters(source) && |source.args| == 1
    then Some(source.args[0])
    else if rt.assignable(EnumerableTy, source) then Some(ObjectTy)
    else None
  }

  predicate IsVector(t: Ty) {
    t.ArrayTy? && t.rank == 1
  }

  /** A closed generic type with exactly one type argument. */
  predicate IsSingleArgumentGeneric(t: Ty) {
    t.GenericTy? && !ContainsGenericParameters(t) && |t.args| == 1
  }

  /** The item type the array branch converts to. As written this is the
      SOURCE type's element type, which a non-array source does not have. */
  function ArrayItemType(variant: Variant, source: Ty, target: Ty): (r: Option<Ty>)
    requires IsVector(target)
    ensures variant == Corrected ==> r == Some(target.elem)
    ensures variant == AsWritten ==> (r.Some? <==> source.ArrayTy?)
  {
    match variant
    case AsWritten => ElementType(source)
    case Corrected => ElementType(target)
  }

  /** A one-parameter constructor `GetCollectionConstructor` considers. */
  predicate Unary(c: Ctor) {
    Invocable(c) && |c.params| == 1
  }

  function TakesEnumerableOf(item: Ty): Ctor -> bool {
    (c: Ctor) => Unary(c) && c.params[0] == EnumerableOf(item)
  }

  function AcceptsListOf(assignable: Assignability, item: Ty): Ctor -> bool {
    (c: Ctor) => Unary(c) && assignable(c.params[0], IListOf(item))
  }

  /** `GetCollectionConstructor`: among the definition's one-parameter
      constructors, the first taking exactly `IEnumerable<item>`; failing
      that, the LAST whose parameter accepts an `IList<item>`; -1 if none. */
  function CollectionConstructor(rt: Runtime, definition: Ty, item: Ty): (k: int)
    ensures var ctors := rt.ctorsOf(definition);
      && -1 <= k < |ctors|
      && (k >= 0 ==> Unary(ctors[k]))
      && ((exists j :: 0 <= j < |ctors| && TakesEnumerableOf(item)(ctors[j])) ==>
            && 0 <= k && TakesEnumerableOf(item)(ctors[k])
            && forall j :: 0 <= j < k ==> !TakesEnumerableOf(item)(ctors[j]))
      && ((forall j :: 0 <= j < |ctors| ==> !TakesEnumerableOf(item)(ctors[j])) ==>
            && (k >= 0 ==> AcceptsListOf(rt.assignable, item)(ctors[k]))
            && forall j :: 0 <= j < |ctors| && k < j ==> !AcceptsListOf(rt.assignable, item)(ctors[j]))
      && (k < 0 <==> forall j :: 0 <= j < |ctors| ==>
            !TakesEnumerableOf(item)(ctors[j]) && !AcceptsListOf(rt.assignable, item)(ctors[j]))
  {
    var ctors := rt.ctorsOf(definition);
    var exact := FirstIndex(ctors, TakesEnumerableOf(item));
    if exact >= 0 then exact else LastIndex(ctors, AcceptsListOf(rt.assignable, item))
  }

  /** The generic type definition of a closed generic type (`GetGenericTypeDefinition`). */
  function Definition(t: Ty): Ty
    requires t.GenericTy?
  {
    OpenGeneric(t.def, |t.args|)
  }

  /** `CanConvert`. */
  function CanConvert(variant: Variant, rt: Runtime, items: ItemConverter, source: Option<Ty>, target: Option<Ty>): (b: bool)
    ensures b ==> source.Some? && target.Some? && SourceItemType(rt, source.value).Some?
    ensures b ==> IsVector(target.value) || IsSingleArgumentGeneric(target.value)
    ensures b && IsVector(target.value) ==>
      items.canConvert(SourceItemType(rt, source.value), ArrayItemType(variant, source.value, target.value))
    ensures b && !IsVector(target.value) ==>
      && CollectionConstructor(rt, Definition(target.value), target.value.args[0]) >= 0
      && items.canConvert(SourceItemType(rt, source.value), Some(target.value.args[0]))
    ensures (&& source.Some? && target.Some? && SourceItemType(rt, source.value).Some? && IsVector(target.value)
             && items.canConvert(SourceItemType(rt, source.value), ArrayItemType(variant, source.value, target.value))) ==> b
    ensures (&& source.Some? && target.Some? && SourceItemType(rt, source.value).Some? && IsSingleArgumentGeneric(target.value)
             && CollectionConstructor(rt, Definition(target.value), target.value.args[0]) >= 0
             && items.canConvert(SourceItemType(rt, source.value), Some(target.value.args[0]))) ==> b
  {
    if target.None? || source.None? then false
    else
      var sourceItem := SourceItemType(rt, source.value);
      if sourceItem.None? then false
      else if IsVector(target.value) then
        items.canConvert(sourceItem, ArrayItemType(variant, source.value, target.value))
      else if IsSingleArgumentGeneric(target.value) then
        && CollectionConstructor(rt, Definition(target.value), target.value.args[0]) >= 0
        && items.canConvert(sourceItem, Some(target.value.args[0]))
      else false
  }

  /** What enumerating the value yields: the items of an array or list, or
      whatever the runtime reports for any other enumerable. */
  function Elements(rt: Runtime, v: Value): seq<Value> {
    if v.Items? then v.items else rt.enumerate(v)
  }

  /** The item converter applied to every element, in order. */
  function ConvertEach(items: ItemConverter, elements: seq<Value>, itemTy: Option<Ty>): (rs: seq<Result<Value, Error>>)
    ensures |rs| == |elements|
    ensures forall i :: 0 <= i < |elements| ==> rs[i] == items.convert(elements[i], itemTy)
  {
    seq(|elements|, i requires 0 <= i < |elements| => items.convert(elements[i], itemTy))
  }

  /** `Convert`: the null checks; the source item type or
      `InvalidCastException`; then the array branch, whose
      `Array.CreateInstance` rejects a null item type only after every item
      was converted, or the generic branch through the collection
      constructor, which receives the converted items as a `List<object>`. */
  function Convert(variant: Variant, rt: Runtime, items: ItemConverter, value: Value, target: Option<Ty>): (r: Result<Value, Error>)
    ensures target.None? ==> r == Failure(ArgumentNull("targetType"))
    ensures target.Some? && value.Null? ==> r == Failure(ArgumentNull("value"))
    ensures target.Some? && !value.Null? && SourceItemType(rt, RuntimeType(value).value).None? ==> r == Failure(InvalidCast)
    ensures r.Success? ==> r.value.Items? || r.value.Constructed?
    ensures r.Success? && r.value.Items? ==> |r.value.items| == |Elements(rt, value)|
  {
    if target.None? then Failure(ArgumentNull("targetType"))
    else if value.Null? then Failure(ArgumentNull("value"))
    else
      var source := RuntimeType(value).value;
      if SourceItemType(rt, source).None? then Failure(InvalidCast)
      else if IsVector(target.value) then
        var itemTy := ArrayItemType(variant, source, target.value);
        match Collect(ConvertEach(items, Elements(rt, value), itemTy))
        case Failure(e) => Failure(e)
        case Success(vs) =>
          if itemTy.None? then Failure(ArgumentNull("elementType"))
          else Success(Items(ArrayTy(itemTy.value, 1), vs))
      else if IsSingleArgumentGeneric(target.value) then
        var itemTy := target.value.args[0];
        var k := CollectionConstructor(rt, Definition(target.value), itemTy);
        if k < 0 then Failure(InvalidCast)
        else
          match Collect(ConvertEach(items, Elements(rt, value), Some(itemTy)))
          case Failure(e) => Failure(e)
          case Success(vs) => Success(Constructed(Definition(target.value), k, [Items(ListOf(ObjectTy), vs)]))
      else Failure(InvalidCast)
  }

  /** The corrected array branch: the result is an array of exactly the
      target type holding every converted element in order; failing that,
      the first item whose conversion threw decides the exception. */
  lemma ConvertToArray(rt: Runtime, items: ItemConverter, value: Value, target: Ty)
    requires !value.Null? && IsVector(target) && SourceItemType(rt, RuntimeType(value).value).Some?
    ensures var r := Convert(Corrected, rt, items, value, Some(target));
      var es := Elements(rt, value);
      var rs := ConvertEach(items, es, Some(target.elem));
      var f := FirstFailure(rs);
      && (r.Success? <==> f == |es|)
      && (r.Success? ==>
            && r.value.Items? && RuntimeType(r.value) == Some(target)
            && |r.value.items| == |es|
            && forall i :: 0 <= i < |es| ==> r.value.items[i] == items.convert(es[i], Some(target.elem)).value)
      && (r.Failure? ==> r.error == items.convert(es[f], Some(target.elem)).error)
  {
    CollectSpec(ConvertEach(items, Elements(rt, value), Some(target.elem)));
  }

  /** The generic branch: the collection constructor receives every converted
      element in order; failing that, the first item's exception. */
  lemma ConvertToGeneric(rt: Runtime, items: ItemConverter, value: Value, target: Ty)
    requires !value.Null? && IsSingleArgumentGeneric(target) && SourceItemType(rt, RuntimeType(value).value).Some?
    requires CollectionConstructor(rt, Definition(target), target.args[0]) >= 0
    ensures var r := Convert(Corrected, rt, items, value, Some(target));
      var es := Elements(rt, value);
      var rs := ConvertEach(items, es, Some(target.args[0]));
      var f := FirstFailure(rs);
      && (r.Success? <==> f == |es|)
      && (r.Success? ==>
            && r.value.Constructed?
            && r.value.ctor == CollectionConstructor(rt, Definition(target), target.args[0])
            && |r.value.args| == 1 && r.value.args[0].Items?
            && |r.value.args[0].items| == |es|
            && forall i :: 0 <= i < |es| ==> r.value.args[0].items[i] == items.convert(es[i], Some(target.args[0])).value)
      && (r.Failure? ==> r.error == items.convert(es[f], Some(target.args[0])).error)
  {
    CollectSpec(ConvertEach(items, Elements(rt, value), Some(target.args[0])));
  }

  /** What the two decide on is the same, apart from the item converter:
      when `Convert` succeeds, the source has an item type and the target
      one of the two shapes, with a collection constructor for a generic
      target; and a pair `CanConvert` accepts fails only through an item. */
  lemma {:induction false} ConvertMatchesCanConvert(rt: Runtime, items: ItemConverter, value: Value, target: Ty)
    requires !value.Null?
    ensures var r := Convert(Corrected, rt, items, value, Some(target));
      var source := RuntimeType(value).value;
      && (r.Success? ==>
            && SourceItemType(rt, source).Some?
            && (IsVector(target) || (IsSingleArgumentGeneric(target) && CollectionConstructor(rt, Definition(target), target.args[0]) >= 0)))
      && (CanConvert(Corrected, rt, items, Some(source), Some(target)) && r.Failure? ==>
            var itemTy := if IsVector(target) then Some(target.elem) else Some(target.args[0]);
            var rs := ConvertEach(items, Elements(rt, value), itemTy);
            FirstFailure(rs) < |rs| && r.error == rs[FirstFailure(rs)].error)
  {
    var source := RuntimeType(value).value;
    if SourceItemType(rt, source).Some? {
      if IsVector(target) {
        ConvertToArray(rt, items, value, target);
      } else if IsSingleArgumentGeneric(target) && CollectionConstructor(rt, Definition(target), target.args[0]) >= 0 {
        ConvertToGeneric(rt, items, value, target);
      }
    }
  }

  /** With an item converter that accepts every pair and never throws, the
      corrected `Convert` succeeds on a value exactly when `CanConvert`
      accepts its runtime type and the target. */
  lemma ConvertIffCanConvert(rt: Runtime, items: ItemConverter, value: Value, target: Ty)
    requires !value.Null?
    requires forall s, t :: items.canConvert(s, t)
    requires forall v, t :: items.convert(v, t).Success?
    ensures Convert(Corrected, rt, items, value, Some(target)).Success?
      <==> CanConvert(Corrected, rt, items, Some(RuntimeType(value).value), Some(target))
  {
    var source := RuntimeType(value).value;
    if SourceItemType(rt, source).Some? {
      if IsVector(target) {
        ConvertToArray(rt, items, value, target);
        var rs := ConvertEach(items, Elements(rt, value), Some(target.elem));
        assert FirstFailure(rs) == |rs|;
      } else if IsSingleArgumentGeneric(target) && CollectionConstructor(rt, Definition(target), target.args[0]) >= 0 {
        ConvertToGeneric(rt, items, value, target);
        var rs := ConvertEach(items, Elements(rt, value), Some(target.args[0]));
        assert FirstFailure(rs) == |rs|;
      }
    }
  }

  /** As written, an array result takes its element type from the source
      array, whatever the target asks for: it is of the target type exactly
      when both element types agree. */
  lemma AsWrittenArrayType(rt: Runtime, items: ItemConverter, value: Value, target: Ty)
    requires !value.Null? && IsVector(target)
    ensures var r := Convert(AsWritten, rt, items, value, Some(target));
      var source := RuntimeType(value).value;
      && (r.Success? ==> source.ArrayTy? && r.value == Items(ArrayTy(source.elem, 1), r.value.items))
      && (r.Success? ==> (RuntimeType(r.value) == Some(target) <==> source.elem == target.elem))
  {
  }

  /** A `string[]` holding "1", converted to `int[]`: as written the items
      are "converted" to `string` and a `string[]` comes back; corrected, the
      item converter is asked for `int` and an `int[]` comes back. */
  lemma StringArrayToIntArray(rt: Runtime, items: ItemConverter, one: Value)
    requires items.convert(Text("1"), Some(StringTy)) == Success(Text("1"))
    requires items.convert(Text("1"), Some(Named("Int32"))) == Success(one)
    ensures Convert(AsWritten, rt, items, TextArray(["1"]), Some(ArrayTy(Named("Int32"), 1)))
      == Success(Items(StringArrayTy, [Text("1")]))
    ensures Convert(Corrected, rt, items, TextArray(["1"]), Some(ArrayTy(Named("Int32"), 1)))
      == Success(Items(ArrayTy(Named("Int32"), 1), [one]))
  {
    var es := Elements(rt, TextArray(["1"]));
    assert es == [Text("1")];
    var asWritten := ConvertEach(items, es, Some(StringTy));
    CollectSpec(asWritten);
    assert FirstFailure(asWritten) == 1;
    assert Collect(asWritten).value == [Text("1")];
    var corrected := ConvertEach(items, es, Some(Named("Int32")));
    CollectSpec(corrected);
    assert FirstFailure(corrected) == 1;
    assert Collect(corrected).value == [one];
  }

  /** A `List<string>` to `int[]`. `Type.IsAssignableFrom` never holds for an
      open generic definition such as `IEnumerable<>`, so the source item type
      comes from the non-generic `IEnumerable` branch and is `object`. As
      written the item converter is then asked about a null target item type,
      which every converter of the library refuses, so `CanConvert` says no
      where the corrected version asks about `object` to `int`. */
  lemma ListToArrayAsked(rt: Runtime, items: ItemConverter)
    requires !rt.assignable(OpenEnumerableTy, ListOfStringTy)
    requires rt.assignable(EnumerableTy, ListOfStringTy)
    ensures CanConvert(AsWritten, rt, items, Some(ListOfStringTy), Some(ArrayTy(Named("Int32"), 1)))
      == items.canConvert(Some(ObjectTy), None)
    ensures CanConvert(Corrected, rt, items, Some(ListOfStringTy), Some(ArrayTy(Named("Int32"), 1)))
      == items.canConvert(Some(ObjectTy), Some(Named("Int32")))
  {
    assert SourceItemType(rt, ListOfStringTy) == Some(ObjectTy);
  }

}

=== FILE: command_binder.dfy ===
/** `CommandBinder.BindCommand`: registering a command model, and all its
    subcommands, on the parser's application. The application is modelled by
    what is registered on it: a `BoundCommand` per command, holding the copied
    properties, the help and version options, the argument and option
    registrations in the order they were made, the execute callback, and the
    bound subcommands. */
module CommandBinding {
  import opened Wrappers
  import opened Seqs
  import opened Types
  import opened Metadata
  import opened Descriptors
  import opened Errors
  import opened Selection
  import opened Binder
  import opened Slots
  import opened Execution

  datatype BoundCommand = BoundCommand(
    name: string,
    description: string,
    showInHelpText: bool,
    allowArgumentSeparator: bool,
    extendedHelpText: Option<string>,
    help: Option<HelpOptionModel>,
    version: Option<VersionOptionModel>,
    registrations: seq<Registration>,
    execute: Option<Call>,
    subcommands: seq<BoundCommand>)

  // ---------------------------------------------------------------------------
  // One command's method

  /** The `k`-th argument of the command whose chain (the command, then its
      ancestors, nearest first) is `chain`, bound against the converters it
      may use. */
  function ArgumentItem(a: ArgumentModel, k: nat, chain: seq<CommandModel>, env: Environment): Item {
    Item(a.parameter, BindArgument(a, k, Candidates(a.converters, chain, env), env))
  }

  function OptionItem(o: OptionModel, k: nat, chain: seq<CommandModel>, env: Environment, v: Variant): Item {
    Item(o.parameter, BindOptionFor(v, o, k, Candidates(o.converters, chain, env), env))
  }

  /** The arguments, then the options, in the order the two loops visit them. */
  function Items(cm: CommandModel, chain: seq<CommandModel>, env: Environment, v: Variant): (items: seq<Item>)
    ensures |items| == |cm.arguments| + |cm.options|
    ensures forall k :: 0 <= k < |cm.arguments| ==> items[k] == ArgumentItem(cm.arguments[k], k, chain, env)
    ensures forall k :: 0 <= k < |cm.options| ==> items[|cm.arguments| + k] == OptionItem(cm.options[k], k, chain, env, v)
  {
    seq(|cm.arguments|, k requires 0 <= k < |cm.arguments| => ArgumentItem(cm.arguments[k], k, chain, env))
    + seq(|cm.options|, k requires 0 <= k < |cm.options| => OptionItem(cm.options[k], k, chain, env, v))
  }

  /** The result handlers the callback runs: those along the chain, then the
      global ones, each once and only if it can be instantiated. */
  function ResultHandlersOf(chain: seq<CommandModel>, env: Environment): seq<Ty>
    requires |chain| > 0
  {
    SelectHandlers(EnumerateCommand(ResultHandlerChain(chain), env.globalResultHandlers), env.resultHandlers)
  }

  function ExceptionHandlersOf(chain: seq<CommandModel>, env: Environment): seq<Ty>
    requires |chain| > 0
  {
    SelectHandlers(EnumerateCommand(ExceptionHandlerChain(chain), env.globalExceptionHandlers), env.exceptionHandlers)
  }

  /** A result handler is selected exactly when it can be instantiated and
      some command of the chain, or the global list, names it; none is
      selected twice. */
  lemma ResultHandlersSpec(chain: seq<CommandModel>, env: Environment)
    requires |chain| > 0
    ensures var r := ResultHandlersOf(chain, env);
      && NoDuplicates(r)
      && forall t :: t in r <==>
           CanCreate(env.resultHandlers, t) &&
           (t in env.globalResultHandlers || exists k :: 0 <= k < |chain| && t in OrEmpty(chain[k].resultHandlers))
  {
    var lists := Lists(ResultHandlerChain(chain));
    EnumerateCommandInOrder(ResultHandlerChain(chain), env.globalResultHandlers);
    forall t
      ensures t in Flatten(lists) <==> exists k :: 0 <= k < |chain| && t in OrEmpty(chain[k].resultHandlers)
    {
      FlattenMember(lists, t);
    }
  }

  lemma ExceptionHandlersSpec(chain: seq<CommandModel>, env: Environment)
    requires |chain| > 0
    ensures var r := ExceptionHandlersOf(chain, env);
      && NoDuplicates(r)
      && forall t :: t in r <==>
           CanCreate(env.exceptionHandlers, t) &&
           (t in env.globalExceptionHandlers || exists k :: 0 <= k < |chain| && t in OrEmpty(chain[k].exceptionHandlers))
  {
    var lists := Lists(ExceptionHandlerChain(chain));
    EnumerateCommandInOrder(ExceptionHandlerChain(chain), env.globalExceptionHandlers);
    forall t
      ensures t in Flatten(lists) <==> exists k :: 0 <= k < |chain| && t in OrEmpty(chain[k].exceptionHandlers)
    {
      FlattenMember(lists, t);
    }
  }

  /** The method part of `BindCommand`: the arguments and options matched to
      the method's parameters. */
  function BindMethod(cm: CommandModel, m: MethodInfo, chain: seq<CommandModel>, env: Environment, v: Variant): (r: Result<Parameters, Error>)
    ensures r.Success? ==> |r.value.suppliers| == |m.parameters|
    ensures r.Success? ==> |r.value.registrations| == |cm.arguments| + |cm.options|
  {
    BindParameters(m.parameters, Items(cm, chain, env, v), m.name)
  }

  /** Binding a method succeeds exactly when every argument and every option
      names a parameter of the method, no two name the same one, each binds,
      and every parameter is named. */
  lemma BindMethodSucceeds(cm: CommandModel, m: MethodInfo, chain: seq<CommandModel>, env: Environment, v: Variant)
    ensures var items := Items(cm, chain, env, v);
      var ps := m.parameters;
      BindMethod(cm, m, chain, env, v).Success? <==> Clean(ps, items, |items|) && forall i :: 0 <= i < |ps| ==> Fed(ps, items, i)
  {
    var items := Items(cm, chain, env, v);
    var ps := m.parameters;
    BindParametersSpec(ps, items, m.name);
  }

  /** A bound method has each argument's supplier at its parameter's
      position, and the argument's registration at its own position. */
  lemma BindMethodFeedsArguments(cm: CommandModel, m: MethodInfo, chain: seq<CommandModel>, env: Environment, v: Variant)
    requires BindMethod(cm, m, chain, env, v).Success?
    ensures var r := BindMethod(cm, m, chain, env, v).value;
      var ps := m.parameters;
      && |r.registrations| == |cm.arguments| + |cm.options|
      && forall k :: 0 <= k < |cm.arguments| ==>
           var b := BindArgument(cm.arguments[k], k, Candidates(cm.arguments[k].converters, chain, env), env);
           && b.Success?
           && 0 <= IndexOf(ps, cm.arguments[k].parameter)
           && r.suppliers[IndexOf(ps, cm.arguments[k].parameter)] == b.value.supplier
           && r.registrations[k] == b.value.registration
  {
    var items := Items(cm, chain, env, v);
    var r := BindMethod(cm, m, chain, env, v).value;
    forall k | 0 <= k < |cm.arguments|
      ensures var b := BindArgument(cm.arguments[k], k, Candidates(cm.arguments[k].converters, chain, env), env);
        && b.Success?
        && 0 <= IndexOf(m.parameters, cm.arguments[k].parameter)
        && r.suppliers[IndexOf(m.parameters, cm.arguments[k].parameter)] == b.value.supplier
        && r.registrations[k] == b.value.registration
    {
      assert items[k] == ArgumentItem(cm.arguments[k], k, chain, env);
      BoundItem(m.parameters, items, m.name, k);
    }
  }

  /** A bound method has each option's supplier at its parameter's
      position, and the option's registration after all the arguments'. */
  lemma BindMethodFeedsOptions(cm: CommandModel, m: MethodInfo, chain: seq<CommandModel>, env: Environment, v: Variant)
    requires BindMethod(cm, m, chain, env, v).Success?
    ensures var r := BindMethod(cm, m, chain, env, v).value;
      var ps := m.parameters;
      && |r.registrations| == |cm.arguments| + |cm.options|
      && forall k :: 0 <= k < |cm.options| ==>
           var b := BindOptionFor(v, cm.options[k], k, Candidates(cm.options[k].converters, chain, env), env);
           && b.Success?
           && 0 <= IndexOf(ps, cm.options[k].parameter)
           && r.suppliers[IndexOf(ps, cm.options[k].parameter)] == b.value.supplier
           && r.registrations[|cm.arguments| + k] == b.value.registration
  {
    var r := BindMethod(cm, m, chain, env, v).value;
    forall k | 0 <= k < |cm.options|
      ensures var b := BindOptionFor(v, cm.options[k], k, Candidates(cm.options[k].converters, chain, env), env);
        && b.Success?
        && 0 <= IndexOf(m.parameters, cm.options[k].parameter)
        && r.suppliers[IndexOf(m.parameters, cm.options[k].parameter)] == b.value.supplier
        && r.registrations[|cm.arguments| + k] == b.value.registration
    {
      OptionItemBound(cm, m, chain, env, v, k);
    }
  }

  /** The `k`-th option's item, once the method is bound. */
  lemma OptionItemBound(cm: CommandModel, m: MethodInfo, chain: seq<CommandModel>, env: Environment, v: Variant, k: nat)
    requires BindMethod(cm, m, chain, env, v).Success? && k < |cm.options|
    ensures var r := BindMethod(cm, m, chain, env, v).value;
      var b := BindOptionFor(v, cm.options[k], k, Candidates(cm.options[k].converters, chain, env), env);
      && b.Success?
      && 0 <= IndexOf(m.parameters, cm.options[k].parameter)
      && r.suppliers[IndexOf(m.parameters, cm.options[k].parameter)] == b.value.supplier
      && r.registrations[|cm.arguments| + k] == b.value.registration
  {
    var items := Items(cm, chain, env, v);
    var i := |cm.arguments| + k;
    assert items[i] == OptionItem(cm.options[k], k, chain, env, v);
    BoundItem(m.parameters, items, m.name, i);
  }


  /** What the callback receives once the method is bound. */
  function CallOf(m: MethodInfo, p: Parameters, chain: seq<CommandModel>, env: Environment): Call
    requires |chain| > 0
  {
    Call(m, p.suppliers, ResultHandlersOf(chain, env), ExceptionHandlersOf(chain, env))
  }

  // ---------------------------------------------------------------------------
  // The tree

  /** The method part of `BindCommand`: nothing for a class command. */
  function MethodPart(cm: CommandModel, chain: seq<CommandModel>, env: Environment, v: Variant): (r: Result<Option<Parameters>, Error>)
    ensures r.Success? ==> (r.value.Some? <==> cm.invoked.Some?)
    ensures r.Success? && r.value.Some? ==> |r.value.value.suppliers| == |cm.invoked.value.parameters|
  {
    if cm.invoked.None? then Success(None)
    else
      match BindMethod(cm, cm.invoked.value, chain, env, v)
      case Failure(e) => Failure(e)
      case Success(p) => Success(Some(p))
  }

  /** What is left on the application for one command once its method part
      and its subcommands are bound. */
  function Assemble(cm: CommandModel, chain: seq<CommandModel>, env: Environment, part: Option<Parameters>, children: seq<BoundCommand>): (b: BoundCommand)
    requires |chain| > 0
    requires part.Some? <==> cm.invoked.Some?
    requires part.Some? ==> |part.value.suppliers| == |cm.invoked.value.parameters|
    ensures b.execute.Some? <==> cm.invoked.Some?
    ensures b.execute.Some? ==> b.execute.value.target == cm.invoked.value && WellFormed(b.execute.value)
    ensures cm.invoked.None? ==> b.registrations == []
  {
    BoundCommand(
      cm.name, cm.description, cm.showInHelpText, cm.allowArgumentSeparator, cm.extendedHelpText,
      cm.helpOption, cm.versionOption,
      if part.Some? then part.value.registrations else [],
      if part.Some? then Some(CallOf(cm.invoked.value, part.value, chain, env)) else None,
      children)
  }

  /** `BindCommand` for `cm`, whose ancestors, nearest first, are `ancestors`:
      copy the command's properties and help and version options; for a
      method command bind the arguments and options and register the
      callback; then bind the subcommands in order, with `cm` prepended to
      the ancestors. The first exception ends the whole binding. */
  function BindCommand(cm: CommandModel, ancestors: seq<CommandModel>, env: Environment, v: Variant): (r: Result<BoundCommand, Error>)
    ensures r.Success? ==> |r.value.subcommands| == |cm.commands|
    ensures r.Success? ==> (r.value.execute.Some? <==> cm.invoked.Some?)
    ensures r.Success? && r.value.execute.Some? ==>
      r.value.execute.value.target == cm.invoked.value && WellFormed(r.value.execute.value)
    ensures r.Success? && cm.invoked.None? ==> r.value.registrations == []
    decreases cm, 1
  {
    var chain := [cm] + ancestors;
    var part := MethodPart(cm, chain, env, v);
    if part.Failure? then Failure(part.error)
    else
      var children := Collect(ChildResults(cm, ancestors, env, v));
      if children.Failure? then Failure(children.error)
      else Success(Assemble(cm, chain, env, part.value, children.value))
  }

  /** The subcommands' bindings, in order, each with `cm` prepended to the
      ancestors. */
  function ChildResults(cm: CommandModel, ancestors: seq<CommandModel>, env: Environment, v: Variant): (rs: seq<Result<BoundCommand, Error>>)
    ensures |rs| == |cm.commands|
    decreases cm, 0
  {
    seq(|cm.commands|, k requires 0 <= k < |cm.commands| =>
      assert cm.commands[k] in cm.commands;
      BindCommand(cm.commands[k], [cm] + ancestors, env, v))
  }

  /** The `k`-th child result is the binding of the `k`-th subcommand. */
  lemma ChildResultsAt(cm: CommandModel, ancestors: seq<CommandModel>, env: Environment, k: nat, v: Variant)
    requires k < |cm.commands|
    ensures ChildResults(cm, ancestors, env, v)[k] == BindCommand(cm.commands[k], [cm] + ancestors, env, v)
  {
  }

  /** `BindCommand`, stated per command: it succeeds exactly when the
      method, if any, binds and every subcommand binds (with this command
      prepended to the ancestors); the method's exception comes first, then
      the first failing subcommand's. On success the properties are copied,
      the registrations are the method's, and the subcommands are bound in
      order. */
  lemma BindCommandSpec(cm: CommandModel, ancestors: seq<CommandModel>, env: Environment, v: Variant)
    ensures var r := BindCommand(cm, ancestors, env, v);
      var chain := [cm] + ancestors;
      var m := if cm.invoked.Some? then Some(BindMethod(cm, cm.invoked.value, chain, env, v)) else None;
      var rs := ChildResults(cm, ancestors, env, v);
      var f := FirstFailure(rs);
      && (r.Success? <==> (m.None? || m.value.Success?) && f == |cm.commands|)
      && (r.Failure? && m.Some? && m.value.Failure? ==> r.error == m.value.error)
      && (r.Failure? && (m.None? || m.value.Success?) ==> r.error == rs[f].error)
      && (r.Success? ==>
            && r.value.name == cm.name
            && r.value.help == cm.helpOption
            && r.value.version == cm.versionOption
            && (m.Some? ==>
                  && r.value.registrations == m.value.value.registrations
                  && r.value.execute == Some(CallOf(cm.invoked.value, m.value.value, chain, env)))
            && forall k :: 0 <= k < |cm.commands| ==> r.value.subcommands[k] == rs[k].value)
  {
    CollectSpec(ChildResults(cm, ancestors, env, v));
  }
}

=== FILE: constructor_converter.dfy ===
/** `ConstrctorConverter`: converts a value by passing it to a constructor of
    the target type that takes one parameter accepting the value. A null type
    or value is `None` / `Null`. */
module ConstructorConverter {
  import opened Wrappers
  import opened Seqs
  import opened Types
  import opened Errors
  import opened Reflection

  /** A constructor `GetConstrctor` may pick: public, instance, not abstract,
      with exactly one parameter to which a `source` value is assignable. */
  predicate Accepts(assignable: Assignability, source: Ty, c: Ctor) {
    Invocable(c) && |c.params| == 1 && assignable(c.params[0], source)
  }

  function AcceptsFrom(assignable: Assignability, source: Ty): Ctor -> bool {
    (c: Ctor) => Accepts(assignable, source, c)
  }

  /** `GetConstrctor`: the position of the first constructor of `target`, in
      the order reflection reports them, that accepts `source`, or -1. */
  function ConstructorFor(rt: Runtime, source: Ty, target: Ty): int {
    FirstIndex(rt.ctorsOf(target), AcceptsFrom(rt.assignable, source))
  }

  /** `CanConvert`: false for a null type; otherwise whether the target
      declares an accepting constructor. */
  function CanConvert(rt: Runtime, source: Option<Ty>, target: Option<Ty>): (b: bool)
    ensures b <==> (
      && source.Some? && target.Some?
      && exists k :: 0 <= k < |rt.ctorsOf(target.value)| && Accepts(rt.assignable, source.value, rt.ctorsOf(target.value)[k]))
  {
    if target.None? || source.None? then false
    else
      var k := ConstructorFor(rt, source.value, target.value);
      assert k < 0 ==> forall j :: 0 <= j < |rt.ctorsOf(target.value)| ==> !AcceptsFrom(rt.assignable, source.value)(rt.ctorsOf(target.value)[j]);
      k >= 0
  }

  /** `Convert`: the null checks, in order, then the constructor chosen by
      the value's runtime type, invoked on the value. */
  function Convert(rt: Runtime, value: Value, target: Option<Ty>): (r: Result<Value, Error>)
    ensures target.None? ==> r == Failure(ArgumentNull("targetType"))
    ensures target.Some? && value.Null? ==> r == Failure(ArgumentNull("value"))
    ensures target.Some? && !value.Null? ==> (r.Success? <==> CanConvert(rt, RuntimeType(value), target))
    ensures target.Some? && !value.Null? && !CanConvert(rt, RuntimeType(value), target) ==> r == Failure(InvalidCast)
    ensures r.Success? ==>
      var ctors := rt.ctorsOf(target.value);
      var source := RuntimeType(value).value;
      && r.value.Constructed? && r.value.ty == target.value && r.value.args == [value]
      && r.value.ctor < |ctors|
      && Accepts(rt.assignable, source, ctors[r.value.ctor])
      && forall j :: 0 <= j < r.value.ctor ==> !Accepts(rt.assignable, source, ctors[j])
  {
    if target.None? then Failure(ArgumentNull("targetType"))
    else if value.Null? then Failure(ArgumentNull("value"))
    else
      var k := ConstructorFor(rt, RuntimeType(value).value, target.value);
      if k < 0 then Failure(InvalidCast)
      else Success(Constructed(target.value, k, [value]))
  }

  /** `CanConvert` and `Convert` agree: a value converts exactly when its
      runtime type is one `CanConvert` accepts, and what decides is only the
      type, not the value. */
  lemma ConvertAgrees(rt: Runtime, v: Value, w: Value, target: Ty)
    requires !v.Null? && RuntimeType(v) == RuntimeType(w)
    ensures Convert(rt, v, Some(target)).Success? <==> CanConvert(rt, RuntimeType(v), Some(target))
    ensures Convert(rt, v, Some(target)).Success? <==> Convert(rt, w, Some(target)).Success?
    ensures Convert(rt, v, Some(target)).Success? ==>
      Convert(rt, v, Some(target)).value.ctor == Convert(rt, w, Some(target)).value.ctor
  {
  }

  /** A type whose constructors reflection reports as one taking `object`,
      then one taking `string`: a string converts through the first, since
      the pick is by the reported order and not by the closest match. */
  lemma ReportedOrderWins(rt: Runtime, target: Ty)
    requires rt.ctorsOf(target) == [Ctor(true, false, false, [ObjectTy]), Ctor(true, false, false, [StringTy])]
    requires rt.assignable(ObjectTy, StringTy) && rt.assignable(StringTy, StringTy)
    ensures Convert(rt, Text("x"), Some(target)) == Success(Constructed(target, 0, [Text("x")]))
  {
    assert Accepts(rt.assignable, StringTy, rt.ctorsOf(target)[0]);
  }
}

=== FILE: descriptors.dfy ===
/** The command descriptors the builder produces and the binder consumes
    (`CommandModel` and its nested `ArgumentModel`, `OptionModel`,
    `HelpOptionModel` and `VersionOptionModel`), as an immutable tree: a
    command's sub-commands, arguments and options are held in the order they
    were attached. How attaching works on the mutable objects is modelled in
    module `Ownership`. */
module Descriptors {
  import opened Wrappers
  import opened Types
  import opened Attributes
  import opened Metadata

  datatype ArgumentModel = ArgumentModel(
    name: string,
    description: string,
    multipleValues: Option<bool>,
    showInHelpText: bool,
    parameter: ParamInfo,
    converters: Option<seq<Ty>>)

  datatype OptionModel = OptionModel(
    template: string,
    description: string,
    optionType: Option<OptionKind>,
    showInHelpText: bool,
    parameter: ParamInfo,
    converters: Option<seq<Ty>>)

  datatype HelpOptionModel = HelpOptionModel(template: Option<string>)

  datatype VersionOptionModel = VersionOptionModel(
    template: Option<string>,
    shortFormVersion: Option<string>,
    longFormVersion: Option<string>)

  datatype CommandModel = CommandModel(
    name: string,
    description: string,
    allowArgumentSeparator: bool,
    extendedHelpText: Option<string>,
    showInHelpText: bool,
    /** The method a method command invokes; `None` for a class command. */
    invoked: Option<MethodInfo>,
    commands: seq<CommandModel>,
    arguments: seq<ArgumentModel>,
    options: seq<OptionModel>,
    converters: Option<seq<Ty>>,
    resultHandlers: Option<seq<Ty>>,
    exceptionHandlers: Option<seq<Ty>>,
    helpOption: Option<HelpOptionModel>,
    versionOption: Option<VersionOptionModel>)

  /** A list-valued property that stays null until the first element is added. */
  function ListOrNull(ts: seq<Ty>): (r: Option<seq<Ty>>)
    ensures r.None? <==> |ts| == 0
    ensures r.Some? ==> r.value == ts
  {
    if |ts| == 0 then None else Some(ts)
  }

  /** Iterating over a list-valued property that may be null. */
  function OrEmpty(ts: Option<seq<Ty>>): (r: seq<Ty>)
    ensures ts.Some? ==> r == ts.value
    ensures ts.None? ==> r == []
  {
    ts.GetOr([])
  }
}

=== FILE: errors.dfy ===
/** The exceptions the modelled code throws, by kind. Messages are kept only
    where the source builds them from the model's data. */
module Errors {
  datatype Error =
    | NullReference
      /** `ArgumentNullException`, with the name of the offending parameter. */
    | ArgumentNull(param: string)
    | InvalidOperation(message: string)
    | NotSupported(message: string)
    | InvalidCast
}

=== FILE: execution.dfy ===
/** What the execute callback `BindCommand` registers does when the parser
    invokes it: read every parameter's supplier, find the receiver, invoke
    the method, and turn the result (or any exception raised on the way)
    into an exit code through the handler chains.

    Everything the callback calls into — converters, the service provider,
    constructors, the command method and the handlers — is a parameter: each
    either yields a value or raises an exception. */
module Execution {
  import opened Wrappers
  import opened Seqs
  import opened Types
  import opened Metadata
  import opened Reflection
  import opened Binder
  import opened Selection

  /** An exception raised at run time: its `HResult` and an identity. */
  datatype Fault = Fault(hresult: int, id: nat)

  /** The values the parser collected, per registered argument and option; a
      slot that is not in the map collected none. */
  type Input = map<Slot, seq<string>>

  function ValuesOf(input: Input, s: Slot): seq<string> {
    if s in input then input[s] else []
  }

  /** The code the callback calls into. `convert(c, v, t)` is the `Convert`
      of the converter of type `c`; `service(t)` is `GetService` (possibly
      null); `construct(t, k)` invokes the `k`-th constructor of `t` without
      arguments; `invoke(m, receiver, args)` is `MethodInfo.Invoke`; the two
      `handle` functions are the handlers' `Handle`. */
  datatype Host = Host(
    convert: (Ty, Value, Ty) -> Result<Value, Fault>,
    service: Ty -> Value,
    runtime: Runtime,
    construct: (Ty, nat) -> Result<Value, Fault>,
    invoke: (MethodInfo, Value, seq<Value>) -> Result<Value, Fault>,
    handleResult: (Ty, Value) -> Result<int, Fault>,
    handleException: (Ty, Fault) -> Result<int, Fault>)

  // ---------------------------------------------------------------------------
  // Suppliers

  /** What a supplier reads of its slot's values: the first value or null, a
      `List<string>`, a `string[]`, or whether any value was given. */
  function Raw(reading: Reading, values: seq<string>): (v: Value)
    ensures RuntimeType(v).Some? <==> reading != FirstValue || |values| > 0
  {
    match reading
    case FirstValue => if |values| > 0 then Text(values[0]) else Null
    case ValueList => TextList(values)
    case ValueArray => TextArray(values)
    case Presence => Truth(|values| > 0)
  }

  /** Calling the `Func<object>` a binding returned. */
  function Supply(sup: Supplier, target: Ty, input: Input, convert: (Ty, Value, Ty) -> Result<Value, Fault>): Result<Value, Fault> {
    var values := ValuesOf(input, sup.slot);
    if |values| == 0 && sup.fallback.Some? then Success(sup.fallback.value)
    else if sup.converter.Some? then convert(sup.converter.value, Raw(sup.reading, values), target)
    else Success(Raw(sup.reading, values))
  }

  /** `parameters.ToArray()`: the suppliers called in parameter order, the
      first exception ending the evaluation. `targets[i]` is the type of
      parameter `i`. */
  function SupplyAll(sups: seq<Supplier>, targets: seq<Ty>, input: Input, convert: (Ty, Value, Ty) -> Result<Value, Fault>): (r: Result<seq<Value>, Fault>)
    requires |sups| == |targets|
    ensures r.Success? ==> |r.value| == |sups|
    decreases |sups|
  {
    if |sups| == 0 then Success([])
    else
      match Supply(sups[0], targets[0], input, convert)
      case Failure(f) => Failure(f)
      case Success(v) =>
        match SupplyAll(sups[1..], targets[1..], input, convert)
        case Failure(f) => Failure(f)
        case Success(vs) => Success([v] + vs)
  }

  /** The position of the first supplier that raises, or -1. */
  function FirstRaising(sups: seq<Supplier>, targets: seq<Ty>, input: Input, convert: (Ty, Value, Ty) -> Result<Value, Fault>): (k: int)
    requires |sups| == |targets|
    ensures -1 <= k < |sups|
    ensures 0 <= k ==> Supply(sups[k], targets[k], input, convert).Failure?
    ensures forall j :: 0 <= j < |sups| && (k < 0 || j < k) ==> Supply(sups[j], targets[j], input, convert).Success?
    decreases |sups|
  {
    if |sups| == 0 then -1
    else if Supply(sups[0], targets[0], input, convert).Failure? then 0
    else
      var k := FirstRaising(sups[1..], targets[1..], input, convert);
      assert forall j :: 1 <= j < |sups| ==> sups[j] == sups[1..][j - 1] && targets[j] == targets[1..][j - 1];
      if k < 0 then -1 else k + 1
  }

  /** The argument array holds every supplier's value at its parameter's
      position when no supplier raises; otherwise the evaluation raises what
      the first raising supplier raised. */
  lemma {:induction false} SupplyAllSpec(sups: seq<Supplier>, targets: seq<Ty>, input: Input, convert: (Ty, Value, Ty) -> Result<Value, Fault>)
    requires |sups| == |targets|
    ensures var r := SupplyAll(sups, targets, input, convert);
      var k := FirstRaising(sups, targets, input, convert);
      && (r.Success? <==> k < 0)
      && (r.Success? ==> forall i :: 0 <= i < |sups| ==> r.value[i] == Supply(sups[i], targets[i], input, convert).value)
      && (r.Failure? ==> r.error == Supply(sups[k], targets[k], input, convert).error)
    decreases |sups|
  {
    if |sups| > 0 && Supply(sups[0], targets[0], input, convert).Success? {
      SupplyAllSpec(sups[1..], targets[1..], input, convert);
      assert forall j :: 1 <= j < |sups| ==> sups[j] == sups[1..][j - 1] && targets[j] == targets[1..][j - 1];
    }
  }

  // ---------------------------------------------------------------------------
  // The receiver

  /** The receiver of an instance method: the service provider's instance of
      the declaring type, else a fresh instance from its first public
      non-abstract parameterless constructor, else null. */
  function Instance(host: Host, t: Ty): Result<Value, Fault> {
    var s := host.service(t);
    if !s.Null? then Success(s)
    else
      var k := FirstIndex(host.runtime.ctorsOf(t), Parameterless);
      if k < 0 then Success(Null) else host.construct(t, k)
  }

  /** The receiver is null only when the service provider has none and the
      type offers no public non-abstract parameterless constructor, or when
      invoking that constructor produced null; a constructor is invoked
      only when the service provider has no instance, and then it is the
      first such one. */
  lemma InstanceChoice(host: Host, t: Ty)
    ensures var r := Instance(host, t);
      var ctors := host.runtime.ctorsOf(t);
      && (!host.service(t).Null? ==> r == Success(host.service(t)))
      && (host.service(t).Null? && (forall j :: 0 <= j < |ctors| ==> !Parameterless(ctors[j])) ==> r == Success(Null))
      && (forall k :: 0 <= k < |ctors| && host.service(t).Null? && Parameterless(ctors[k]) && (forall j :: 0 <= j < k ==> !Parameterless(ctors[j])) ==>
            r == host.construct(t, k))
  {
    var ctors := host.runtime.ctorsOf(t);
    var first := FirstIndex(ctors, Parameterless);
    forall k | 0 <= k < |ctors| && host.service(t).Null? && Parameterless(ctors[k]) && (forall j :: 0 <= j < k ==> !Parameterless(ctors[j]))
      ensures Instance(host, t) == host.construct(t, k)
    {
      assert first == k;
    }
  }

  // ---------------------------------------------------------------------------
  // Handler chains

  /** The loop of the handler `Func` a `Select*Handler` returns: handlers run
      in order, each value replacing the running one, until one is not
      negative. A handler that raises ends the loop with its exception. */
  function RunHandlers(init: int, handlers: seq<Ty>, respond: Ty -> Result<int, Fault>): Result<int, Fault>
    decreases |handlers|
  {
    if |handlers| == 0 then Success(init)
    else
      match respond(handlers[0])
      case Failure(f) => Failure(f)
      case Success(v) => if v >= 0 then Success(v) else RunHandlers(v, handlers[1..], respond)
  }

  /** The values the handlers would return, had they all returned. */
  function Responses(handlers: seq<Ty>, respond: Ty -> Result<int, Fault>): (r: seq<int>)
    requires forall k :: 0 <= k < |handlers| ==> respond(handlers[k]).Success?
    ensures |r| == |handlers|
    ensures forall k :: 0 <= k < |handlers| ==> r[k] == respond(handlers[k]).value
  {
    seq(|handlers|, k requires 0 <= k < |handlers| => respond(handlers[k]).value)
  }

  /** When no handler raises, the loop computes the integer chain. */
  lemma {:induction false} RunHandlersChain(init: int, handlers: seq<Ty>, respond: Ty -> Result<int, Fault>)
    requires forall k :: 0 <= k < |handlers| ==> respond(handlers[k]).Success?
    ensures RunHandlers(init, handlers, respond) == Success(RunChain(init, Responses(handlers, respond)))
    decreases |handlers|
  {
    if |handlers| > 0 {
      var vs := Responses(handlers, respond);
      assert forall k :: 0 <= k < |handlers| - 1 ==> handlers[1..][k] == handlers[k + 1];
      assert vs[1..] == Responses(handlers[1..], respond);
      if vs[0] < 0 {
        RunHandlersChain(vs[0], handlers[1..], respond);
      }
    }
  }

  /** The loop is lazy: once a handler returned a non-negative value or
      raised, the handlers after it are never asked. */
  lemma {:induction false} RunHandlersStops(init: int, handlers: seq<Ty>, later: seq<Ty>, respond: Ty -> Result<int, Fault>)
    requires |handlers| > 0
    requires var r := RunHandlers(init, handlers, respond); r.Failure? || r.value >= 0
    ensures RunHandlers(init, handlers + later, respond) == RunHandlers(init, handlers, respond)
    decreases |handlers|
  {
    assert (handlers + later)[0] == handlers[0];
    assert (handlers + later)[1..] == handlers[1..] + later;
    var h := respond(handlers[0]);
    if h.Success? && h.value < 0 {
      RunHandlersStops(h.value, handlers[1..], later, respond);
    }
  }

  /** The loop raises only when some handler raised, every handler before
      it having returned a negative value; `k` is that handler's position. */
  lemma {:induction false} RunHandlersRaises(init: int, handlers: seq<Ty>, respond: Ty -> Result<int, Fault>) returns (k: nat)
    requires RunHandlers(init, handlers, respond).Failure?
    ensures k < |handlers| && respond(handlers[k]) == Failure(RunHandlers(init, handlers, respond).error)
    ensures forall j :: 0 <= j < k ==> respond(handlers[j]).Success? && respond(handlers[j]).value < 0
    decreases |handlers|
  {
    var h := respond(handlers[0]);
    if h.Failure? {
      k := 0;
    } else {
      var k' := RunHandlersRaises(h.value, handlers[1..], respond);
      k := k' + 1;
      assert forall j :: 1 <= j < k ==> handlers[j] == handlers[1..][j - 1];
    }
  }

  // ---------------------------------------------------------------------------
  // The callback

  /** What `BindCommand` hands the callback: the method (`target`), one supplier per
      parameter, and the selected result and exception handlers. */
  datatype Call = Call(target: MethodInfo, suppliers: seq<Supplier>, resultHandlers: seq<Ty>, exceptionHandlers: seq<Ty>)

  predicate WellFormed(call: Call) {
    |call.suppliers| == |call.target.parameters|
  }

  function ParameterTypes(ps: seq<ParamInfo>): (r: seq<Ty>)
    ensures |r| == |ps| && forall i :: 0 <= i < |ps| ==> r[i] == ps[i].paramType
  {
    seq(|ps|, i requires 0 <= i < |ps| => ps[i].paramType)
  }

  /** The receiver: null for a static method, else `Instance`. */
  function Receiver(call: Call, host: Host): Result<Value, Fault> {
    if call.target.isStatic then Success(Null) else Instance(host, call.target.declaringType)
  }

  /** The receiver (instance methods only), the arguments and the
      invocation: what the method returned, or the first exception. */
  function Invocation(call: Call, host: Host, input: Input): Result<Value, Fault>
    requires WellFormed(call)
  {
    match Receiver(call, host)
    case Failure(f) => Failure(f)
    case Success(receiver) =>
      match SupplyAll(call.suppliers, ParameterTypes(call.target.parameters), input, host.convert)
      case Failure(f) => Failure(f)
      case Success(args) => host.invoke(call.target, receiver, args)
  }

  /** The body of the `try`: the invocation, then the result chain, which
      starts at 0. */
  function Attempt(call: Call, host: Host, input: Input): Result<int, Fault>
    requires WellFormed(call)
  {
    match Invocation(call, host, input)
    case Failure(f) => Failure(f)
    case Success(result) => RunHandlers(0, call.resultHandlers, h => host.handleResult(h, result))
  }

  /** The callback: the `try`'s exit code, or, for any exception raised in
      it, the exception chain started at the exception's `HResult`. Only an
      exception raised by an exception handler escapes. */
  function Execute(call: Call, host: Host, input: Input): (r: Result<int, Fault>)
    requires WellFormed(call)
    ensures Attempt(call, host, input).Success? ==> r == Attempt(call, host, input)
    ensures r.Failure? ==> Attempt(call, host, input).Failure?
  {
    match Attempt(call, host, input)
    case Success(code) => Success(code)
    case Failure(f) => RunHandlers(f.hresult, call.exceptionHandlers, h => host.handleException(h, f))
  }

  /** With no handlers selected, the exit code is 0 on success and the
      exception's `HResult` otherwise, and nothing escapes. */
  lemma ExecuteWithoutHandlers(call: Call, host: Host, input: Input)
    requires WellFormed(call)
    requires call.resultHandlers == [] && call.exceptionHandlers == []
    ensures var a := Attempt(call, host, input);
      Execute(call, host, input) == Success(if a.Success? then 0 else a.error.hresult)
  {
  }

  /** An exception raised by a supplier (a converter throwing, say) is
      handled like one raised by the method: it goes to the exception chain
      and the method is never invoked. */
  lemma SupplierFaultHandled(call: Call, host: Host, input: Input)
    requires WellFormed(call)
    requires Receiver(call, host).Success?
    requires SupplyAll(call.suppliers, ParameterTypes(call.target.parameters), input, host.convert).Failure?
    ensures var f := SupplyAll(call.suppliers, ParameterTypes(call.target.parameters), input, host.convert).error;
      Execute(call, host, input) == RunHandlers(f.hresult, call.exceptionHandlers, h => host.handleException(h, f))
  {
  }

  /** If every handler returns, the exit code is the result chain's value on
      success and the exception chain's value otherwise. */
  lemma ExecuteChains(call: Call, host: Host, input: Input)
    requires WellFormed(call)
    requires forall v, h :: h in call.resultHandlers ==> host.handleResult(h, v).Success?
    requires forall f, h :: h in call.exceptionHandlers ==> host.handleException(h, f).Success?
    ensures Execute(call, host, input).Success?
    ensures var m := Invocation(call, host, input);
      m.Success? ==> Execute(call, host, input) == Success(RunChain(0, Responses(call.resultHandlers, h => host.handleResult(h, m.value))))
    ensures var a := Attempt(call, host, input);
      a.Failure? ==> Execute(call, host, input) == Success(RunChain(a.error.hresult, Responses(call.exceptionHandlers, h => host.handleException(h, a.error))))
  {
    var a := Attempt(call, host, input);
    if a.Failure? {
      var f := a.error;
      RunHandlersChain(f.hresult, call.exceptionHandlers, h => host.handleException(h, f));
    }
    var m := Invocation(call, host, input);
    if m.Success? {
      RunHandlersChain(0, call.resultHandlers, h => host.handleResult(h, m.value));
    }
  }

  /** An exception escapes the callback only when an exception handler
      raised it, every handler before it having returned a negative code;
      `k` is that handler's position. */
  lemma ExecuteEscapes(call: Call, host: Host, input: Input) returns (k: nat)
    requires WellFormed(call)
    requires Execute(call, host, input).Failure?
    ensures Attempt(call, host, input).Failure?
    ensures var f := Attempt(call, host, input).error;
      && k < |call.exceptionHandlers|
      && host.handleException(call.exceptionHandlers[k], f) == Failure(Execute(call, host, input).error)
      && forall j :: 0 <= j < k ==> host.handleException(call.exceptionHandlers[j], f).Success? && host.handleException(call.exceptionHandlers[j], f).value < 0
  {
    var f := Attempt(call, host, input).error;
    k := RunHandlersRaises(f.hresult, call.exceptionHandlers, h => host.handleException(h, f));
  }
}

=== FILE: metadata.dfy ===
/** What reflection reports about a command class, its methods and their
    parameters. Each record holds exactly the facts the builder asks for;
    an attribute lookup becomes a field holding the attribute found, if any. */
module Metadata {
  import opened Wrappers
  import opened Types
  import opened Attributes

  datatype ParamInfo = ParamInfo(
    name: string,
    /** The parameter's index in its method (two parameters never share one). */
    position: nat,
    paramType: Ty,
    isOut: bool,
    isRetval: bool,
    isOptional: bool,
    /** `RawDefaultValue` when `HasDefaultValue` holds (the default may itself be null). */
    defaultValue: Option<Value>,
    /** `ParameterInfo.ToString()`. */
    display: string,
    argumentAttr: Option<ArgumentAttr>,
    optionAttr: Option<OptionAttr>,
    converters: seq<Ty>)

  /** The help annotations of a class or method, as two lookups report them:
      `direct`/`directNoHelp` are what the parameterless
      `GetCustomAttribute<T>()` returns, and `inherited`/`inheritedNoHelp`
      what `GetCustomAttribute<T>(inherit: true)` returns. In .NET the
      parameterless extension also searches base definitions, so for these
      inheritable annotations the two lookups agree (see
      `Builder.HelpChoiceOneLookup`). */
  datatype HelpAnnotations = HelpAnnotations(
    direct: Option<HelpOptionAttr>,
    directNoHelp: bool,
    inherited: Option<HelpOptionAttr>,
    inheritedNoHelp: bool)

  datatype MethodInfo = MethodInfo(
    name: string,
    /** `MethodInfo.ToString()`. */
    display: string,
    declaringType: Ty,
    isStatic: bool,
    isSpecialName: bool,
    isNonCommand: bool,
    /** The base definition is declared on `object` (`ToString`, `Equals`, ...). */
    declaredOnObject: bool,
    /** The base definition implements `IDisposable.Dispose`. */
    implementsDispose: bool,
    isAbstract: bool,
    isConstructor: bool,
    isGenericMethod: bool,
    isPublic: bool,
    commandAttr: Option<CommandAttr>,
    converters: seq<Ty>,
    /** Result handlers annotated on the return value. */
    returnResultHandlers: seq<Ty>,
    help: HelpAnnotations,
    versionAttr: Option<VersionOptionAttr>,
    parameters: seq<ParamInfo>)

  datatype TypeInfo = TypeInfo(
    name: string,
    /** `Type.ToString()`. */
    display: string,
    ty: Ty,
    isClass: bool,
    isAbstract: bool,
    isSealed: bool,
    isPublic: bool,
    isNonCommand: bool,
    commandAttr: Option<CommandAttr>,
    converters: seq<Ty>,
    resultHandlers: seq<Ty>,
    exceptionHandlers: seq<Ty>,
    help: HelpAnnotations,
    versionAttr: Option<VersionOptionAttr>,
    methods: seq<MethodInfo>)
}

=== FILE: method_converter.dfy ===
/** `MethodConverter`: converts a value through a conversion method one of
    the two types declares: a static method on the source type returning the
    target ("To"), a static method on the target type taking the source
    ("From"), or a parameterless instance method of the source ("To"). Among
    the candidates of one kind a fixed list of names decides, in order. */
module MethodConverter {
  import opened Wrappers
  import opened Seqs
  import opened Types
  import opened Errors
  import opened Reflection

  /** A candidate of `GetStaticToMethod`: a public static method of the
      source type whose result the target accepts and whose one `in`
      parameter has exactly the source type. */
  predicate StaticToShape(assignable: Assignability, source: Ty, target: Ty, m: Method) {
    && m.isPublic && m.isStatic && !m.isAbstract
    && assignable(target, m.returnType)
    && |m.params| == 1 && m.params[0].ty == source && m.params[0].isIn
  }

  /** A candidate of `GetStaticFromMethod`: a public static method of the
      target type returning exactly the target, whose one `in` parameter
      accepts the source. */
  predicate StaticFromShape(assignable: Assignability, source: Ty, target: Ty, m: Method) {
    && m.isPublic && m.isStatic && !m.isAbstract
    && m.returnType == target
    && |m.params| == 1 && assignable(m.params[0].ty, source) && m.params[0].isIn
  }

  /** A candidate of `GetInstanceToMethod`: a public instance method without
      parameters whose result the target accepts. */
  predicate InstanceToShape(assignable: Assignability, target: Ty, m: Method) {
    && m.isPublic && !m.isStatic && !m.isAbstract
    && assignable(target, m.returnType)
    && |m.params| == 0
  }

  function HasName(n: string): Method -> bool {
    (m: Method) => m.name == n
  }

  /** The names `GetStaticToMethod` tries, in order; `op_True` only when the
      target is `bool`. */
  function StaticToNames(target: Ty): seq<string> {
    ["op_Implicit", "op_Explicit"] + (if target == BoolTy then ["op_True"] else []) + ["To" + TypeName(target)]
  }

  /** The names `GetStaticFromMethod` tries, in order: the operators, then
      "From" and the source type's name, then `Parse`. */
  function StaticFromNames(source: Ty, target: Ty): seq<string> {
    ["op_Implicit", "op_Explicit"] + (if target == BoolTy then ["op_True"] else []) + ["From" + TypeName(source), "Parse"]
  }

  /** The operators come first and `Parse` last, with "From" and the source
      type's name just before it; `op_True` is tried exactly for a `bool`
      target. */
  lemma StaticFromOrder(source: Ty, target: Ty)
    ensures var ns := StaticFromNames(source, target);
      && |ns| == (if target == BoolTy then 5 else 4)
      && ns[0] == "op_Implicit" && ns[1] == "op_Explicit"
      && ns[|ns| - 2] == "From" + TypeName(source) && ns[|ns| - 1] == "Parse"
      && ("op_True" in ns <==> target == BoolTy)
  {
    var from := "From" + TypeName(source);
    assert from[0] == 'F';
  }

  /** The chain of `candidates.Where(m => m.Name == n).FirstOrDefault()`
      lookups, one per name, the first one that finds something winning. */
  function ByPrecedence(candidates: seq<Method>, names: seq<string>): (r: Option<Method>)
    ensures r.Some? ==> r.value in candidates && r.value.name in names
    decreases |names|
  {
    if |names| == 0 then None
    else
      match FirstWhere(candidates, HasName(names[0]))
      case Some(m) =>
        FirstWhereIndex(candidates, HasName(names[0]));
        Some(m)
      case None => ByPrecedence(candidates, names[1..])
  }

  /** Whether some candidate carries the name `n`. */
  predicate Mentions(candidates: seq<Method>, n: string) {
    exists k :: 0 <= k < |candidates| && candidates[k].name == n
  }

  function MentionedIn(candidates: seq<Method>): string -> bool {
    n => Mentions(candidates, n)
  }

  /** The lookup chain, stated without it: the winner is the first candidate
      carrying the earliest name any candidate carries, and there is none
      exactly when no candidate carries any of the names. */
  lemma {:induction false} ByPrecedenceSpec(candidates: seq<Method>, names: seq<string>)
    ensures var i := FirstIndex(names, MentionedIn(candidates));
      ByPrecedence(candidates, names) == if i < 0 then None else FirstWhere(candidates, HasName(names[i]))
    decreases |names|
  {
    if |names| > 0 {
      FirstWhereIndex(candidates, HasName(names[0]));
      var found := FirstWhere(candidates, HasName(names[0]));
      if found.Some? {
        assert MentionedIn(candidates)(names[0]);
      } else {
        ByPrecedenceSpec(candidates, names[1..]);
        var j := FirstIndex(names[1..], MentionedIn(candidates));
        assert forall k :: 1 <= k < |names| ==> names[k] == names[1..][k - 1];
        assert FirstIndex(names, MentionedIn(candidates)) == if j < 0 then -1 else j + 1;
      }
    }
  }

  /** `GetStaticToMethod`. */
  function StaticTo(rt: Runtime, source: Ty, target: Ty): (r: Option<Method>)
    ensures r.Some? ==> r.value in rt.methodsOf(source) && StaticToShape(rt.assignable, source, target, r.value)
    ensures r.Some? ==> r.value.name in StaticToNames(target)
  {
    var candidates := Filter(rt.methodsOf(source), m => StaticToShape(rt.assignable, source, target, m));
    ByPrecedence(candidates, StaticToNames(target))
  }

  /** `GetStaticFromMethod`. */
  function StaticFrom(rt: Runtime, source: Ty, target: Ty): (r: Option<Method>)
    ensures r.Some? ==> r.value in rt.methodsOf(target) && StaticFromShape(rt.assignable, source, target, r.value)
    ensures r.Some? ==> r.value.name in StaticFromNames(source, target)
  {
    var candidates := Filter(rt.methodsOf(target), m => StaticFromShape(rt.assignable, source, target, m));
    ByPrecedence(candidates, StaticFromNames(source, target))
  }

  /** `GetInstanceToMethod`: only the name "To" and the target's name counts. */
  function InstanceTo(rt: Runtime, source: Ty, target: Ty): (r: Option<Method>)
    ensures r.Some? ==> r.value in rt.methodsOf(source) && InstanceToShape(rt.assignable, target, r.value)
    ensures r.Some? ==> r.value.name == "To" + TypeName(target)
  {
    var candidates := Filter(rt.methodsOf(source), m => InstanceToShape(rt.assignable, target, m));
    FirstWhereIndex(candidates, HasName("To" + TypeName(target)));
    FirstWhere(candidates, HasName("To" + TypeName(target)))
  }

  /** `CanConvert`: false for a null type; otherwise whether any of the
      three lookups finds a method. */
  function CanConvert(rt: Runtime, source: Option<Ty>, target: Option<Ty>): (b: bool)
    ensures b ==> source.Some? && target.Some?
    ensures b ==> (
      || (exists m :: m in rt.methodsOf(source.value) && StaticToShape(rt.assignable, source.value, target.value, m))
      || (exists m :: m in rt.methodsOf(target.value) && StaticFromShape(rt.assignable, source.value, target.value, m))
      || (exists m :: m in rt.methodsOf(source.value) && InstanceToShape(rt.assignable, target.value, m)))
  {
    if target.None? || source.None? then false
    else
      || StaticTo(rt, source.value, target.value).Some?
      || StaticFrom(rt, source.value, target.value).Some?
      || InstanceTo(rt, source.value, target.value).Some?
  }

  /** Invoking a static conversion method on the value. */
  function CallStatic(m: Method, value: Value): Value {
    Returned(m.owner, m.name, m.returnType, None, [value])
  }

  /** Invoking a parameterless instance method on the value. */
  function CallInstance(m: Method, value: Value): Value {
    Returned(m.owner, m.name, m.returnType, Some(value), [])
  }

  /** `Convert` as written: the fallback after the static lookups repeats
      the "From" lookup instead of trying the instance "To" method, so it
      can never find anything, and a conversion `CanConvert` accepts through
      an instance method throws `InvalidCastException`. */
  function ConvertAsWritten(rt: Runtime, value: Value, target: Option<Ty>): (r: Result<Value, Error>)
    ensures target.None? ==> r == Failure(ArgumentNull("targetType"))
    ensures target.Some? && value.Null? ==> r == Failure(ArgumentNull("value"))
    ensures r.Success? ==> r.value.Returned? && r.value.receiver.None? && r.value.args == [value]
    ensures target.Some? && !value.Null? ==> (r.Success? <==>
      (StaticTo(rt, RuntimeType(value).value, target.value).Some? || StaticFrom(rt, RuntimeType(value).value, target.value).Some?))
  {
    if target.None? then Failure(ArgumentNull("targetType"))
    else if value.Null? then Failure(ArgumentNull("value"))
    else
      var source := RuntimeType(value).value;
      var staticMethod := if StaticTo(rt, source, target.value).Some? then StaticTo(rt, source, target.value) else StaticFrom(rt, source, target.value);
      match staticMethod
      case Some(m) => Success(CallStatic(m, value))
      case None =>
        match StaticFrom(rt, source, target.value)
        case Some(m) => Success(CallInstance(m, value))
        case None => Failure(InvalidCast)
  }

  /** `Convert` with the fallback the lookup order of `CanConvert` calls
      for: the instance "To" method, invoked on the value itself. */
  function Convert(rt: Runtime, value: Value, target: Option<Ty>): (r: Result<Value, Error>)
    ensures target.None? ==> r == Failure(ArgumentNull("targetType"))
    ensures target.Some? && value.Null? ==> r == Failure(ArgumentNull("value"))
    ensures target.Some? && !value.Null? ==> (r.Success? <==> CanConvert(rt, RuntimeType(value), target))
    ensures target.Some? && !value.Null? && !CanConvert(rt, RuntimeType(value), target) ==> r == Failure(InvalidCast)
    ensures r.Success? ==> r.value.Returned? && (r.value.receiver.Some? <==> r.value.args == [])
  {
    if target.None? then Failure(ArgumentNull("targetType"))
    else if value.Null? then Failure(ArgumentNull("value"))
    else
      var source := RuntimeType(value).value;
      var staticMethod := if StaticTo(rt, source, target.value).Some? then StaticTo(rt, source, target.value) else StaticFrom(rt, source, target.value);
      match staticMethod
      case Some(m) => Success(CallStatic(m, value))
      case None =>
        match InstanceTo(rt, source, target.value)
        case Some(m) => Success(CallInstance(m, value))
        case None => Failure(InvalidCast)
  }

  /** Which method the corrected `Convert` invokes: the static "To" method
      when there is one, else the static "From" method, else the instance
      "To" method on the value. */
  lemma ConvertChoice(rt: Runtime, value: Value, target: Ty)
    requires !value.Null?
    ensures var source := RuntimeType(value).value;
      var r := Convert(rt, value, Some(target));
      && (StaticTo(rt, source, target).Some? ==> r == Success(CallStatic(StaticTo(rt, source, target).value, value)))
      && (StaticTo(rt, source, target).None? && StaticFrom(rt, source, target).Some? ==>
            r == Success(CallStatic(StaticFrom(rt, source, target).value, value)))
      && (StaticTo(rt, source, target).None? && StaticFrom(rt, source, target).None? && InstanceTo(rt, source, target).Some? ==>
            r == Success(CallInstance(InstanceTo(rt, source, target).value, value)))
  {
  }

  /** Both versions agree whenever a static method exists; where only an
      instance "To" method does, `CanConvert` accepts the pair but the
      as-written `Convert` throws `InvalidCastException`. */
  lemma AsWrittenMissesInstanceMethods(rt: Runtime, value: Value, target: Ty)
    requires !value.Null?
    ensures var source := RuntimeType(value).value;
      && (StaticTo(rt, source, target).Some? || StaticFrom(rt, source, target).Some? ==>
            ConvertAsWritten(rt, value, Some(target)) == Convert(rt, value, Some(target)))
      && (StaticTo(rt, source, target).None? && StaticFrom(rt, source, target).None? && InstanceTo(rt, source, target).Some? ==>
            && CanConvert(rt, Some(source), Some(target))
            && ConvertAsWritten(rt, value, Some(target)) == Failure(InvalidCast)
            && Convert(rt, value, Some(target)).Success?)
  {
  }

  /** An instance of a type `Meters` with a public instance method `ToFeet`
      returning `Feet`, and no static conversion on either side: `CanConvert`
      says yes, and the as-written `Convert` throws. */
  lemma MetersToFeet(rt: Runtime)
    requires rt.methodsOf(Named("Meters")) == [Method(Named("Meters"), "ToFeet", true, false, false, Named("Feet"), [])]
    requires rt.methodsOf(Named("Feet")) == []
    requires rt.assignable(Named("Feet"), Named("Feet"))
    ensures CanConvert(rt, Some(Named("Meters")), Some(Named("Feet")))
    ensures ConvertAsWritten(rt, Object(Named("Meters"), 0), Some(Named("Feet"))) == Failure(InvalidCast)
    ensures Convert(rt, Object(Named("Meters"), 0), Some(Named("Feet")))
      == Success(Returned(Named("Meters"), "ToFeet", Named("Feet"), Some(Object(Named("Meters"), 0)), []))
  {
    var meters := Named("Meters");
    var feet := Named("Feet");
    var toFeet := rt.methodsOf(meters)[0];
    assert !StaticToShape(rt.assignable, meters, feet, toFeet);
    assert Filter(rt.methodsOf(meters), m => StaticToShape(rt.assignable, meters, feet, m)) == [];
    assert Filter(rt.methodsOf(meters), m => InstanceToShape(rt.assignable, feet, m)) == [toFeet];
    assert TypeName(feet) == "Feet";
  }

  /** Given both `op_Explicit` and `op_Implicit` on the source type, the
      implicit operator wins whatever order reflection reports them in. */
  lemma ImplicitBeforeExplicit(rt: Runtime, source: Ty, target: Ty, explicit: Method, implicit: Method)
    requires explicit.name == "op_Explicit" && implicit.name == "op_Implicit"
    requires StaticToShape(rt.assignable, source, target, explicit) && StaticToShape(rt.assignable, source, target, implicit)
    requires rt.methodsOf(source) == [explicit, implicit]
    ensures StaticTo(rt, source, target) == Some(implicit)
  {
    var candidates := Filter(rt.methodsOf(source), m => StaticToShape(rt.assignable, source, target, m));
    assert candidates == [explicit, implicit] by {
      FilterStep(explicit, [implicit], m => StaticToShape(rt.assignable, source, target, m));
      FilterStep(implicit, [], m => StaticToShape(rt.assignable, source, target, m));
    }
    FirstWhereCons(explicit, [implicit], HasName("op_Implicit"));
  }

  /** `op_True` is a candidate name only when converting to `bool`: for any
      other target, neither static lookup returns an `op_True` method. */
  lemma OpTrueOnlyForBool(rt: Runtime, source: Ty, target: Ty)
    requires target != BoolTy
    ensures StaticTo(rt, source, target).Some? ==> StaticTo(rt, source, target).value.name != "op_True"
    ensures StaticFrom(rt, source, target).Some? ==> StaticFrom(rt, source, target).value.name != "op_True"
  {
    assert ("To" + TypeName(target))[0] == 'T';
    assert "op_True" !in StaticToNames(target);
    assert ("From" + TypeName(source))[0] == 'F';
    assert "op_True" !in StaticFromNames(source, target);
  }
}

=== FILE: ownership.dfy ===
/** How `CommandModel` keeps its children: every child object holds a
    reference to its owner, and every owner a list of children, and the
    child's setter keeps both sides in step (`Parent` of a command,
    `Command` of an argument or option model). Objects are numbered; the
    same bookkeeping serves all three kinds of child.

    Help and version option models are held one-to-one instead: a command
    has at most one of each, and the item's `Command` setter keeps the two
    references in step. */
module Ownership {
  import opened Wrappers
  import opened Seqs
  import opened Errors

  /** `owner[i]` is item `i`'s owner reference (`None` is null); `lists[c]`
      is owner `c`'s list of children, in the order they were added. */
  datatype Links = Links(owner: seq<Option<nat>>, lists: seq<seq<nat>>)

  /** Every owner reference names an existing owner. */
  predicate InRange(l: Links) {
    forall i :: 0 <= i < |l.owner| && l.owner[i].Some? ==> l.owner[i].value < |l.lists|
  }

  /** The two sides agree: an item occurs exactly once in its owner's list
      and in no other list, and lists hold existing items only. */
  predicate Consistent(l: Links) {
    && InRange(l)
    && (forall c, k :: 0 <= c < |l.lists| && 0 <= k < |l.lists[c]| ==> l.lists[c][k] < |l.owner|)
    && (forall c, i :: 0 <= c < |l.lists| && 0 <= i < |l.owner| ==>
          multiset(l.lists[c])[i] == if l.owner[i] == Some(c) then 1 else 0)
  }

  /** The setter: remove the item from its old owner's list (the first
      occurrence, as `List.Remove` does), store the new reference, append the
      item to the new owner's list. */
  function SetOwner(l: Links, i: nat, p: Option<nat>): (r: Links)
    requires InRange(l) && i < |l.owner|
    requires p.Some? ==> p.value < |l.lists|
    ensures InRange(r) && |r.owner| == |l.owner| && |r.lists| == |l.lists|
    ensures r.owner == l.owner[i := p]
  {
    var detached := if l.owner[i].Some? then l.lists[l.owner[i].value := RemoveFirst(l.lists[l.owner[i].value], i)] else l.lists;
    var attached := if p.Some? then detached[p.value := detached[p.value] + [i]] else detached;
    Links(l.owner[i := p], attached)
  }

  /** Owner `c`'s list after the setter: without the item if `c` was its
      owner, with the item at the end if `c` is its new owner, else as it was. */
  lemma SetOwnerList(l: Links, i: nat, p: Option<nat>, c: nat)
    requires InRange(l) && i < |l.owner| && c < |l.lists|
    requires p.Some? ==> p.value < |l.lists|
    ensures SetOwner(l, i, p).lists[c]
         == (if l.owner[i] == Some(c) then RemoveFirst(l.lists[c], i) else l.lists[c])
            + (if p == Some(c) then [i] else [])
  {
  }

  /** Per owner, the setter takes the item out of the old owner's list and
      puts it into the new owner's. */
  lemma SetOwnerCounts(l: Links, i: nat, p: Option<nat>, c: nat)
    requires Consistent(l) && i < |l.owner| && c < |l.lists|
    requires p.Some? ==> p.value < |l.lists|
    ensures multiset(SetOwner(l, i, p).lists[c])
         == multiset(l.lists[c])
            - (if l.owner[i] == Some(c) then multiset{i} else multiset{})
            + (if p == Some(c) then multiset{i} else multiset{})
  {
    SetOwnerList(l, i, p, c);
    if l.owner[i] == Some(c) {
      assert i in l.lists[c] by { assert multiset(l.lists[c])[i] == 1; }
      RemoveFirstCount(l.lists[c], i);
    }
  }

  /** The setter keeps the two sides in step. */
  lemma SetOwnerConsistent(l: Links, i: nat, p: Option<nat>)
    requires Consistent(l) && i < |l.owner|
    requires p.Some? ==> p.value < |l.lists|
    ensures Consistent(SetOwner(l, i, p))
  {
    var r := SetOwner(l, i, p);
    forall c, j | 0 <= c < |r.lists| && 0 <= j < |r.owner|
      ensures multiset(r.lists[c])[j] == if r.owner[j] == Some(c) then 1 else 0
    {
      SetOwnerCounts(l, i, p, c);
    }
    forall c | 0 <= c < |r.lists|
      ensures forall k :: 0 <= k < |r.lists[c]| ==> r.lists[c][k] < |r.owner|
    {
      SetOwnerListRange(l, i, p, c);
    }
  }

  lemma SetOwnerListRange(l: Links, i: nat, p: Option<nat>, c: nat)
    requires Consistent(l) && i < |l.owner| && c < |l.lists|
    requires p.Some? ==> p.value < |l.lists|
    ensures forall k :: 0 <= k < |SetOwner(l, i, p).lists[c]| ==> SetOwner(l, i, p).lists[c][k] < |l.owner|
  {
    var r := SetOwner(l, i, p);
    SetOwnerCounts(l, i, p, c);
    forall k | 0 <= k < |r.lists[c]| ensures r.lists[c][k] < |l.owner| {
      var x := r.lists[c][k];
      assert x in multiset(r.lists[c]);
      assert x == i || x in multiset(l.lists[c]);
    }
  }

  /** After setting item `i`'s owner to `c`, `i` is the last child of `c`,
      occurs in no other list, and the rest of `c`'s children keep their
      order. Setting the same owner again moves the item to the end. */
  lemma SetOwnerPlacement(l: Links, i: nat, c: nat)
    requires Consistent(l) && i < |l.owner| && c < |l.lists|
    ensures var r := SetOwner(l, i, Some(c));
      && r.owner[i] == Some(c)
      && |r.lists[c]| > 0 && r.lists[c][|r.lists[c]| - 1] == i
      && multiset(r.lists[c])[i] == 1
      && r.lists[c][..|r.lists[c]| - 1] == RemoveFirst(l.lists[c], i)
      && (forall d :: 0 <= d < |l.lists| && d != c ==> i !in r.lists[d])
  {
    var r := SetOwner(l, i, Some(c));
    SetOwnerConsistent(l, i, Some(c));
    SetOwnerList(l, i, Some(c), c);
    assert Consistent(r);
    if l.owner[i] != Some(c) {
      assert multiset(l.lists[c])[i] == 0;
    }
    forall d | 0 <= d < |l.lists| && d != c ensures i !in r.lists[d] {
      SetOwnerCounts(l, i, Some(c), d);
      assert multiset(l.lists[d])[i] == if l.owner[i] == Some(d) then 1 else 0;
      assert multiset(r.lists[d])[i] == 0;
    }
  }

  /** Clearing the owner reference only detaches the item. */
  lemma SetOwnerNone(l: Links, i: nat)
    requires Consistent(l) && i < |l.owner|
    ensures var r := SetOwner(l, i, None);
      && (forall d :: 0 <= d < |l.lists| ==> i !in r.lists[d])
      && (forall d :: 0 <= d < |l.lists| && l.owner[i] != Some(d) ==> r.lists[d] == l.lists[d])
  {
    var r := SetOwner(l, i, None);
    SetOwnerConsistent(l, i, None);
    assert Consistent(r);
    forall d | 0 <= d < |l.lists| && l.owner[i] != Some(d) ensures r.lists[d] == l.lists[d] {
      SetOwnerList(l, i, None, d);
    }
    forall d | 0 <= d < |l.lists| ensures i !in r.lists[d] {
      SetOwnerCounts(l, i, None, d);
      assert multiset(l.lists[d])[i] == if l.owner[i] == Some(d) then 1 else 0;
      assert multiset(r.lists[d])[i] == 0;
    }
  }

  /** Setting the owner of each item in turn to `c`. */
  function AttachAll(l: Links, items: seq<nat>, c: nat): (r: Links)
    requires InRange(l) && c < |l.lists|
    requires forall k :: 0 <= k < |items| ==> items[k] < |l.owner|
    ensures InRange(r) && |r.owner| == |l.owner| && |r.lists| == |l.lists|
    decreases |items|
  {
    if |items| == 0 then l else AttachAll(SetOwner(l, items[0], Some(c)), items[1..], c)
  }

  /** Attaching distinct detached items one after another lists them after
      the owner's existing children in the order they were attached, and
      keeps the two sides in step. This is why the descriptor tree holds a
      command's children in creation order. */
  lemma AttachAllInOrder(l: Links, items: seq<nat>, c: nat)
    requires Consistent(l) && c < |l.lists|
    requires forall k :: 0 <= k < |items| ==> items[k] < |l.owner| && l.owner[items[k]].None?
    requires NoDuplicates(items)
    ensures var r := AttachAll(l, items, c);
      && Consistent(r)
      && r.lists[c] == l.lists[c] + items
      && (forall k :: 0 <= k < |items| ==> r.owner[items[k]] == Some(c))
  {
    AttachAllConsistent(l, items, c);
    forall k | 0 <= k < |items| ensures items[k] !in l.lists[c] {
      assert multiset(l.lists[c])[items[k]] == 0;
    }
    AttachAllList(l, items, c);
    AttachAllOwners(l, items, c);
  }

  lemma {:induction false} AttachAllConsistent(l: Links, items: seq<nat>, c: nat)
    requires Consistent(l) && c < |l.lists|
    requires forall k :: 0 <= k < |items| ==> items[k] < |l.owner|
    ensures Consistent(AttachAll(l, items, c))
    decreases |items|
  {
    if |items| > 0 {
      SetOwnerConsistent(l, items[0], Some(c));
      AttachAllConsistent(SetOwner(l, items[0], Some(c)), items[1..], c);
    }
  }

  lemma {:induction false} AttachAllList(l: Links, items: seq<nat>, c: nat)
    requires InRange(l) && c < |l.lists|
    requires forall k :: 0 <= k < |items| ==> items[k] < |l.owner| && l.owner[items[k]].None? && items[k] !in l.lists[c]
    requires NoDuplicates(items)
    ensures AttachAll(l, items, c).lists[c] == l.lists[c] + items
    decreases |items|
  {
    if |items| > 0 {
      var x := items[0];
      var l1 := SetOwner(l, x, Some(c));
      AttachDetached(l, x, c);
      NoDuplicatesTail(items);
      forall k | 0 <= k < |items[1..]|
        ensures l1.owner[items[1..][k]].None? && items[1..][k] !in l1.lists[c]
      {
        assert items[1..][k] == items[k + 1] != items[0];
      }
      AttachAllList(l1, items[1..], c);
      assert l.lists[c] + [x] + items[1..] == l.lists[c] + items;
    }
  }

  /** Attaching a detached item appends it to the owner's list. */
  lemma AttachDetached(l: Links, x: nat, c: nat)
    requires InRange(l) && c < |l.lists| && x < |l.owner| && l.owner[x].None?
    ensures SetOwner(l, x, Some(c)).lists[c] == l.lists[c] + [x]
    ensures SetOwner(l, x, Some(c)).owner == l.owner[x := Some(c)]
  {
    SetOwnerList(l, x, Some(c), c);
  }

  lemma NoDuplicatesTail<T>(items: seq<T>)
    requires |items| > 0 && NoDuplicates(items)
    ensures NoDuplicates(items[1..])
  {
    forall a, b | 0 <= a < b < |items[1..]| ensures items[1..][a] != items[1..][b] {
      assert items[1..][a] == items[a + 1] && items[1..][b] == items[b + 1];
    }
  }

  /** Attaching sets the owner reference of exactly the attached items. */
  lemma {:induction false} AttachAllOwners(l: Links, items: seq<nat>, c: nat)
    requires InRange(l) && c < |l.lists|
    requires forall k :: 0 <= k < |items| ==> items[k] < |l.owner|
    ensures forall x :: 0 <= x < |l.owner| ==>
      AttachAll(l, items, c).owner[x] == if x in items then Some(c) else l.owner[x]
    decreases |items|
  {
    if |items| > 0 {
      AttachAllOwners(SetOwner(l, items[0], Some(c)), items[1..], c);
      assert forall x :: x in items <==> x == items[0] || x in items[1..];
    }
  }

  /** No object exists yet. */
  const NoLinks := Links([], [])

  lemma NoLinksConsistent()
    ensures Consistent(NoLinks)
  {
  }

  /** `new CommandModel(parent)`: a command is both an item and an owner;
      the new one has no children and is attached to `parent` through the
      setter. Returns the updated links and the new command's number. */
  function NewCommand(l: Links, parent: Option<nat>): (r: (Links, nat))
    requires InRange(l) && |l.owner| == |l.lists|
    requires parent.Some? ==> parent.value < |l.lists|
    ensures r.1 == |l.owner|
    ensures |r.0.owner| == |r.0.lists| == |l.owner| + 1
    ensures r.0.owner[r.1] == parent
    ensures r.0.lists[r.1] == []
  {
    var id := |l.owner|;
    var grown := Links(l.owner + [None], l.lists + [[]]);
    (SetOwner(grown, id, parent), id)
  }

  /** A new command extends consistent links consistently, and becomes the
      last sub-command of its parent. */
  lemma NewCommandConsistent(l: Links, parent: Option<nat>)
    requires Consistent(l) && |l.owner| == |l.lists|
    requires parent.Some? ==> parent.value < |l.lists|
    ensures Consistent(NewCommand(l, parent).0)
    ensures parent.Some? ==> NewCommand(l, parent).0.lists[parent.value] == l.lists[parent.value] + [|l.owner|]
  {
    var id := |l.owner|;
    var grown := Links(l.owner + [None], l.lists + [[]]);
    forall c, i | 0 <= c < |grown.lists| && 0 <= i < |grown.owner|
      ensures multiset(grown.lists[c])[i] == if grown.owner[i] == Some(c) then 1 else 0
    {
      if c < |l.lists| && i < |l.owner| {
        assert grown.lists[c] == l.lists[c] && grown.owner[i] == l.owner[i];
      } else if c < |l.lists| {
        assert i == id && id !in l.lists[c];
        assert multiset(grown.lists[c])[i] == 0;
      }
    }
    assert Consistent(grown);
    SetOwnerConsistent(grown, id, parent);
    if parent.Some? {
      assert multiset(grown.lists[parent.value])[id] == 0;
      assert id !in grown.lists[parent.value];
    }
  }

  /** `Command(sub)`, `Argument(a)`, `Option(o)`: attach a child through its
      setter and hand back the receiver, for chaining. */
  function Attach(l: Links, c: nat, child: nat): (r: (Links, nat))
    requires InRange(l) && c < |l.lists| && child < |l.owner|
    ensures r.1 == c
    ensures |r.0.owner| == |l.owner| && |r.0.lists| == |l.lists|
    ensures r.0.owner[child] == Some(c)
    ensures |r.0.lists[c]| > 0 && r.0.lists[c][|r.0.lists[c]| - 1] == child
  {
    (SetOwner(l, child, Some(c)), c)
  }

  /** A new argument or option model: an item without an owner. */
  function NewItem(l: Links): (r: (Links, nat))
    ensures r.1 == |l.owner| && r.0.owner == l.owner + [None] && r.0.lists == l.lists
  {
    (Links(l.owner + [None], l.lists), |l.owner|)
  }

  lemma NewItemConsistent(l: Links)
    requires Consistent(l)
    ensures Consistent(NewItem(l).0)
  {
    var r := NewItem(l).0;
    forall c, i | 0 <= c < |r.lists| && 0 <= i < |r.owner|
      ensures multiset(r.lists[c])[i] == if r.owner[i] == Some(c) then 1 else 0
    {
      if i == |l.owner| {
        assert i !in l.lists[c];
      } else {
        assert r.owner[i] == l.owner[i];
      }
    }
  }

  /** A new command without a parent also owns no argument or option yet. */
  function AddOwner(l: Links): (r: Links)
    ensures r.owner == l.owner && r.lists == l.lists + [[]]
  {
    Links(l.owner, l.lists + [[]])
  }

  lemma AddOwnerConsistent(l: Links)
    requires Consistent(l)
    ensures Consistent(AddOwner(l))
  {
    var r := AddOwner(l);
    assert forall c :: 0 <= c < |l.lists| ==> r.lists[c] == l.lists[c];
  }

  // ---------------------------------------------------------------------
  // One-to-one pairing: help and version option models.

  /** `ownerOf[h]` is item `h`'s `Command` reference, `itemOf[c]` is command
      `c`'s `HelpOption` (or `VersionOption`) field. */
  datatype Pairing = Pairing(ownerOf: seq<Option<nat>>, itemOf: seq<Option<nat>>)

  predicate PairingInRange(p: Pairing) {
    && (forall h :: 0 <= h < |p.ownerOf| && p.ownerOf[h].Some? ==> p.ownerOf[h].value < |p.itemOf|)
    && (forall c :: 0 <= c < |p.itemOf| && p.itemOf[c].Some? ==> p.itemOf[c].value < |p.ownerOf|)
  }

  /** The two references agree in both directions. */
  predicate Paired(p: Pairing) {
    && PairingInRange(p)
    && forall h, c :: 0 <= h < |p.ownerOf| && 0 <= c < |p.itemOf| ==>
         (p.ownerOf[h] == Some(c) <==> p.itemOf[c] == Some(h))
  }

  /** The item's `Command` setter as written: clear the old command's field,
      store the new reference, set the new command's field. The field the
      new command held before is overwritten without touching the item it
      referred to. */
  function SetCommand(p: Pairing, h: nat, c: Option<nat>): (r: Pairing)
    requires PairingInRange(p) && h < |p.ownerOf|
    requires c.Some? ==> c.value < |p.itemOf|
    ensures PairingInRange(r) && |r.ownerOf| == |p.ownerOf| && |r.itemOf| == |p.itemOf|
    ensures r.ownerOf == p.ownerOf[h := c]
    ensures c.Some? ==> r.itemOf[c.value] == Some(h)
    ensures p.ownerOf[h].Some? && p.ownerOf[h] != c ==> r.itemOf[p.ownerOf[h].value].None?
    ensures forall d :: 0 <= d < |p.itemOf| && c != Some(d) && p.ownerOf[h] != Some(d) ==> r.itemOf[d] == p.itemOf[d]
  {
    var cleared := if p.ownerOf[h].Some? then p.itemOf[p.ownerOf[h].value := None] else p.itemOf;
    Pairing(p.ownerOf[h := c], if c.Some? then cleared[c.value := Some(h)] else cleared)
  }

  /** The command's `HelpOption` / `VersionOption` setter: `value.Command =
      this`, which throws on a null value. */
  function SetItem(p: Pairing, c: nat, h: Option<nat>): (r: Result<Pairing, Error>)
    requires PairingInRange(p) && c < |p.itemOf|
    requires h.Some? ==> h.value < |p.ownerOf|
    ensures r.Failure? <==> h.None?
    ensures r.Failure? ==> r.error == NullReference
    ensures r.Success? ==> |r.value.ownerOf| == |p.ownerOf| && |r.value.itemOf| == |p.itemOf|
    ensures r.Success? ==> r.value.itemOf[c] == h && r.value.ownerOf[h.value] == Some(c)
  {
    if h.None? then Failure(NullReference) else Success(SetCommand(p, h.value, Some(c)))
  }

  /** As long as the target command holds no other item, the setter keeps
      the pairing; this is how the builder uses it (one assignment per
      command). */
  lemma SetCommandPaired(p: Pairing, h: nat, c: Option<nat>)
    requires Paired(p) && h < |p.ownerOf|
    requires c.Some? ==> c.value < |p.itemOf|
    requires c.Some? ==> p.itemOf[c.value].None? || p.itemOf[c.value] == Some(h)
    ensures Paired(SetCommand(p, h, c))
  {
  }

  /** Assigning a second help option to a command leaves the first one
      referring to the command; moving that first one elsewhere afterwards
      clears the command's field although the second one still refers to it. */
  lemma StaleHelpReference()
    ensures var p0 := Pairing([Some(0), None], [Some(0), None]);
      var p1 := SetCommand(p0, 1, Some(0));
      var p2 := SetCommand(p1, 0, Some(1));
      && Paired(p0)
      && !Paired(p1)
      && p2.itemOf[0].None? && p2.ownerOf[1] == Some(0)
  {
    var p0 := Pairing([Some(0), None], [Some(0), None]);
    var p1 := SetCommand(p0, 1, Some(0));
    assert p1.ownerOf[0] == Some(0) && p1.itemOf[0] == Some(1);
  }

  /** The setter with the evident intent: the item the new command held
      before is detached as well. */
  function SetCommandDetaching(p: Pairing, h: nat, c: Option<nat>): (r: Pairing)
    requires PairingInRange(p) && h < |p.ownerOf|
    requires c.Some? ==> c.value < |p.itemOf|
    ensures PairingInRange(r) && |r.ownerOf| == |p.ownerOf| && |r.itemOf| == |p.itemOf|
    ensures r.ownerOf[h] == c
    ensures c.Some? ==> r.itemOf[c.value] == Some(h)
  {
    var q := if c.Some? && p.itemOf[c.value].Some? && p.itemOf[c.value].value != h
      then p.(ownerOf := p.ownerOf[p.itemOf[c.value].value := None])
      else p;
    SetCommand(q, h, c)
  }

  /** The corrected setter keeps the pairing whatever the command held. */
  lemma SetCommandDetachingPaired(p: Pairing, h: nat, c: Option<nat>)
    requires Paired(p) && h < |p.ownerOf|
    requires c.Some? ==> c.value < |p.itemOf|
    ensures Paired(SetCommandDetaching(p, h, c))
  {
    if c.Some? && p.itemOf[c.value].Some? && p.itemOf[c.value].value != h {
      var h0 := p.itemOf[c.value].value;
      var q := p.(ownerOf := p.ownerOf[h0 := None]);
      var r := SetCommand(q, h, c);
      forall g, d | 0 <= g < |r.ownerOf| && 0 <= d < |r.itemOf|
        ensures r.ownerOf[g] == Some(d) <==> r.itemOf[d] == Some(g)
      {
        if g == h0 {
          assert r.ownerOf[g].None?;
          assert r.itemOf[d] != Some(h0) by {
            if d == c.value {
            } else {
              assert p.itemOf[d] != Some(h0) by { assert p.ownerOf[h0] == Some(c.value); }
            }
          }
        }
      }
    }
  }

  /** The command's setter built on the corrected item setter. */
  function SetItemDetaching(p: Pairing, c: nat, h: Option<nat>): (r: Result<Pairing, Error>)
    requires PairingInRange(p) && c < |p.itemOf|
    requires h.Some? ==> h.value < |p.ownerOf|
    ensures r.Failure? <==> h.None?
    ensures r.Success? ==> |r.value.ownerOf| == |p.ownerOf| && |r.value.itemOf| == |p.itemOf|
    ensures r.Success? ==> r.value.itemOf[c] == h && r.value.ownerOf[h.value] == Some(c)
  {
    if h.None? then Failure(NullReference) else Success(SetCommandDetaching(p, h.value, Some(c)))
  }

  lemma SetItemDetachingPaired(p: Pairing, c: nat, h: Option<nat>)
    requires Paired(p) && c < |p.itemOf|
    requires h.Some? ==> h.value < |p.ownerOf|
    ensures SetItemDetaching(p, c, h).Success? ==> Paired(SetItemDetaching(p, c, h).value)
  {
    if h.Some? {
      SetCommandDetachingPaired(p, h.value, Some(c));
    }
  }
}

=== FILE: reflection.dfy ===
/** The parts of reflection the converters and the execute callback consult:
    the constructors and methods of a type, as records in the order
    reflection reports them, and `Type.IsAssignableFrom`. */
module Reflection {
  import opened Types

  /** A `ConstructorInfo`: its flags and its parameter types. */
  datatype Ctor = Ctor(isPublic: bool, isStatic: bool, isAbstract: bool, params: seq<Ty>)

  /** A method parameter: its type and whether it is flagged `IsIn`. */
  datatype Param = Param(ty: Ty, isIn: bool)

  /** A `MethodInfo`: where it is declared, its name, flags, return type and parameters. */
  datatype Method = Method(
    owner: Ty,
    name: string,
    isPublic: bool,
    isStatic: bool,
    isAbstract: bool,
    returnType: Ty,
    params: seq<Param>)

  /** What the runtime reports: `GetConstructors()` and `GetMethods()` of a
      type, in the order they return them (which the runtime does not tie to
      declaration order), `Type.IsAssignableFrom`, and the items an
      enumerable value that is not an array or list of the model yields (a
      string's characters, say). */
  datatype Runtime = Runtime(
    ctorsOf: Ty -> seq<Ctor>,
    methodsOf: Ty -> seq<Method>,
    assignable: Assignability,
    enumerate: Value -> seq<Value>)

  /** Listed by `GetConstructors(BindingFlags.Public | BindingFlags.Instance)`
      and kept by the `!IsAbstract` filter every caller applies. */
  predicate Invocable(c: Ctor) {
    c.isPublic && !c.isStatic && !c.isAbstract
  }

  /** The constructor the execute callback falls back to for the instance of
      a non-static command method: the first invocable one without
      parameters. */
  predicate Parameterless(c: Ctor) {
    Invocable(c) && |c.params| == 0
  }
}

=== FILE: selection.dfy ===
/** How the binder finds the converters and handlers that apply to a command,
    an argument or an option (`EnumerateConverterTypes`,
    `EnumerateResultHandlerTypes`, `EnumerateExceptionHandlerTypes`,
    `SelectConverter`, `SelectResultHandler`, `SelectExceptionHandler`), and
    how the handler chains pick the exit code. */
module Selection {
  import opened Wrappers
  import opened Seqs
  import opened Types
  import opened Descriptors

  // ---------------------------------------------------------------------------
  // Candidate types, up the ancestor chain

  /** The lists a command chain contributes, a null list counting as empty:
      `chain[0]` belongs to the command itself and `chain[k + 1]` to the
      parent of the owner of `chain[k]`. */
  function Lists(chain: seq<Option<seq<Ty>>>): (r: seq<seq<Ty>>)
    ensures |r| == |chain|
    ensures forall k :: 0 <= k < |chain| ==> r[k] == OrEmpty(chain[k])
  {
    seq(|chain|, k requires 0 <= k < |chain| => OrEmpty(chain[k]))
  }

  /** The enumeration for a command: its own list, then its parent's
      enumeration; a command without a parent ends with the global list. A
      missing global list contributes nothing, as an empty one does. */
  function EnumerateCommand(chain: seq<Option<seq<Ty>>>, global: seq<Ty>): (r: seq<Ty>)
    requires |chain| > 0
    decreases |chain|
  {
    OrEmpty(chain[0]) + (if |chain| == 1 then global else EnumerateCommand(chain[1..], global))
  }

  /** The enumeration for an argument or option: its own list, then its
      command's enumeration, or the global list when it has no command. */
  function EnumerateItem(own: Option<seq<Ty>>, commandChain: seq<Option<seq<Ty>>>, global: seq<Ty>): seq<Ty> {
    OrEmpty(own) + (if |commandChain| == 0 then global else EnumerateCommand(commandChain, global))
  }

  /** Every list along the chain, nearest first, and the global list once, last. */
  lemma {:induction false} EnumerateCommandInOrder(chain: seq<Option<seq<Ty>>>, global: seq<Ty>)
    requires |chain| > 0
    ensures EnumerateCommand(chain, global) == Flatten(Lists(chain)) + global
    decreases |chain|
  {
    assert Lists(chain)[1..] == Lists(chain[1..]);
    if |chain| > 1 {
      EnumerateCommandInOrder(chain[1..], global);
    }
  }

  lemma EnumerateItemInOrder(own: Option<seq<Ty>>, commandChain: seq<Option<seq<Ty>>>, global: seq<Ty>)
    ensures EnumerateItem(own, commandChain, global) == OrEmpty(own) + Flatten(Lists(commandChain)) + global
  {
    if |commandChain| > 0 {
      EnumerateCommandInOrder(commandChain, global);
    }
  }

  /** The converter lists of a command and its ancestors, nearest first. */
  function ConverterChain(cs: seq<CommandModel>): (r: seq<Option<seq<Ty>>>)
    ensures |r| == |cs| && forall k :: 0 <= k < |cs| ==> r[k] == cs[k].converters
  {
    seq(|cs|, k requires 0 <= k < |cs| => cs[k].converters)
  }

  function ResultHandlerChain(cs: seq<CommandModel>): (r: seq<Option<seq<Ty>>>)
    ensures |r| == |cs| && forall k :: 0 <= k < |cs| ==> r[k] == cs[k].resultHandlers
  {
    seq(|cs|, k requires 0 <= k < |cs| => cs[k].resultHandlers)
  }

  function ExceptionHandlerChain(cs: seq<CommandModel>): (r: seq<Option<seq<Ty>>>)
    ensures |r| == |cs| && forall k :: 0 <= k < |cs| ==> r[k] == cs[k].exceptionHandlers
  {
    seq(|cs|, k requires 0 <= k < |cs| => cs[k].exceptionHandlers)
  }

  // ---------------------------------------------------------------------------
  // Instantiating a type for a role

  /** What decides whether `CreateConverter`, `CreateResultHandler` or
      `CreateExceptionHandler` yields an instance of a type: whether it
      implements the role's interface, whether the service provider supplies
      one, whether it is abstract, and whether it has a public non-abstract
      parameterless constructor. */
  datatype Factory = Factory(
    implements: Ty -> bool,
    fromServices: Ty -> bool,
    isAbstract: Ty -> bool,
    hasParameterlessConstructor: Ty -> bool)

  predicate CanCreate(f: Factory, t: Ty) {
    f.implements(t) && (f.fromServices(t) || (!f.isAbstract(t) && f.hasParameterlessConstructor(t)))
  }

  /** `IConverter.CanConvert` of the converter a type stands for: `canConvert(c, s, t)`
      holds when converter type `c` converts from `s` to `t`. */
  type Convertibility = (Ty, Ty, Ty) -> bool

  function Usable(f: Factory, canConvert: Convertibility, source: Ty, target: Ty): Ty -> bool {
    c => CanCreate(f, c) && canConvert(c, source, target)
  }

  /** `SelectConverter`: the first distinct candidate that can be
      instantiated and converts `source` to `target`. */
  function SelectConverter(candidates: seq<Ty>, f: Factory, canConvert: Convertibility, source: Ty, target: Ty): Option<Ty> {
    FirstWhere(Distinct(candidates), Usable(f, canConvert, source, target))
  }

  /** Dropping repeats never changes the choice, so the converter chosen is
      the first usable candidate of the raw list; there is none exactly when
      no candidate is usable. */
  lemma SelectConverterChoice(candidates: seq<Ty>, f: Factory, canConvert: Convertibility, source: Ty, target: Ty)
    ensures var r := SelectConverter(candidates, f, canConvert, source, target);
      && r == FirstWhere(candidates, Usable(f, canConvert, source, target))
      && (r.Some? ==> r.value in candidates && CanCreate(f, r.value) && canConvert(r.value, source, target))
      && (r.None? <==> forall k :: 0 <= k < |candidates| ==> !(CanCreate(f, candidates[k]) && canConvert(candidates[k], source, target)))
  {
    FirstWhereDistinct(candidates, Usable(f, canConvert, source, target));
    FirstWhereIndex(candidates, Usable(f, canConvert, source, target));
  }

  function Creatable(f: Factory): Ty -> bool {
    t => CanCreate(f, t)
  }

  /** `SelectResultHandler` / `SelectExceptionHandler`: the handlers that can be
      instantiated, each once, in the order their types first occur. */
  function SelectHandlers(candidates: seq<Ty>, f: Factory): (r: seq<Ty>)
    ensures NoDuplicates(r)
    ensures InFirstOccurrenceOrder(r, candidates)
    ensures forall t :: t in r <==> t in candidates && CanCreate(f, t)
  {
    DistinctOrdered(candidates);
    FilterOrdered(Distinct(candidates), candidates, Creatable(f));
    Filter(Distinct(candidates), Creatable(f))
  }

  // ---------------------------------------------------------------------------
  // Handler chains

  /** The handler loop: each handler's value replaces the running one, and the
      loop stops at the first value that is not negative. `init` is the value
      when no handler runs (0 for results, the exception's `HResult` for
      exceptions). */
  function RunChain(init: int, values: seq<int>): int
    decreases |values|
  {
    if |values| == 0 then init
    else if values[0] >= 0 then values[0]
    else RunChain(values[0], values[1..])
  }

  predicate NonNegative(v: int) {
    v >= 0
  }

  /** The chain's value, stated without the loop: the first non-negative
      value; failing that the last value; failing that the initial one. */
  lemma {:induction false} RunChainResult(init: int, values: seq<int>)
    ensures var i := FirstIndex(values, NonNegative);
      RunChain(init, values) ==
        if 0 <= i then values[i]
        else if |values| > 0 then values[|values| - 1]
        else init
    decreases |values|
  {
    if |values| > 0 && values[0] < 0 {
      RunChainResult(values[0], values[1..]);
      var i := FirstIndex(values[1..], NonNegative);
      assert FirstIndex(values, NonNegative) == if i < 0 then -1 else i + 1;
    }
  }

  /** Handlers after the first non-negative value do not affect the result. */
  lemma {:induction false} RunChainStops(init: int, values: seq<int>, later: seq<int>)
    requires exists k :: 0 <= k < |values| && values[k] >= 0
    ensures RunChain(init, values + later) == RunChain(init, values)
    decreases |values|
  {
    if values[0] < 0 {
      assert (values + later)[1..] == values[1..] + later;
      var k :| 0 <= k < |values| && values[k] >= 0;
      assert values[1..][k - 1] >= 0;
      RunChainStops(values[0], values[1..], later);
    }
  }

  lemma RunChainExamples(a: seq<int>, b: seq<int>)
    requires a == [-1, -1, 2, 5] && b == [-1, -1]
    ensures RunChain(0, a) == 2
    ensures RunChain(0, b) == -1
    ensures RunChain(0, []) == 0
  {
    assert a[1..] == [-1, 2, 5] && a[1..][1..] == [2, 5];
    assert RunChain(-1, [2, 5]) == 2;
    assert RunChain(-1, a[1..]) == 2;
    assert b[1..] == [-1] && b[1..][1..] == [];
    assert RunChain(-1, []) == -1;
    assert RunChain(-1, b[1..]) == -1;
  }
}

=== FILE: seqs.dfy ===
/** Sequence operations the source takes from the .NET base library:
    `List<T>.Remove`, `List<T>.IndexOf`, `Enumerable.Distinct`,
    `Enumerable.FirstOrDefault`, `Enumerable.Where`, `string.Join`,
    `string.EndsWith` and `string.Trim`. */
module Seqs {
  import opened Wrappers

  /** Concatenation of a sequence of sequences. */
  function Flatten<T>(xss: seq<seq<T>>): seq<T> {
    if |xss| == 0 then [] else xss[0] + Flatten(xss[1..])
  }

  lemma {:induction false} FlattenConcat<T>(a: seq<seq<T>>, b: seq<seq<T>>)
    ensures Flatten(a + b) == Flatten(a) + Flatten(b)
  {
    if |a| == 0 {
      assert a + b == b;
    } else {
      assert (a + b)[1..] == a[1..] + b;
      FlattenConcat(a[1..], b);
    }
  }

  lemma FlattenCons<T>(x: seq<T>, xss: seq<seq<T>>)
    ensures Flatten([x] + xss) == x + Flatten(xss)
  {
    assert ([x] + xss)[1..] == xss;
  }

  /** An element of the concatenation comes from one of the parts. */
  lemma {:induction false} FlattenMember<T>(xss: seq<seq<T>>, x: T)
    ensures x in Flatten(xss) <==> exists k :: 0 <= k < |xss| && x in xss[k]
    decreases |xss|
  {
    if |xss| > 0 {
      FlattenMember(xss[1..], x);
      if x in Flatten(xss[1..]) {
        var k :| 0 <= k < |xss[1..]| && x in xss[1..][k];
        assert x in xss[k + 1];
      }
      if exists k :: 0 <= k < |xss| && x in xss[k] {
        var k :| 0 <= k < |xss| && x in xss[k];
        if k > 0 {
          assert x in xss[1..][k - 1];
        }
      }
    }
  }

  /** True if no element occurs twice. */
  predicate NoDuplicates<T(==)>(s: seq<T>) {
    forall i, j :: 0 <= i < j < |s| ==> s[i] != s[j]
  }

  /** `List<T>.IndexOf`: the position of the first occurrence of `x`, or -1. */
  function IndexOf<T(==)>(xs: seq<T>, x: T): (i: int)
    ensures -1 <= i < |xs|
    ensures i < 0 <==> x !in xs
    ensures 0 <= i ==> xs[i] == x && x !in xs[..i]
  {
    if |xs| == 0 then -1
    else if xs[0] == x then 0
    else
      var j := IndexOf(xs[1..], x);
      assert j >= 0 ==> xs[..j + 1] == [xs[0]] + xs[1..][..j];
      if j < 0 then -1 else j + 1
  }

  /** The first occurrence of a separator that does not occur in `a` is found right after `a`. */
  lemma {:induction false} IndexOfAfterPrefix<T>(a: seq<T>, x: T, b: seq<T>)
    requires x !in a
    ensures IndexOf(a + [x] + b, x) == |a|
  {
    if |a| > 0 {
      assert (a + [x] + b)[1..] == a[1..] + [x] + b;
      IndexOfAfterPrefix(a[1..], x, b);
    }
  }

  /** `List<T>.Remove`: drops the first occurrence of `x`, keeping every other
      element in its order; a list without `x` is returned unchanged. */
  function RemoveFirst<T(==)>(xs: seq<T>, x: T): (r: seq<T>)
    ensures x in xs ==> r == xs[..IndexOf(xs, x)] + xs[IndexOf(xs, x) + 1..]
    ensures x !in xs ==> r == xs
  {
    if x in xs then xs[..IndexOf(xs, x)] + xs[IndexOf(xs, x) + 1..] else xs
  }

  /** Removing an element that is present takes exactly one copy of it away. */
  lemma RemoveFirstCount<T>(xs: seq<T>, x: T)
    ensures x in xs ==> multiset(RemoveFirst(xs, x)) == multiset(xs) - multiset{x}
  {
    if x in xs {
      var i := IndexOf(xs, x);
      assert xs == xs[..i] + [x] + xs[i + 1..];
    }
  }

  /** `Enumerable.Where`: the elements satisfying `p`, in order. */
  function Filter<T>(xs: seq<T>, p: T -> bool): (r: seq<T>)
    ensures |r| <= |xs|
    ensures forall k :: 0 <= k < |r| ==> p(r[k])
    ensures forall k :: 0 <= k < |xs| && p(xs[k]) ==> xs[k] in r
    ensures forall y :: y in r ==> y in xs
  {
    if |xs| == 0 then []
    else
      var rest := Filter(xs[1..], p);
      assert forall k :: 1 <= k < |xs| ==> xs[k] == xs[1..][k - 1];
      if p(xs[0]) then [xs[0]] + rest else rest
  }

  lemma FilterStep<T>(x: T, xs: seq<T>, p: T -> bool)
    ensures Filter([x] + xs, p) == (if p(x) then [x] else []) + Filter(xs, p)
  {
    assert ([x] + xs)[1..] == xs;
  }

  /** `Enumerable.Distinct` after the elements of `seen`: the remaining
      elements of `xs` in order of first occurrence, each once. */
  function DistinctExcept<T(==)>(xs: seq<T>, seen: set<T>): (r: seq<T>)
    ensures NoDuplicates(r)
    ensures forall k :: 0 <= k < |r| ==> r[k] in xs && r[k] !in seen
    ensures forall k :: 0 <= k < |xs| && xs[k] !in seen ==> xs[k] in r
  {
    if |xs| == 0 then []
    else if xs[0] in seen then
      assert xs == [xs[0]] + xs[1..];
      DistinctExcept(xs[1..], seen)
    else
      var rest := DistinctExcept(xs[1..], seen + {xs[0]});
      assert xs == [xs[0]] + xs[1..];
      assert xs[0] !in rest;
      [xs[0]] + rest
  }

  /** `Enumerable.Distinct`: every element of `xs` once, in order of first occurrence. */
  function Distinct<T(==)>(xs: seq<T>): seq<T> {
    DistinctExcept(xs, {})
  }

  /** The elements of `r` appear in the order of their first occurrence in `xs`. */
  predicate InFirstOccurrenceOrder<T(==)>(r: seq<T>, xs: seq<T>) {
    forall i, j :: 0 <= i < j < |r| ==> IndexOf(xs, r[i]) < IndexOf(xs, r[j])
  }

  /** Skipping a first element that does not occur later shifts every first occurrence by one. */
  lemma IndexOfTail<T>(xs: seq<T>, y: T)
    requires |xs| > 0 && y != xs[0]
    ensures IndexOf(xs, y) == if y in xs[1..] then IndexOf(xs[1..], y) + 1 else -1
  {
    assert xs == [xs[0]] + xs[1..];
  }

  lemma {:induction false} DistinctExceptOrdered<T>(xs: seq<T>, seen: set<T>)
    ensures InFirstOccurrenceOrder(DistinctExcept(xs, seen), xs)
  {
    var r := DistinctExcept(xs, seen);
    if |xs| == 0 {
    } else if xs[0] in seen {
      DistinctExceptOrdered(xs[1..], seen);
      forall i, j | 0 <= i < j < |r| ensures IndexOf(xs, r[i]) < IndexOf(xs, r[j]) {
        IndexOfTail(xs, r[i]);
        IndexOfTail(xs, r[j]);
      }
    } else {
      var rest := DistinctExcept(xs[1..], seen + {xs[0]});
      DistinctExceptOrdered(xs[1..], seen + {xs[0]});
      assert r == [xs[0]] + rest;
      forall i, j | 0 <= i < j < |r| ensures IndexOf(xs, r[i]) < IndexOf(xs, r[j]) {
        assert r[j] == rest[j - 1] && r[j] in xs[1..];
        IndexOfTail(xs, r[j]);
        if i > 0 {
          assert r[i] == rest[i - 1] && r[i] in xs[1..];
          IndexOfTail(xs, r[i]);
        }
      }
    }
  }

  /** `Enumerable.Distinct` keeps the order of first occurrence. */
  lemma DistinctOrdered<T>(xs: seq<T>)
    ensures InFirstOccurrenceOrder(Distinct(xs), xs)
  {
    DistinctExceptOrdered(xs, {});
  }

  /** An element after the head of a list with first-occurrence order comes later and differs from it. */
  lemma AfterHead<T>(r: seq<T>, xs: seq<T>, y: T)
    requires InFirstOccurrenceOrder(r, xs) && NoDuplicates(r)
    requires |r| > 0 && y in r[1..]
    ensures IndexOf(xs, r[0]) < IndexOf(xs, y) && r[0] != y
  {
    var k :| 0 <= k < |r[1..]| && r[1..][k] == y;
    assert r[k + 1] == y;
  }

  /** `Enumerable.Where` keeps the order of what it keeps, and drops no element twice. */
  lemma {:induction false} FilterOrdered<T>(r: seq<T>, xs: seq<T>, p: T -> bool)
    requires InFirstOccurrenceOrder(r, xs)
    requires NoDuplicates(r)
    ensures InFirstOccurrenceOrder(Filter(r, p), xs)
    ensures NoDuplicates(Filter(r, p))
  {
    if |r| > 0 {
      var rest := Filter(r[1..], p);
      FilterOrdered(r[1..], xs, p);
      FilterStep(r[0], r[1..], p);
      assert r == [r[0]] + r[1..];
      if p(r[0]) {
        var f := [r[0]] + rest;
        forall j | 0 < j < |f| ensures IndexOf(xs, r[0]) < IndexOf(xs, f[j]) && r[0] != f[j] {
          assert f[j] == rest[j - 1];
          AfterHead(r, xs, f[j]);
        }
      }
    }
  }

  /** The position of the first element satisfying `p`, or -1. */
  function FirstIndex<T>(xs: seq<T>, p: T -> bool): (i: int)
    ensures -1 <= i < |xs|
    ensures 0 <= i ==> p(xs[i])
    ensures forall j :: 0 <= j < |xs| && (i < 0 || j < i) ==> !p(xs[j])
  {
    if |xs| == 0 then -1
    else if p(xs[0]) then 0
    else
      var k := FirstIndex(xs[1..], p);
      assert forall j :: 1 <= j < |xs| ==> xs[j] == xs[1..][j - 1];
      if k < 0 then -1 else k + 1
  }

  /** The position of the last element satisfying `p`, or -1. */
  function LastIndex<T>(xs: seq<T>, p: T -> bool): (i: int)
    ensures -1 <= i < |xs|
    ensures 0 <= i ==> p(xs[i])
    ensures forall j :: 0 <= j < |xs| && i < j ==> !p(xs[j])
    decreases |xs|
  {
    if |xs| == 0 then -1
    else if p(xs[|xs| - 1]) then |xs| - 1
    else LastIndex(xs[..|xs| - 1], p)
  }

  /** `Enumerable.FirstOrDefault(p)`: the first element satisfying `p`, if any. */
  function FirstWhere<T>(xs: seq<T>, p: T -> bool): Option<T> {
    if |xs| == 0 then None
    else if p(xs[0]) then Some(xs[0])
    else FirstWhere(xs[1..], p)
  }

  /** The element found is the one at the first position satisfying `p`, and
      nothing is found exactly when no position does. */
  lemma {:induction false} FirstWhereIndex<T>(xs: seq<T>, p: T -> bool)
    ensures var r := FirstWhere(xs, p);
      && (r.None? <==> FirstIndex(xs, p) < 0)
      && (r.Some? ==> r.value == xs[FirstIndex(xs, p)])
  {
    if |xs| > 0 && !p(xs[0]) {
      FirstWhereIndex(xs[1..], p);
    }
  }

  /** Removing repeated elements never changes which element is found first:
      a repeat can only come after its first occurrence. */
  lemma {:induction false} FirstWhereDistinctExcept<T>(xs: seq<T>, seen: set<T>, p: T -> bool)
    requires forall y :: y in seen ==> !p(y)
    ensures FirstWhere(DistinctExcept(xs, seen), p) == FirstWhere(xs, p)
  {
    if |xs| == 0 {
    } else if xs[0] in seen {
      FirstWhereDistinctExcept(xs[1..], seen, p);
    } else if p(xs[0]) {
    } else {
      FirstWhereDistinctExcept(xs[1..], seen + {xs[0]}, p);
    }
  }

  lemma FirstWhereCons<T>(x: T, xs: seq<T>, p: T -> bool)
    ensures FirstWhere([x] + xs, p) == if p(x) then Some(x) else FirstWhere(xs, p)
  {
    assert ([x] + xs)[1..] == xs;
  }

  /** One step of the search, from position `k` on. */
  lemma FirstWhereSuffix<T>(xs: seq<T>, k: nat, p: T -> bool)
    requires k < |xs|
    ensures FirstWhere(xs[k..], p) == if p(xs[k]) then Some(xs[k]) else FirstWhere(xs[k + 1..], p)
  {
    assert xs[k..][1..] == xs[k + 1..];
  }

  lemma FirstWhereDistinct<T>(xs: seq<T>, p: T -> bool)
    ensures FirstWhere(Distinct(xs), p) == FirstWhere(xs, p)
  {
    FirstWhereDistinctExcept(xs, {}, p);
  }

  /** `string.Join` with a one-character separator. */
  function Join<T>(sep: T, ws: seq<seq<T>>): seq<T> {
    if |ws| == 0 then []
    else if |ws| == 1 then ws[0]
    else ws[0] + [sep] + Join(sep, ws[1..])
  }

  /** Every element of a joined sequence is the separator or an element of a piece. */
  lemma {:induction false} JoinElements<T>(sep: T, ws: seq<seq<T>>, x: T)
    requires x in Join(sep, ws)
    ensures x == sep || exists k :: 0 <= k < |ws| && x in ws[k]
  {
    if |ws| > 1 {
      if x !in ws[0] && x != sep {
        JoinElements(sep, ws[1..], x);
        var k :| 0 <= k < |ws[1..]| && x in ws[1..][k];
        assert x in ws[k + 1];
      }
    }
  }

  /** Joining non-empty pieces starts with the first piece's first element
      and ends with the last piece's last element. */
  lemma {:induction false} JoinEnds<T>(sep: T, ws: seq<seq<T>>)
    requires |ws| > 0
    requires forall k :: 0 <= k < |ws| ==> |ws[k]| > 0
    ensures var r := Join(sep, ws);
      |r| > 0 && r[0] == ws[0][0] && r[|r| - 1] == ws[|ws| - 1][|ws[|ws| - 1]| - 1]
  {
    if |ws| > 1 {
      JoinEnds(sep, ws[1..]);
    }
  }

  /** Splitting at every occurrence of `sep` (the inverse of `Join`). */
  function SplitOn<T(==)>(s: seq<T>, sep: T): (r: seq<seq<T>>)
    ensures |r| > 0
    decreases |s|
  {
    var i := IndexOf(s, sep);
    if i < 0 then [s] else [s[..i]] + SplitOn(s[i + 1..], sep)
  }

  lemma SplitOnStep<T>(a: seq<T>, sep: T, rest: seq<T>)
    requires sep !in a
    ensures SplitOn(a + [sep] + rest, sep) == [a] + SplitOn(rest, sep)
  {
    var s := a + [sep] + rest;
    IndexOfAfterPrefix(a, sep, rest);
    assert s[..|a|] == a;
    assert s[|a| + 1..] == rest;
  }

  /** Joining pieces that do not contain the separator can be undone by splitting. */
  lemma {:induction false} SplitOnJoin<T>(sep: T, ws: seq<seq<T>>)
    requires |ws| > 0
    requires forall k :: 0 <= k < |ws| ==> sep !in ws[k]
    ensures SplitOn(Join(sep, ws), sep) == ws
  {
    if |ws| > 1 {
      SplitOnStep(ws[0], sep, Join(sep, ws[1..]));
      SplitOnJoin(sep, ws[1..]);
      assert [ws[0]] + ws[1..] == ws;
    }
  }

  /** `string.EndsWith` (ordinal). */
  predicate EndsWith<T(==)>(s: seq<T>, suffix: seq<T>) {
    |suffix| <= |s| && s[|s| - |suffix|..] == suffix
  }

  /** `string.TrimStart(c)`: drops every leading `c`. */
  function TrimStart<T(==)>(s: seq<T>, c: T): (r: seq<T>)
    ensures |r| <= |s| && r == s[|s| - |r|..]
    ensures |r| == 0 || r[0] != c
    ensures forall i :: 0 <= i < |s| - |r| ==> s[i] == c
  {
    if |s| > 0 && s[0] == c then TrimStart(s[1..], c) else s
  }

  /** `string.TrimEnd(c)`: drops every trailing `c`. */
  function TrimEnd<T(==)>(s: seq<T>, c: T): (r: seq<T>)
    ensures |r| <= |s| && r == s[..|r|]
    ensures |r| == 0 || r[|r| - 1] != c
    ensures forall i :: |r| <= i < |s| ==> s[i] == c
  {
    if |s| > 0 && s[|s| - 1] == c then TrimEnd(s[..|s| - 1], c) else s
  }

  /** `string.Trim(c)`: drops every leading and trailing `c`. */
  function Trim<T(==)>(s: seq<T>, c: T): (r: seq<T>)
    ensures |r| == 0 || (r[0] != c && r[|r| - 1] != c)
  {
    var t := TrimStart(s, c);
    var r := TrimEnd(t, c);
    assert |r| == 0 || r[0] == t[0];
    r
  }

  /** Trimming keeps a contiguous stretch of the input, beginning at
      `start`, and empties it exactly when it held nothing but `c`. */
  lemma TrimWithin<T>(s: seq<T>, c: T) returns (start: nat)
    ensures start + |Trim(s, c)| <= |s| && Trim(s, c) == s[start..start + |Trim(s, c)|]
    ensures |Trim(s, c)| == 0 <==> forall i :: 0 <= i < |s| ==> s[i] == c
  {
    var t := TrimStart(s, c);
    var r := TrimEnd(t, c);
    assert Trim(s, c) == r;
    start := |s| - |t|;
    assert r == t[..|r|];
    if |r| == 0 {
      assert |t| == 0;
    }
  }

  /** The results of a loop whose first exception ends it: all values when
      every step succeeded, else the first exception. */
  function Collect<T, E>(rs: seq<Result<T, E>>): (r: Result<seq<T>, E>)
    ensures r.Success? ==> |r.value| == |rs|
    decreases |rs|
  {
    if |rs| == 0 then Success([])
    else if rs[0].Failure? then Failure(rs[0].error)
    else
      match Collect(rs[1..])
      case Failure(e) => Failure(e)
      case Success(vs) => Success([rs[0].value] + vs)
  }

  /** The position of the first failed step, or `|rs|`. */
  function FirstFailure<T, E>(rs: seq<Result<T, E>>): (f: nat)
    ensures f <= |rs|
    ensures f < |rs| ==> rs[f].Failure?
    ensures forall k :: 0 <= k < f ==> rs[k].Success?
    decreases |rs|
  {
    if |rs| == 0 then 0
    else if rs[0].Failure? then 0
    else
      var f := FirstFailure(rs[1..]);
      assert forall k :: 1 <= k < |rs| ==> rs[k] == rs[1..][k - 1];
      f + 1
  }

  /** The loop, stated without it: it succeeds exactly when every step did,
      with the values in order; otherwise it raises the first exception. */
  lemma {:induction false} CollectSpec<T, E>(rs: seq<Result<T, E>>)
    ensures var r := Collect(rs);
      var f := FirstFailure(rs);
      && (r.Success? <==> f == |rs|)
      && (r.Success? ==> forall k :: 0 <= k < |rs| ==> r.value[k] == rs[k].value)
      && (r.Failure? ==> r.error == rs[f].error)
    decreases |rs|
  {
    if |rs| > 0 && rs[0].Success? {
      CollectSpec(rs[1..]);
      assert forall k :: 1 <= k < |rs| ==> rs[k] == rs[1..][k - 1];
    }
  }
}

=== FILE: slots.dfy ===
/** How `BindCommand` matches the bound arguments and options of a method
    command to the method's parameters: each item names the parameter it
    feeds, every parameter must be fed exactly once, and the suppliers end up
    in parameter order. */
module Slots {
  import opened Wrappers
  import opened Seqs
  import opened Metadata
  import opened Errors
  import opened Binder

  /** An argument or option to place: the parameter it names, and what
      binding it yields (binding happens only once the parameter checks pass,
      so its failure is reported only then). */
  datatype Item = Item(param: ParamInfo, bound: Result<Bound, Error>)

  /** The parameter slots filled so far, and the registrations made so far. */
  datatype Placement = Placement(slots: seq<Option<Supplier>>, registrations: seq<Registration>)

  function Unfilled(n: nat): (r: Placement)
    ensures |r.slots| == n && r.registrations == []
    ensures forall i :: 0 <= i < n ==> r.slots[i].None?
  {
    Placement(seq(n, _ => None), [])
  }

  /** The slot of an item's parameter (`List<ParameterInfo>.IndexOf`), or -1. */
  function SlotOf(ps: seq<ParamInfo>, it: Item): (i: int)
    ensures -1 <= i < |ps|
    ensures i < 0 <==> it.param !in ps
    ensures 0 <= i ==> ps[i] == it.param
  {
    IndexOf(ps, it.param)
  }

  function MissingParameter(methodName: string, p: ParamInfo): Error {
    InvalidOperation("Method " + methodName + " doesn't have parameter " + p.name + ".")
  }

  function DuplicateParameter(p: ParamInfo): Error {
    InvalidOperation("Parameter " + p.name + " alreadly exists.")
  }

  function UnboundParameter(p: ParamInfo): Error {
    InvalidOperation("Parameter " + p.name + " cannot be bound to any argument or option.")
  }

  /** The two loops of `BindCommand` over arguments and then options, from
      item `j` on: an item whose parameter the method lacks, or whose slot an
      earlier item filled, stops the loop; otherwise the item is bound, and a
      binding failure stops the loop too. */
  function Place(ps: seq<ParamInfo>, items: seq<Item>, methodName: string, j: nat, acc: Placement): (r: Result<Placement, Error>)
    requires j <= |items| && |acc.slots| == |ps|
    ensures r.Success? ==> |r.value.slots| == |ps|
    ensures r.Success? ==> |r.value.registrations| == |acc.registrations| + |items| - j
    decreases |items| - j
  {
    if j == |items| then Success(acc)
    else
      var it := items[j];
      var i := SlotOf(ps, it);
      if i < 0 then Failure(MissingParameter(methodName, it.param))
      else if acc.slots[i].Some? then Failure(DuplicateParameter(it.param))
      else if it.bound.Failure? then Failure(it.bound.error)
      else
        Place(ps, items, methodName, j + 1,
          Placement(acc.slots[i := Some(it.bound.value.supplier)], acc.registrations + [it.bound.value.registration]))
  }

  // ---------------------------------------------------------------------------
  // The same, without the loop

  /** The method has the item's parameter and binding the item succeeds. */
  predicate Placeable(ps: seq<ParamInfo>, it: Item) {
    SlotOf(ps, it) >= 0 && it.bound.Success?
  }

  /** An earlier item feeds the same parameter as item `k`. */
  predicate Repeats(items: seq<Item>, k: nat)
    requires k < |items|
  {
    exists j :: 0 <= j < k && items[j].param == items[k].param
  }

  /** Item `k` cannot be placed: the method lacks its parameter, an earlier
      item feeds the same parameter, or binding it fails. */
  predicate Faulty(ps: seq<ParamInfo>, items: seq<Item>, k: nat)
    requires k < |items|
  {
    !Placeable(ps, items[k]) || Repeats(items, k)
  }

  /** The exception item `k` raises, checks in the order the loop makes them. */
  function ItemError(ps: seq<ParamInfo>, items: seq<Item>, methodName: string, k: nat): Error
    requires k < |items| && Faulty(ps, items, k)
  {
    if SlotOf(ps, items[k]) < 0 then MissingParameter(methodName, items[k].param)
    else if Repeats(items, k) then DuplicateParameter(items[k].param)
    else items[k].bound.error
  }

  /** The first faulty item at or after `j`, or `|items|` when there is none. */
  function FirstFault(ps: seq<ParamInfo>, items: seq<Item>, j: nat): (f: nat)
    requires j <= |items|
    ensures j <= f <= |items|
    ensures f < |items| ==> Faulty(ps, items, f)
    ensures forall k :: j <= k < f ==> !Faulty(ps, items, k)
    decreases |items| - j
  {
    if j == |items| then j
    else if Faulty(ps, items, j) then j
    else FirstFault(ps, items, j + 1)
  }

  /** None of the first `n` items is faulty. */
  predicate Clean(ps: seq<ParamInfo>, items: seq<Item>, n: nat)
    requires n <= |items|
  {
    forall k :: 0 <= k < n ==> Placeable(ps, items[k]) && !Repeats(items, k)
  }

  /** The registrations of the first `n` items, in item order. */
  function RegistrationsOf(ps: seq<ParamInfo>, items: seq<Item>, n: nat): (r: seq<Registration>)
    requires n <= |items| && Clean(ps, items, n)
    ensures |r| == n
  {
    seq(n, k requires 0 <= k < n => items[k].bound.value.registration)
  }

  /** `acc` is what placing the first `j` items leaves: each of them in the
      slot of its parameter, no other slot filled, their registrations in
      order. */
  predicate Describes(ps: seq<ParamInfo>, items: seq<Item>, j: nat, acc: Placement)
    requires j <= |items|
  {
    && |acc.slots| == |ps|
    && Clean(ps, items, j)
    && (forall k :: 0 <= k < j ==> acc.slots[SlotOf(ps, items[k])] == Some(items[k].bound.value.supplier))
    && (forall i :: 0 <= i < |ps| && acc.slots[i].Some? ==> exists k :: 0 <= k < j && SlotOf(ps, items[k]) == i)
    && acc.registrations == RegistrationsOf(ps, items, j)
  }

  /** Item `j` is placed: the state then describes the first `j + 1` items. */
  lemma PlaceStep(ps: seq<ParamInfo>, items: seq<Item>, j: nat, acc: Placement)
    requires j < |items| && Describes(ps, items, j, acc) && !Faulty(ps, items, j)
    ensures SlotOf(ps, items[j]) >= 0 && acc.slots[SlotOf(ps, items[j])].None?
    ensures var i := SlotOf(ps, items[j]);
      var b := items[j].bound.value;
      Describes(ps, items, j + 1, Placement(acc.slots[i := Some(b.supplier)], acc.registrations + [b.registration]))
  {
    var i := SlotOf(ps, items[j]);
    var b := items[j].bound.value;
    var next := Placement(acc.slots[i := Some(b.supplier)], acc.registrations + [b.registration]);
    assert Clean(ps, items, j + 1);
    forall k | 0 <= k < j + 1
      ensures next.slots[SlotOf(ps, items[k])] == Some(items[k].bound.value.supplier)
    {
      if k < j {
        assert items[k].param != items[j].param;
      }
    }
    assert next.registrations == RegistrationsOf(ps, items, j + 1);
  }

  /** A faulty item `j` after a clean prefix: the loop stops there with the
      item's exception. */
  lemma PlaceStops(ps: seq<ParamInfo>, items: seq<Item>, methodName: string, j: nat, acc: Placement)
    requires j < |items| && Describes(ps, items, j, acc) && Faulty(ps, items, j)
    ensures Place(ps, items, methodName, j, acc) == Failure(ItemError(ps, items, methodName, j))
  {
    var i := SlotOf(ps, items[j]);
    if i >= 0 {
      if Repeats(items, j) {
        var k :| 0 <= k < j && items[k].param == items[j].param;
        assert acc.slots[i] == Some(items[k].bound.value.supplier);
      }
    }
  }

  /** The loop, stated without it: placing succeeds exactly when no item is
      faulty, and then every item sits in its parameter's slot, nothing else
      is filled, and the registrations follow the items; otherwise the first
      faulty item's exception is raised. */
  lemma {:induction false} PlaceFrom(ps: seq<ParamInfo>, items: seq<Item>, methodName: string, j: nat, acc: Placement)
    requires j <= |items| && Describes(ps, items, j, acc)
    ensures var r := Place(ps, items, methodName, j, acc);
      var f := FirstFault(ps, items, j);
      && (r.Success? <==> f == |items|)
      && (r.Success? ==> Describes(ps, items, |items|, r.value))
      && (r.Failure? ==> r.error == ItemError(ps, items, methodName, f))
    decreases |items| - j
  {
    if j < |items| {
      if Faulty(ps, items, j) {
        PlaceStops(ps, items, methodName, j, acc);
      } else {
        PlaceStep(ps, items, j, acc);
        var i := SlotOf(ps, items[j]);
        var b := items[j].bound.value;
        PlaceFrom(ps, items, methodName, j + 1, Placement(acc.slots[i := Some(b.supplier)], acc.registrations + [b.registration]));
      }
    }
  }

  // ---------------------------------------------------------------------------
  // Every parameter fed

  /** The suppliers in parameter order, once every slot is filled. */
  function Suppliers(slots: seq<Option<Supplier>>): (r: seq<Supplier>)
    requires forall i :: 0 <= i < |slots| ==> slots[i].Some?
    ensures |r| == |slots| && forall i :: 0 <= i < |slots| ==> slots[i] == Some(r[i])
  {
    seq(|slots|, i requires 0 <= i < |slots| => slots[i].value)
  }

  datatype Parameters = Parameters(suppliers: seq<Supplier>, registrations: seq<Registration>)

  /** `BindCommand` for a method: place every item, then require that no
      slot is left empty (the first empty slot names the parameter). */
  function BindParameters(ps: seq<ParamInfo>, items: seq<Item>, methodName: string): (r: Result<Parameters, Error>)
    ensures r.Success? ==> |r.value.suppliers| == |ps|
    ensures r.Success? ==> |r.value.registrations| == |items|
  {
    var placed := Place(ps, items, methodName, 0, Unfilled(|ps|));
    if placed.Failure? then Failure(placed.error)
    else
      var slots := placed.value.slots;
      var i := IndexOf(slots, None);
      if i >= 0 then Failure(UnboundParameter(ps[i]))
      else
        assert forall v :: 0 <= v < |slots| ==> slots[v] != None;
        Success(Parameters(Suppliers(slots), placed.value.registrations))
  }

  /** Parameter `i` is fed by some item. */
  predicate Fed(ps: seq<ParamInfo>, items: seq<Item>, i: nat) {
    exists k :: 0 <= k < |items| && SlotOf(ps, items[k]) == i
  }

  /** The first parameter no item feeds, or `|ps|`. */
  function FirstUnfed(ps: seq<ParamInfo>, items: seq<Item>, i: nat): (u: nat)
    requires i <= |ps|
    ensures i <= u <= |ps|
    ensures u < |ps| ==> !Fed(ps, items, u)
    ensures forall v :: i <= v < u ==> Fed(ps, items, v)
    decreases |ps| - i
  {
    if i == |ps| then i
    else if !Fed(ps, items, i) then i
    else FirstUnfed(ps, items, i + 1)
  }

  /** Once every item is placed, the filled slots are those of fed parameters. */
  lemma FilledIffFed(ps: seq<ParamInfo>, items: seq<Item>, acc: Placement)
    requires Describes(ps, items, |items|, acc)
    ensures forall v :: 0 <= v < |ps| ==> (acc.slots[v].Some? <==> Fed(ps, items, v))
  {
    forall v | 0 <= v < |ps| && Fed(ps, items, v)
      ensures acc.slots[v].Some?
    {
      var k :| 0 <= k < |items| && SlotOf(ps, items[k]) == v;
      assert acc.slots[v] == Some(items[k].bound.value.supplier);
    }
  }

  /** The first empty slot is the first parameter nothing feeds. */
  lemma FirstEmptySlot(ps: seq<ParamInfo>, items: seq<Item>, slots: seq<Option<Supplier>>)
    requires |slots| == |ps|
    requires forall v :: 0 <= v < |ps| ==> (slots[v].Some? <==> Fed(ps, items, v))
    ensures var i := IndexOf(slots, None);
      if i >= 0 then i == FirstUnfed(ps, items, 0) else FirstUnfed(ps, items, 0) == |ps|
  {
    var i := IndexOf(slots, None);
    if i >= 0 {
      assert forall v :: 0 <= v < i ==> slots[v] != None;
    } else {
      assert forall v :: 0 <= v < |ps| ==> slots[v] != None;
    }
  }

  /** Binding a method's parameters, stated without the loops: it succeeds
      exactly when no item is faulty and every parameter is fed. Then the
      suppliers stand in parameter order, each item's supplier at its
      parameter, and the registrations follow the items. It fails with the
      first faulty item's exception if there is one, else naming the first
      parameter nothing feeds. */
  lemma BindParametersSpec(ps: seq<ParamInfo>, items: seq<Item>, methodName: string)
    ensures var r := BindParameters(ps, items, methodName);
      var f := FirstFault(ps, items, 0);
      && (r.Success? <==> f == |items| && FirstUnfed(ps, items, 0) == |ps|)
      && (r.Success? ==>
            && |r.value.suppliers| == |ps|
            && Clean(ps, items, |items|)
            && (forall k :: 0 <= k < |items| ==> r.value.suppliers[SlotOf(ps, items[k])] == items[k].bound.value.supplier)
            && r.value.registrations == RegistrationsOf(ps, items, |items|))
      && (r.Failure? && f < |items| ==> r.error == ItemError(ps, items, methodName, f))
      && (r.Failure? && f == |items| ==> r.error == UnboundParameter(ps[FirstUnfed(ps, items, 0)]))
  {
    var acc := Unfilled(|ps|);
    assert Describes(ps, items, 0, acc);
    PlaceFrom(ps, items, methodName, 0, acc);
    var placed := Place(ps, items, methodName, 0, acc);
    if placed.Success? {
      FilledIffFed(ps, items, placed.value);
      FirstEmptySlot(ps, items, placed.value.slots);
    }
  }

  /** One item of a successful binding: it binds, names a parameter of the
      method, its supplier stands at that parameter and its registration at
      the item's own position. */
  lemma BoundItem(ps: seq<ParamInfo>, items: seq<Item>, methodName: string, k: nat)
    requires BindParameters(ps, items, methodName).Success? && k < |items|
    ensures var r := BindParameters(ps, items, methodName).value;
      && items[k].bound.Success?
      && 0 <= IndexOf(ps, items[k].param)
      && |r.registrations| == |items|
      && r.suppliers[IndexOf(ps, items[k].param)] == items[k].bound.value.supplier
      && r.registrations[k] == items[k].bound.value.registration
  {
    BindParametersSpec(ps, items, methodName);
    assert Placeable(ps, items[k]);
  }
}

=== FILE: string_case.dfy ===
/** The naming utility (`Util/StringCaseExtensions.cs`): a phrase is split into
    words by the pattern
        ^\p{Ll}+ | \p{Lu}+(?!\p{Ll}) | \p{Lu}\p{Ll}+ | \p{N}+ | \p{Ll}+
    and the words are recombined in pascal, camel, snake, kebab or train case.

    Characters are classified by `ClassOf` into the three categories the pattern
    names (lowercase letter, uppercase letter, number) and everything else. */
module StringCase {
  import opened Wrappers
  import opened Seqs

  datatype CharClass = Lower | Upper | Digit | Other

  /** The category of a character (ASCII letters and digits; all else is `Other`). */
  function ClassOf(c: char): CharClass {
    if 'a' <= c <= 'z' then Lower
    else if 'A' <= c <= 'Z' then Upper
    else if '0' <= c <= '9' then Digit
    else Other
  }

  /** `char.ToLowerInvariant`. */
  function ToLowerChar(c: char): (d: char)
    ensures ClassOf(d) != Upper
    ensures ClassOf(c) == Upper ==> ClassOf(d) == Lower
    ensures ClassOf(c) != Upper ==> d == c
  {
    if 'A' <= c <= 'Z' then (c as int + 32) as char else c
  }

  /** `char.ToUpperInvariant`. */
  function ToUpperChar(c: char): (d: char)
    ensures ClassOf(d) != Lower
    ensures ClassOf(c) == Lower ==> ClassOf(d) == Upper
    ensures ClassOf(c) != Lower ==> d == c
    ensures ToLowerChar(d) == ToLowerChar(c)
  {
    if 'a' <= c <= 'z' then (c as int - 32) as char else c
  }

  /** `string.ToLowerInvariant`. */
  function ToLower(s: string): (r: string)
    ensures |r| == |s|
    ensures forall i :: 0 <= i < |s| ==> r[i] == ToLowerChar(s[i])
  {
    seq(|s|, i requires 0 <= i < |s| => ToLowerChar(s[i]))
  }

  /** `string.ToUpperInvariant`. */
  function ToUpper(s: string): (r: string)
    ensures |r| == |s|
    ensures forall i :: 0 <= i < |s| ==> r[i] == ToUpperChar(s[i])
  {
    seq(|s|, i requires 0 <= i < |s| => ToUpperChar(s[i]))
  }

  /** The letters and digits of `s`, in order: what the splitting pattern can match. */
  function Letters(s: string): string {
    if |s| == 0 then []
    else (if ClassOf(s[0]) == Other then [] else [s[0]]) + Letters(s[1..])
  }

  lemma {:induction false} LettersConcat(a: string, b: string)
    ensures Letters(a + b) == Letters(a) + Letters(b)
  {
    if |a| == 0 {
      assert a + b == b;
    } else {
      var head := if ClassOf(a[0]) == Other then [] else [a[0]];
      assert (a + b)[0] == a[0];
      assert (a + b)[1..] == a[1..] + b;
      assert Letters(a + b) == head + Letters(a[1..] + b);
      LettersConcat(a[1..], b);
    }
  }

  lemma {:induction false} LettersOfLetters(s: string)
    requires forall j :: 0 <= j < |s| ==> ClassOf(s[j]) != Other
    ensures Letters(s) == s
  {
    if |s| > 0 {
      LettersOfLetters(s[1..]);
    }
  }

  lemma {:induction false} LettersToLower(s: string)
    ensures Letters(ToLower(s)) == ToLower(Letters(s))
  {
    if |s| > 0 {
      assert ToLower(s)[1..] == ToLower(s[1..]);
      LettersToLower(s[1..]);
      assert ToLower(Letters(s)) == ToLower(if ClassOf(s[0]) == Other then [] else [s[0]]) + ToLower(Letters(s[1..]));
    }
  }

  // ---------------------------------------------------------------------------
  // The splitting pattern, alternative by alternative

  /** The length of the maximal run of class `k` starting at `i`. */
  function RunLength(s: string, i: nat, k: CharClass): (n: nat)
    requires i <= |s|
    ensures i + n <= |s|
    decreases |s| - i
  {
    if i < |s| && ClassOf(s[i]) == k then 1 + RunLength(s, i + 1, k) else 0
  }

  /** The run is of class `k` throughout, and the character after it is not. */
  lemma {:induction false} RunLengthMaximal(s: string, i: nat, k: CharClass)
    requires i <= |s|
    ensures forall j :: i <= j < i + RunLength(s, i, k) ==> ClassOf(s[j]) == k
    ensures i + RunLength(s, i, k) == |s| || ClassOf(s[i + RunLength(s, i, k)]) != k
    decreases |s| - i
  {
    if i < |s| && ClassOf(s[i]) == k {
      RunLengthMaximal(s, i + 1, k);
    }
  }

  /** A run is maximal in only one way. */
  lemma {:induction false} RunLengthIs(s: string, i: nat, k: CharClass, n: nat)
    requires i + n <= |s|
    requires forall j :: i <= j < i + n ==> ClassOf(s[j]) == k
    requires i + n == |s| || ClassOf(s[i + n]) != k
    ensures RunLength(s, i, k) == n
    decreases n
  {
    if n > 0 {
      RunLengthIs(s, i + 1, k, n - 1);
    }
  }

  /** `\p{Lu}+(?!\p{Ll})` at `i`, once the greedy `\p{Lu}+` has taken `k`
      capitals: the engine gives capitals back one at a time until the
      character after the match is not a lowercase letter. */
  function GiveBack(s: string, i: nat, k: nat): (r: Option<nat>)
    requires i + k <= |s|
    ensures r.Some? ==> 0 < r.value <= k
    decreases k
  {
    if k == 0 then None
    else if i + k == |s| || ClassOf(s[i + k]) != Lower then Some(k)
    else GiveBack(s, i, k - 1)
  }

  /** The match of the whole pattern at position `i`, as a length: the
      alternatives are tried left to right and the first that matches wins. */
  function MatchAt(s: string, i: nat): (r: Option<nat>)
    requires i < |s|
    ensures r.Some? ==> 0 < r.value && i + r.value <= |s|
  {
    var upper := GiveBack(s, i, RunLength(s, i, Upper));
    if i == 0 && RunLength(s, 0, Lower) > 0 then Some(RunLength(s, 0, Lower))
    else if upper.Some? then upper
    else if ClassOf(s[i]) == Upper && RunLength(s, i + 1, Lower) > 0 then Some(1 + RunLength(s, i + 1, Lower))
    else if RunLength(s, i, Digit) > 0 then Some(RunLength(s, i, Digit))
    else if RunLength(s, i, Lower) > 0 then Some(RunLength(s, i, Lower))
    else None
  }

  /** `Regex.Matches`: after a match the scan resumes at its end, and where
      nothing matches it moves on by one character. */
  function Scan(s: string, i: nat): seq<string>
    requires i <= |s|
    decreases |s| - i
  {
    if i == |s| then []
    else match MatchAt(s, i)
      case None => Scan(s, i + 1)
      case Some(n) => [s[i..i + n]] + Scan(s, i + n)
  }

  /** `SplitPhrase`: the words of a phrase. */
  function SplitPhrase(s: string): seq<string> {
    Scan(s, 0)
  }

  // ---------------------------------------------------------------------------
  // What a match is, stated directly by the class of the character at `i`

  /** The word starting at `i`, decided without backtracking: a lowercase or
      digit run is taken whole; a capital run is taken whole unless a lowercase
      letter follows it, in which case its last capital starts the next word
      (or, for a lone capital, the capital takes the lowercase run with it). */
  function WordAt(s: string, i: nat): Option<nat>
    requires i < |s|
  {
    match ClassOf(s[i])
    case Other => None
    case Lower => Some(RunLength(s, i, Lower))
    case Digit => Some(RunLength(s, i, Digit))
    case Upper =>
      var u := RunLength(s, i, Upper);
      if i + u < |s| && ClassOf(s[i + u]) == Lower then
        if u >= 2 then Some(u - 1) else Some(1 + RunLength(s, i + 1, Lower))
      else Some(u)
  }

  lemma GiveBackOnCapitals(s: string, i: nat)
    requires i < |s| && ClassOf(s[i]) == Upper
    ensures var u := RunLength(s, i, Upper);
      GiveBack(s, i, u) ==
        if i + u < |s| && ClassOf(s[i + u]) == Lower then
          (if u >= 2 then Some(u - 1) else None)
        else Some(u)
  {
    var u := RunLength(s, i, Upper);
    RunLengthMaximal(s, i, Upper);
    if i + u < |s| && ClassOf(s[i + u]) == Lower && u >= 2 {
      assert ClassOf(s[i + u - 1]) == Upper;
    }
  }

  /** The backtracking pattern and the direct description agree everywhere. */
  lemma MatchAtIsWordAt(s: string, i: nat)
    requires i < |s|
    ensures MatchAt(s, i) == WordAt(s, i)
  {
    match ClassOf(s[i])
    case Upper =>
      GiveBackOnCapitals(s, i);
    case Lower =>
      assert RunLength(s, i, Upper) == 0;
    case Digit =>
      assert RunLength(s, i, Upper) == 0;
    case Other =>
      assert RunLength(s, i, Upper) == 0;
  }

  /** A word: a lowercase run, a capital run, a digit run, or one capital
      followed by a lowercase run. */
  predicate IsRun(t: string, k: CharClass) {
    |t| > 0 && forall j :: 0 <= j < |t| ==> ClassOf(t[j]) == k
  }

  predicate IsWord(t: string) {
    || IsRun(t, Lower)
    || IsRun(t, Upper)
    || IsRun(t, Digit)
    || (|t| >= 2 && ClassOf(t[0]) == Upper && IsRun(t[1..], Lower))
  }

  lemma WordHasNoOther(t: string)
    requires IsWord(t)
    ensures forall j :: 0 <= j < |t| ==> ClassOf(t[j]) != Other
  {
    if !IsRun(t, Lower) && !IsRun(t, Upper) && !IsRun(t, Digit) {
      assert forall j :: 1 <= j < |t| ==> t[j] == t[1..][j - 1];
    }
  }

  lemma WordAtIsWord(s: string, i: nat)
    requires i < |s| && WordAt(s, i).Some?
    ensures IsWord(s[i..i + WordAt(s, i).value])
  {
    var n := WordAt(s, i).value;
    var t := s[i..i + n];
    RunLengthMaximal(s, i, ClassOf(s[i]));
    RunLengthMaximal(s, i + 1, Lower);
    if ClassOf(s[i]) == Upper {
      var u := RunLength(s, i, Upper);
      if i + u < |s| && ClassOf(s[i + u]) == Lower && u < 2 {
        assert IsRun(t[1..], Lower) by {
          assert forall j :: 0 <= j < |t| - 1 ==> t[1..][j] == s[i + 1 + j];
        }
      }
    }
  }

  /** One step of the scan, stated through `WordAt`. */
  lemma ScanStep(s: string, i: nat)
    requires i < |s|
    ensures WordAt(s, i).None? ==> Scan(s, i) == Scan(s, i + 1)
    ensures WordAt(s, i).Some? ==>
      i + WordAt(s, i).value <= |s| &&
      Scan(s, i) == [s[i..i + WordAt(s, i).value]] + Scan(s, i + WordAt(s, i).value)
  {
    MatchAtIsWordAt(s, i);
  }

  predicate AllWords(ws: seq<string>) {
    forall k :: 0 <= k < |ws| ==> IsWord(ws[k])
  }

  lemma AllWordsCons(w: string, ws: seq<string>)
    requires IsWord(w) && AllWords(ws)
    ensures AllWords([w] + ws)
  {
    assert forall k :: 0 < k < |ws| + 1 ==> ([w] + ws)[k] == ws[k - 1];
  }

  /** Every word of a phrase is non-empty and has one of the four shapes. */
  lemma {:induction false} ScanWords(s: string, i: nat)
    requires i <= |s|
    ensures AllWords(Scan(s, i))
    decreases |s| - i
  {
    if i < |s| {
      ScanStep(s, i);
      match WordAt(s, i)
      case None =>
        ScanWords(s, i + 1);
      case Some(n) =>
        WordAtIsWord(s, i);
        ScanWords(s, i + n);
        AllWordsCons(s[i..i + n], Scan(s, i + n));
    }
  }

  lemma LettersAfterWord(s: string, i: nat, n: nat)
    requires i + n <= |s| && IsWord(s[i..i + n])
    ensures Letters(s[i..]) == s[i..i + n] + Letters(s[i + n..])
  {
    WordHasNoOther(s[i..i + n]);
    LettersOfLetters(s[i..i + n]);
    assert s[i..] == s[i..i + n] + s[i + n..];
    LettersConcat(s[i..i + n], s[i + n..]);
  }

  lemma LettersAfterOther(s: string, i: nat)
    requires i < |s| && ClassOf(s[i]) == Other
    ensures Letters(s[i..]) == Letters(s[i + 1..])
  {
    assert s[i..][1..] == s[i + 1..];
  }

  /** The words of a phrase, concatenated, are its letters and digits in order:
      nothing but the other characters is dropped, and nothing is repeated. */
  lemma {:induction false} ScanLetters(s: string, i: nat)
    requires i <= |s|
    ensures Flatten(Scan(s, i)) == Letters(s[i..])
    decreases |s| - i
  {
    if i < |s| {
      ScanStep(s, i);
      match WordAt(s, i)
      case None =>
        LettersAfterOther(s, i);
        ScanLetters(s, i + 1);
      case Some(n) =>
        WordAtIsWord(s, i);
        LettersAfterWord(s, i, n);
        ScanLetters(s, i + n);
        FlattenCons(s[i..i + n], Scan(s, i + n));
    }
  }

  lemma SplitPhraseWords(s: string)
    ensures forall k :: 0 <= k < |SplitPhrase(s)| ==> IsWord(SplitPhrase(s)[k])
    ensures Flatten(SplitPhrase(s)) == Letters(s)
  {
    ScanWords(s, 0);
    ScanLetters(s, 0);
    assert s[0..] == s;
  }

  /** "HTMLParser" splits before the capital that starts a lowercase word. */
  lemma SplitPhraseExample(s: string)
    requires s == "HTMLParser"
    ensures SplitPhrase(s) == ["HTML", "Parser"]
  {
    RunLengthIs(s, 0, Upper, 5);
    RunLengthIs(s, 4, Upper, 1);
    RunLengthIs(s, 5, Lower, 5);
    ScanStep(s, 0);
    ScanStep(s, 4);
    assert s[0..4] == "HTML";
    assert s[4..10] == "Parser";
  }

  // ---------------------------------------------------------------------------
  // Recombining the words

  /** The rule pascal, camel and train case apply to each word: a two-letter
      word gets a capital first letter only when it starts lowercase (so "ID"
      stays "ID"), a longer word becomes capital-then-lowercase, and a single
      character is uppercased. */
  function Capitalize(w: string): (r: string)
    ensures |r| == |w|
    ensures ToLower(r) == ToLower(w)
    ensures |w| > 0 ==> ClassOf(r[0]) != Lower
    ensures |w| == 2 ==> r[1] == w[1]
    ensures |w| > 2 ==> forall j :: 1 <= j < |r| ==> ClassOf(r[j]) != Upper
  {
    if |w| == 2 then
      if ClassOf(w[0]) == Lower then [ToUpperChar(w[0])] + w[1..] else w
    else if |w| > 2 then [ToUpperChar(w[0])] + ToLower(w[1..])
    else ToUpper(w)
  }

  lemma ToLowerIdempotent(s: string)
    ensures ToLower(ToLower(s)) == ToLower(s)
  {
  }

  /** Capitalizing a capitalized word changes nothing. */
  lemma CapitalizeIdempotent(w: string)
    ensures Capitalize(Capitalize(w)) == Capitalize(w)
  {
    var r := Capitalize(w);
    if |w| > 2 {
      assert r[1..] == ToLower(w[1..]);
      ToLowerIdempotent(w[1..]);
    } else if |w| < 2 {
      assert ToUpper(ToUpper(w)) == ToUpper(w);
    }
  }

  /** Letter case changes neither letters into other characters nor the reverse. */
  lemma SameLettersUpToCase(a: string, b: string)
    requires ToLower(a) == ToLower(b)
    ensures forall j :: 0 <= j < |a| ==> (ClassOf(a[j]) == Other <==> ClassOf(b[j]) == Other)
  {
    forall j | 0 <= j < |a|
      ensures ClassOf(a[j]) == Other <==> ClassOf(b[j]) == Other
    {
      assert ToLower(a)[j] == ToLower(b)[j];
    }
  }

  function LowerAll(ws: seq<string>): (r: seq<string>)
    ensures |r| == |ws|
    ensures forall k :: 0 <= k < |ws| ==> r[k] == ToLower(ws[k])
  {
    seq(|ws|, k requires 0 <= k < |ws| => ToLower(ws[k]))
  }

  function CapitalizeAll(ws: seq<string>): (r: seq<string>)
    ensures |r| == |ws|
    ensures forall k :: 0 <= k < |ws| ==> r[k] == Capitalize(ws[k])
  {
    seq(|ws|, k requires 0 <= k < |ws| => Capitalize(ws[k]))
  }

  /** `ToPascalCase`: every word by the capitalizing rule, concatenated. */
  function ToPascalCase(s: string): string {
    Flatten(CapitalizeAll(SplitPhrase(s)))
  }

  /** `ToCamelCase`: the first word lowercased, the others by the capitalizing rule. */
  function ToCamelCase(s: string): string {
    var ws := SplitPhrase(s);
    if |ws| == 0 then "" else Flatten(LowerAll(ws[..1]) + CapitalizeAll(ws[1..]))
  }

  /** `ToSnakeCase`: the words lowercased, joined by underscores. */
  function ToSnakeCase(s: string): string {
    Join('_', LowerAll(SplitPhrase(s)))
  }

  /** `ToKebabCase`: the words lowercased, joined by hyphens. */
  function ToKebabCase(s: string): string {
    Join('-', LowerAll(SplitPhrase(s)))
  }

  /** `ToTrainCase`: every word by the capitalizing rule, joined by hyphens. */
  function ToTrainCase(s: string): string {
    Join('-', CapitalizeAll(SplitPhrase(s)))
  }

  // ---------------------------------------------------------------------------
  // Properties of the casings

  /** A lowercased word is a lowercase run or a digit run. */
  predicate IsLowerWord(t: string) {
    IsRun(t, Lower) || IsRun(t, Digit)
  }

  lemma LowerWordOfWord(w: string)
    requires IsWord(w)
    ensures IsLowerWord(ToLower(w))
  {
    WordHasNoOther(w);
    if !IsRun(w, Digit) {
      forall j | 0 <= j < |w|
        ensures ClassOf(ToLower(w)[j]) == Lower
      {
        if !IsRun(w, Lower) && !IsRun(w, Upper) && j > 0 {
          assert w[j] == w[1..][j - 1];
        }
      }
    }
  }

  /** Where a lowercase or digit run ends at a separator or at the end, the scan
      takes it as one word. */
  lemma WordAtRun(s: string, i: nat, n: nat)
    requires i + n <= |s| && IsLowerWord(s[i..i + n])
    requires i + n == |s| || ClassOf(s[i + n]) == Other
    ensures WordAt(s, i) == Some(n)
  {
    var k := ClassOf(s[i]);
    assert s[i..i + n][0] == s[i];
    assert forall j :: i <= j < i + n ==> s[j] == s[i..i + n][j - i];
    RunLengthIs(s, i, k, n);
  }

  /** One word and its separator, then the rest. */
  lemma ScanJoinStep(a: string, w: string, sep: char, rest: string)
    requires ClassOf(sep) == Other && IsLowerWord(w)
    ensures Scan(a + w + [sep] + rest, |a|) == [w] + Scan(a + w + [sep] + rest, |a + w + [sep]|)
  {
    var s := a + w + [sep] + rest;
    var i := |a|;
    var n := |w|;
    assert s[i..i + n] == w;
    assert s[i + n] == sep;
    WordAtRun(s, i, n);
    ScanStep(s, i);
    ScanStep(s, i + n);
    assert WordAt(s, i + n) == None;
  }

  /** The last word. */
  lemma ScanJoinLast(a: string, w: string)
    requires IsLowerWord(w)
    ensures Scan(a + w, |a|) == [w]
  {
    var s := a + w;
    assert s[|a|..|a| + |w|] == w;
    WordAtRun(s, |a|, |w|);
    ScanStep(s, |a|);
  }

  /** Scanning lowercase words joined by a separator gives the words back. */
  lemma {:induction false} ScanJoin(a: string, sep: char, ws: seq<string>)
    requires ClassOf(sep) == Other
    requires forall k :: 0 <= k < |ws| ==> IsLowerWord(ws[k])
    ensures Scan(a + Join(sep, ws), |a|) == ws
    decreases |ws|
  {
    if |ws| == 0 {
      assert a + Join(sep, ws) == a;
    } else if |ws| == 1 {
      ScanJoinLast(a, ws[0]);
    } else {
      var rest := Join(sep, ws[1..]);
      var a' := a + ws[0] + [sep];
      assert Join(sep, ws) == ws[0] + [sep] + rest;
      assert a + (ws[0] + [sep] + rest) == a' + rest;
      ScanJoinStep(a, ws[0], sep, rest);
      ScanJoin(a', sep, ws[1..]);
      assert ws == [ws[0]] + ws[1..];
    }
  }

  /** Phrases made of lowercase words and separators split back into those words. */
  lemma SplitPhraseJoin(sep: char, ws: seq<string>)
    requires ClassOf(sep) == Other
    requires forall k :: 0 <= k < |ws| ==> IsLowerWord(ws[k])
    ensures SplitPhrase(Join(sep, ws)) == ws
  {
    ScanJoin([], sep, ws);
    assert [] + Join(sep, ws) == Join(sep, ws);
  }

  /** The letters of words joined by a separator are the words run together. */
  lemma {:induction false} LettersOfJoin(sep: char, ws: seq<string>)
    requires ClassOf(sep) == Other
    requires forall k, j :: 0 <= k < |ws| && 0 <= j < |ws[k]| ==> ClassOf(ws[k][j]) != Other
    ensures Letters(Join(sep, ws)) == Flatten(ws)
  {
    if |ws| == 1 {
      LettersOfLetters(ws[0]);
      assert Flatten(ws) == ws[0] + Flatten(ws[1..]);
    } else if |ws| > 1 {
      LettersOfLetters(ws[0]);
      LettersConcat(ws[0], [sep]);
      LettersConcat(ws[0] + [sep], Join(sep, ws[1..]));
      LettersOfJoin(sep, ws[1..]);
    }
  }

  /** Lowercasing word by word is lowercasing the whole. */
  lemma {:induction false} FlattenLowerAll(ws: seq<string>)
    ensures Flatten(LowerAll(ws)) == ToLower(Flatten(ws))
  {
    if |ws| > 0 {
      assert LowerAll(ws)[1..] == LowerAll(ws[1..]);
      FlattenLowerAll(ws[1..]);
    }
  }

  lemma LowerAllIdempotent(ws: seq<string>)
    ensures LowerAll(LowerAll(ws)) == LowerAll(ws)
  {
    forall k | 0 <= k < |ws|
      ensures LowerAll(LowerAll(ws))[k] == LowerAll(ws)[k]
    {
      ToLowerIdempotent(ws[k]);
    }
  }

  /** The facts shared by snake and kebab case, for either separator. */
  lemma LowerJoinShape(sep: char, s: string)
    requires ClassOf(sep) == Other
    ensures var ws := LowerAll(SplitPhrase(s));
      && SplitPhrase(Join(sep, ws)) == ws
      && Letters(Join(sep, ws)) == ToLower(Letters(s))
      && (|ws| > 0 ==> SplitOn(Join(sep, ws), sep) == ws)
      && (Join(sep, ws) == [] <==> Letters(s) == [])
  {
    var words := SplitPhrase(s);
    var ws := LowerAll(words);
    SplitPhraseWords(s);
    forall k | 0 <= k < |ws|
      ensures IsLowerWord(ws[k])
    {
      LowerWordOfWord(words[k]);
    }
    SplitPhraseJoin(sep, ws);
    LettersOfJoin(sep, ws);
    FlattenLowerAll(words);
    if |ws| > 0 {
      SplitOnJoin(sep, ws);
    }
    if Letters(s) == [] {
      assert Join(sep, ws) == [];
    } else {
      assert Letters(Join(sep, ws)) != [];
    }
  }

  /** Snake and kebab case hold no capital, and they neither start nor end
      with the separator: they start and end with a letter or digit. */
  lemma LowerJoinClean(sep: char, s: string)
    requires ClassOf(sep) == Other
    ensures var r := Join(sep, LowerAll(SplitPhrase(s)));
      && (forall j :: 0 <= j < |r| ==> ClassOf(r[j]) in {Lower, Digit} || r[j] == sep)
      && (|r| > 0 ==> ClassOf(r[0]) != Other && ClassOf(r[|r| - 1]) != Other)
  {
    var words := SplitPhrase(s);
    var ws := LowerAll(words);
    var r := Join(sep, ws);
    SplitPhraseWords(s);
    forall k | 0 <= k < |ws| ensures IsLowerWord(ws[k]) {
      LowerWordOfWord(words[k]);
    }
    forall j | 0 <= j < |r| ensures ClassOf(r[j]) in {Lower, Digit} || r[j] == sep {
      JoinElements(sep, ws, r[j]);
      if r[j] != sep {
        var k :| 0 <= k < |ws| && r[j] in ws[k];
        var m :| 0 <= m < |ws[k]| && ws[k][m] == r[j];
      }
    }
    if |r| > 0 {
      assert |ws| > 0;
      JoinEnds(sep, ws);
    }
  }

  /** Kebab case: the words of the result are the lowercased words of the
      input, the result has the input's letters lowercased, splitting it at
      hyphens gives the words, and converting it again changes nothing. */
  lemma KebabCase(s: string)
    ensures SplitPhrase(ToKebabCase(s)) == LowerAll(SplitPhrase(s))
    ensures Letters(ToKebabCase(s)) == ToLower(Letters(s))
    ensures |SplitPhrase(s)| > 0 ==> SplitOn(ToKebabCase(s), '-') == LowerAll(SplitPhrase(s))
    ensures ToKebabCase(s) == [] <==> Letters(s) == []
    ensures ToKebabCase(ToKebabCase(s)) == ToKebabCase(s)
    ensures forall j :: 0 <= j < |ToKebabCase(s)| ==> ClassOf(ToKebabCase(s)[j]) != Upper
    ensures |ToKebabCase(s)| > 0 ==> ToKebabCase(s)[0] != '-' && ToKebabCase(s)[|ToKebabCase(s)| - 1] != '-'
  {
    LowerJoinShape('-', s);
    LowerJoinClean('-', s);
    LowerAllIdempotent(SplitPhrase(s));
  }

  /** Snake case: as kebab case, with underscores. */
  lemma SnakeCase(s: string)
    ensures SplitPhrase(ToSnakeCase(s)) == LowerAll(SplitPhrase(s))
    ensures Letters(ToSnakeCase(s)) == ToLower(Letters(s))
    ensures |SplitPhrase(s)| > 0 ==> SplitOn(ToSnakeCase(s), '_') == LowerAll(SplitPhrase(s))
    ensures ToSnakeCase(s) == [] <==> Letters(s) == []
    ensures ToSnakeCase(ToSnakeCase(s)) == ToSnakeCase(s)
    ensures forall j :: 0 <= j < |ToSnakeCase(s)| ==> ClassOf(ToSnakeCase(s)[j]) != Upper
    ensures |ToSnakeCase(s)| > 0 ==> ToSnakeCase(s)[0] != '_' && ToSnakeCase(s)[|ToSnakeCase(s)| - 1] != '_'
  {
    LowerJoinShape('_', s);
    LowerJoinClean('_', s);
    LowerAllIdempotent(SplitPhrase(s));
  }

  /** Capitalizing word by word keeps the letters up to case. */
  lemma {:induction false} FlattenCapitalizeAll(ws: seq<string>)
    ensures ToLower(Flatten(CapitalizeAll(ws))) == ToLower(Flatten(ws))
  {
    FlattenLowerAll(CapitalizeAll(ws));
    FlattenLowerAll(ws);
    assert LowerAll(CapitalizeAll(ws)) == LowerAll(ws);
  }

  /** Pascal case has exactly the letters of the input, up to case, and each
      word of the input contributes a word that does not start lowercase. */
  lemma PascalCase(s: string)
    ensures ToLower(ToPascalCase(s)) == ToLower(Letters(s))
    ensures Letters(ToPascalCase(s)) == ToPascalCase(s)
    ensures |SplitPhrase(s)| > 0 ==> |ToPascalCase(s)| > 0 && ClassOf(ToPascalCase(s)[0]) != Lower
  {
    var words := SplitPhrase(s);
    SplitPhraseWords(s);
    FlattenCapitalizeAll(words);
    var p := ToPascalCase(s);
    SameLettersUpToCase(p, Letters(s));
    forall j | 0 <= j < |p| ensures ClassOf(p[j]) != Other {
      assert ToLower(p)[j] == ToLower(Letters(s))[j];
      LettersHaveNoOther(s);
    }
    LettersOfLetters(p);
    if |words| > 0 {
      assert p == Capitalize(words[0]) + Flatten(CapitalizeAll(words)[1..]);
    }
  }

  lemma {:induction false} LettersHaveNoOther(s: string)
    ensures forall j :: 0 <= j < |Letters(s)| ==> ClassOf(Letters(s)[j]) != Other
  {
    if |s| > 0 {
      LettersHaveNoOther(s[1..]);
    }
  }

  lemma FlattenFirstWord(ws: seq<string>)
    requires |ws| > 0
    ensures Flatten(LowerAll(ws[..1]) + CapitalizeAll(ws[1..])) == ToLower(ws[0]) + Flatten(CapitalizeAll(ws[1..]))
    ensures Flatten(CapitalizeAll(ws)) == Capitalize(ws[0]) + Flatten(CapitalizeAll(ws[1..]))
  {
    assert LowerAll(ws[..1]) + CapitalizeAll(ws[1..]) == [ToLower(ws[0])] + CapitalizeAll(ws[1..]);
    assert CapitalizeAll(ws) == [Capitalize(ws[0])] + CapitalizeAll(ws[1..]);
  }

  /** Both casings share everything after the first word. */
  lemma CamelPascalSplit(s: string)
    requires |SplitPhrase(s)| > 0
    ensures var ws := SplitPhrase(s);
      && ToCamelCase(s) == ToLower(ws[0]) + Flatten(CapitalizeAll(ws[1..]))
      && ToPascalCase(s) == Capitalize(ws[0]) + Flatten(CapitalizeAll(ws[1..]))
  {
    FlattenFirstWord(SplitPhrase(s));
  }

  lemma ToLowerConcat(a: string, b: string)
    ensures ToLower(a + b) == ToLower(a) + ToLower(b)
  {
  }

  /** Camel case differs from pascal case only in the first word, which it
      lowercases entirely. */
  lemma CamelCase(s: string)
    ensures |ToCamelCase(s)| == |ToPascalCase(s)|
    ensures ToLower(ToCamelCase(s)) == ToLower(ToPascalCase(s))
    ensures |SplitPhrase(s)| > 0 ==>
      var n := |SplitPhrase(s)[0]|;
      && n <= |ToCamelCase(s)|
      && ToCamelCase(s)[n..] == ToPascalCase(s)[n..]
      && forall j :: 0 <= j < n ==> ClassOf(ToCamelCase(s)[j]) != Upper
  {
    var ws := SplitPhrase(s);
    if |ws| > 0 {
      CamelPascalSplit(s);
      var rest := Flatten(CapitalizeAll(ws[1..]));
      var first := ToLower(ws[0]);
      ToLowerIdempotent(ws[0]);
      ToLowerConcat(first, rest);
      ToLowerConcat(Capitalize(ws[0]), rest);
      assert ToCamelCase(s)[|ws[0]|..] == rest;
      assert ToPascalCase(s)[|ws[0]|..] == rest;
      assert forall j :: 0 <= j < |ws[0]| ==> ToCamelCase(s)[j] == first[j];
    }
  }

  /** Train case is pascal case with a hyphen between the words: splitting it
      at hyphens gives the capitalized words, and dropping the hyphens gives
      pascal case. */
  lemma TrainCase(s: string)
    ensures |SplitPhrase(s)| > 0 ==> SplitOn(ToTrainCase(s), '-') == CapitalizeAll(SplitPhrase(s))
    ensures Letters(ToTrainCase(s)) == ToPascalCase(s)
  {
    var words := SplitPhrase(s);
    var ws := CapitalizeAll(words);
    SplitPhraseWords(s);
    forall k, j | 0 <= k < |ws| && 0 <= j < |ws[k]|
      ensures ClassOf(ws[k][j]) != Other
    {
      WordHasNoOther(words[k]);
      SameLettersUpToCase(ws[k], words[k]);
    }
    forall k | 0 <= k < |ws|
      ensures '-' !in ws[k]
    {
      assert forall j :: 0 <= j < |ws[k]| ==> ws[k][j] != '-';
    }
    LettersOfJoin('-', ws);
    if |ws| > 0 {
      SplitOnJoin('-', ws);
    }
  }
}

=== FILE: types.dfy ===
/** Runtime types and values, as far as the command pipeline inspects them.

    A `Ty` stands for a .NET `Type`: a plain named type, an array, a closed
    constructed generic type, an open generic type definition, or a generic
    type parameter. Which type is assignable from which is not computed here:
    the operations that need `Type.IsAssignableFrom` take it as a relation. */
module Types {
  import opened Wrappers

  datatype Ty =
    | Named(name: string)
    | ArrayTy(elem: Ty, rank: nat)
      /** `def` is the definition's name as `Type.Name` prints it, such as "List`1". */
    | GenericTy(def: string, args: seq<Ty>)
    | OpenGeneric(def: string, arity: nat)
    | TypeParam(param: string)

  /** `Type.IsAssignableFrom`, as a relation: `assignable(a, b)` means a value
      of type `b` may be stored where an `a` is expected. */
  type Assignability = (Ty, Ty) -> bool

  /** Which behaviour a member follows where the source's code and its
      evident intent part: the code as written, or the corrected one. The
      public entry points use `AsWritten`; `Corrected` is kept so that the
      intended behaviour can be stated and proved next to it. */
  datatype Variant = AsWritten | Corrected

  const StringTy := Named("String")
  const BoolTy := Named("Boolean")
  const ObjectTy := Named("Object")
  const StringArrayTy := ArrayTy(StringTy, 1)
  const ListOfStringTy := GenericTy("List`1", [StringTy])
  const OpenEnumerableTy := OpenGeneric("IEnumerable`1", 1)
  const EnumerableTy := Named("IEnumerable")

  function EnumerableOf(t: Ty): Ty {
    GenericTy("IEnumerable`1", [t])
  }

  function ListOf(t: Ty): Ty {
    GenericTy("List`1", [t])
  }

  function IListOf(t: Ty): Ty {
    GenericTy("IList`1", [t])
  }

  /** `Type.ContainsGenericParameters`: the type mentions an unbound parameter. */
  predicate ContainsGenericParameters(t: Ty) {
    match t
    case Named(_) => false
    case ArrayTy(e, _) => ContainsGenericParameters(e)
    case GenericTy(_, args) => exists i :: 0 <= i < |args| && ContainsGenericParameters(args[i])
    case OpenGeneric(_, _) => true
    case TypeParam(_) => true
  }

  /** `Type.IsGenericType`. */
  predicate IsGenericType(t: Ty) {
    t.GenericTy? || t.OpenGeneric?
  }

  /** `Type.GetElementType`: only arrays have one. */
  function ElementType(t: Ty): (r: Option<Ty>)
    ensures r.Some? <==> t.ArrayTy?
  {
    if t.ArrayTy? then Some(t.elem) else None
  }

  /** `Type.Name`: an array's name is its element's followed by brackets with
      one comma per extra dimension. */
  function TypeName(t: Ty): string {
    match t
    case Named(n) => n
    case ArrayTy(e, rank) => TypeName(e) + "[" + seq(if rank == 0 then 0 else rank - 1, _ => ',') + "]"
    case GenericTy(d, _) => d
    case OpenGeneric(d, _) => d
    case TypeParam(p) => p
  }

  /** A runtime value. Objects whose insides do not matter carry only their
      type and an identity; results of calls into user code are recorded
      symbolically with their inputs. */
  datatype Value =
    | Null
    | Text(s: string)
    | Truth(b: bool)
    | Object(ty: Ty, id: nat)
      /** An array or list: its runtime type and its items in enumeration order. */
    | Items(ty: Ty, items: seq<Value>)
      /** What invoking the `ctor`-th constructor of `ty` on `args` produced. */
    | Constructed(ty: Ty, ctor: nat, args: seq<Value>)
      /** What invoking the method `methodName` declared on `owner` produced. */
    | Returned(owner: Ty, methodName: string, returnTy: Ty, receiver: Option<Value>, args: seq<Value>)

  /** `object.GetType()`; a null reference has none. */
  function RuntimeType(v: Value): (r: Option<Ty>)
    ensures r.None? <==> v.Null?
  {
    match v
    case Null => None
    case Text(_) => Some(StringTy)
    case Truth(_) => Some(BoolTy)
    case Object(t, _) => Some(t)
    case Items(t, _) => Some(t)
    case Constructed(t, _, _) => Some(t)
    case Returned(_, _, t, _, _) => Some(t)
  }

  /** A list of strings as the parser hands it over (`List<string>`). */
  function TextList(ss: seq<string>): (r: Value)
    ensures RuntimeType(r) == Some(ListOfStringTy)
    ensures r.Items? && |r.items| == |ss| && forall i :: 0 <= i < |ss| ==> r.items[i] == Text(ss[i])
  {
    Items(ListOfStringTy, seq(|ss|, i requires 0 <= i < |ss| => Text(ss[i])))
  }

  /** The same strings copied into an array (`ToArray()`). */
  function TextArray(ss: seq<string>): (r: Value)
    ensures RuntimeType(r) == Some(StringArrayTy)
    ensures r.Items? && r.items == TextList(ss).items
  {
    Items(StringArrayTy, TextList(ss).items)
  }
}

=== FILE: wrappers.dfy ===
/** Nullable values and success/failure outcomes, standing in for C# `null`
    and for exceptions thrown by the modelled operations. */
module Wrappers {

  /** A value that may be absent (a C# reference or `Nullable<T>` that may be null). */
  datatype Option<+T> = None | Some(value: T) {

    /** The C# `??` operator: the value if present, else `default`. */
    function GetOr(default: T): T {
      match this
      case Some(v) => v
      case None => default
    }
  }

  /** The outcome of an operation that may throw: `Failure` carries the exception. */
  datatype Result<+R, +E> = Success(value: R) | Failure(error: E) {

    predicate IsFailure() {
      Failure?
    }

    function PropagateFailure<U>(): Result<U, E>
      requires Failure?
    {
      Failure(error)
    }

    function Extract(): R
      requires Success?
    {
      value
    }
  }
}
